=== FILE: README.md ===
# A verified model of the api-performance-frontend curl converter

The front end of api-performance-frontend lets a user edit an HTTP request, see it
as a `curl` command, and paste a `curl` command back in to fill the editor. This
project models the pure logic behind that:

- **The importer.** `src/services/curlImportService.js` has three parts:
  - a shell-like tokenizer: continuation folding, trimming, and a scanner with
    single quotes, double quotes and escapes;
  - a flag interpreter for `-X`, `-I`, `-G`, `-H`, `--url`, the data flags, `-b`
    and `-u`, where the first bare word becomes the URL;
  - a post-pass that turns `Authorization: Bearer|Basic` headers into
    authentication.
- **The exporter.** `src/services/curlService.js` covers:
  - `shellQuote`;
  - collapsing header pairs into an object;
  - mapping auth to a header;
  - the body-eligibility rule;
  - the line layout.
- **Scheme defaulting**, from `src/lib/url.js`.
- **The editor's pure decisions**, from `src/components/RequestForm.jsx`: pair
  normalisation, the curl preview, import and the submit guards.
- **Response display helpers**, from `src/components/ResponseViewer.jsx`:
  case-insensitive header lookup, the XML indenter, the language dispatch and the
  colour buckets.
- **Row operations** of the key/value tables, from `src/components/KeyValueSection.jsx`.
- **History and URL suggestions** of the home page, from `src/pages/HomePage.jsx`.

The source runs some of its logic in library code. Every such call is a field of
`Model.Env`, a function value supplied by the caller:

- the WHATWG `URL` parser and `URLSearchParams` serialisation;
- `JSON.parse` and `JSON.stringify`;
- `atob` and `btoa`.

A call that throws becomes `None`. The proofs therefore hold for every behaviour
of these libraries.

The importer is split into two stages:

1. `CurlImport.Lex` groups tokens with the arguments they consume, exactly as the
   index-driven loop does.
2. `CurlImport.Interpret` folds the resulting flags into the accumulated request.

Each field of the result is then characterised by a reference definition, such as
"the last method flag", "the first bare word" or "the headers in order".

On top of this, `RoundTrip` proves what an exported command reads back as. The
steps are:

- the command is tokenized back into exactly the words the generator wrote;
- these words lex into the expected flags;
- the importer then recovers every field.

This holds for payloads satisfying `RoundTrip.Reimportable`. The recovered
request deliberately differs from the exported one where the source makes it
differ:

- a GET that carries a body comes back as POST;
- header keys and values are trimmed;
- an `Authorization` header is absorbed into the auth field.

Modules, one per file:

- `Options`, `Seqs` and `Strings` hold the JavaScript primitives the code relies on.
- `Model` holds the shared request shape.
- `Tokenizer`, `Quoting` and `CurlImport` model the importer.
- `CurlExport` models the exporter.
- `Reimport` and `RoundTrip` prove the round trip.
- `Url`, `RequestForm`, `ResponseViewer`, `KeyValueRows` and `History` model the
  UI cores.

## Model

| member | source | states |
|---|---|---|
| Strings.Trim | src/services/curlImportService.js:4 | `trim()` yields the empty string exactly for all-whitespace input, never starts or ends with whitespace, and leaves text without surrounding whitespace unchanged |
| Strings.TrimPadded | src/services/curlImportService.js:4 | the trimmed text is a slice of the input with nothing but whitespace before it and after it, so `trim()` removes exactly the surrounding whitespace |
| Strings.TrimIdempotent | src/lib/url.js:4 | trimming twice equals trimming once |
| Strings.Split | src/components/ResponseViewer.jsx:20 | `split` on one character gives at least one piece; no piece contains the separator, and joining the pieces with it gives back the input |
| Tokenizer.FoldContinuations | src/services/curlImportService.js:4 | each backslash-LF or backslash-CRLF becomes one space; the result is never longer than the input |
| Tokenizer.FoldLeavesNoContinuation | src/services/curlImportService.js:4 | after folding, no backslash-newline is left |
| Tokenizer.FoldIdentity | src/services/curlImportService.js:4 | text with no backslash-newline is left unchanged by folding |
| Tokenizer.FoldAppend | src/services/curlImportService.js:4 | folding distributes over concatenation when the left part does not end inside a continuation |
| Tokenizer.Tokenize | src/services/curlImportService.js:3-69 | no emitted token is the empty string, whatever the input, including an unterminated quote or a trailing escape |
| Tokenizer.RunAppend | src/services/curlImportService.js:10-65 | scanning a concatenation equals scanning the second part from the state the first part left |
| Tokenizer.EscapeOutsideSingle | src/services/curlImportService.js:13-26 | outside single quotes, a backslash is dropped and the next character is appended verbatim, even a quote or whitespace |
| Tokenizer.SingleQuotedLiteral | src/services/curlImportService.js:19-35 | inside single quotes every character except `'`, backslash included, is appended literally |
| Tokenizer.DoubleQuotedLiteral | src/services/curlImportService.js:37-44 | inside double quotes every character other than `"` and backslash is appended literally |
| Tokenizer.PlainWord | src/services/curlImportService.js:64 | unquoted characters that are not quotes, backslashes or whitespace extend the current word |
| Tokenizer.Blanks | src/services/curlImportService.js:56-62 | a run of whitespace emits the pending word if it is non-empty and leaves an empty buffer |
| Quoting.RunEscaped | src/services/curlService.js:4 | inside single quotes, the scanner reads the `'\''`-escaped text as the original text |
| Quoting.QuotedAppends | src/services/curlService.js:3-5 | scanning `shellQuote(s)` outside quotes appends exactly `s` to the current word |
| Quoting.FoldQuoted | src/services/curlService.js:3-5 | continuation folding leaves a quoted string with no backslash-newline unchanged |
| Quoting.PrepareQuoted | src/services/curlImportService.js:4 | folding and trimming leave such a quoted string unchanged |
| Quoting.QuoteRoundTrip | src/services/curlService.js:3-5 | the tokenizer reads `shellQuote(s)` back as `[s]`, or `[]` when `s` is empty, for every `s` without backslash-newline |
| CurlImport.NormalizeMethod | src/services/curlImportService.js:71-73 | the normalised method is the trimmed argument with each character upper-cased; it is empty exactly for a blank argument, has no surrounding whitespace and no lower-case letter |
| CurlImport.NormalizeMethodIdempotent | src/services/curlImportService.js:71-73 | normalising an already normalised method changes nothing |
| CurlImport.ParseHeaderLine | src/services/curlImportService.js:75-82 | a parsed header never has an empty key; where the line is split and what is trimmed are the lemmas `CurlImport.ParsedAt` and `CurlImport.ParsedHeaderShape` |
| CurlImport.ParsedHeaderShape | src/services/curlImportService.js:75-82 | a header line parses exactly when it has a colon whose prefix is not blank; the key has no colon, and key and value are trimmed |
| CurlImport.HeaderLineRoundTrip | src/services/curlImportService.js:75-82 | `key: value` with a trimmed, colon-free, non-empty key and a trimmed value parses back to that pair |
| CurlImport.ParsedAt | src/services/curlImportService.js:76-81 | a line is split at its first colon and both sides are trimmed |
| CurlImport.ToKeyValueRows | src/services/curlImportService.js:84-87 | an empty list becomes one empty row; any other list is kept as is |
| CurlImport.ParseUrlAndParams | src/services/curlImportService.js:89-103 | the empty URL gives `""` and one empty row; an unparsable URL is kept with one empty row; otherwise the URL without its query is returned, with the query entries as rows |
| CurlImport.SplitCredentials | src/services/curlImportService.js:197-204 | the user argument is split at its first colon, and the password is empty when there is no colon |
| CurlImport.CredentialsRoundTrip | src/services/curlImportService.js:197-204 | `user:password` splits back into the same pair exactly when the user name has no colon |
| CurlImport.Lex | src/services/curlImportService.js:125-213 | the `-X`, `-H` and `--url` flags and the bare words it records carry non-empty arguments, as the truthiness tests of the loop require |
| CurlImport.ApplyMethod | src/services/curlImportService.js:130-150 | one flag's effect on the method: `-X` with a non-blank argument, `-I` and `-G` set it; a data flag sets POST unless a method flag came first |
| CurlImport.MethodRule | src/services/curlImportService.js:109-186 | the method after the loop is the last effective method flag's, otherwise POST when a data flag precedes every method flag, otherwise the initial method |
| CurlImport.ExplicitMethodRule | src/services/curlImportService.js:130-150 | the method counts as explicit exactly when some method flag occurred |
| CurlImport.DefaultMethod | src/services/curlImportService.js:109 | with no effective method flag, the method is GET, or POST when a data flag comes before any method flag |
| CurlImport.ApplyUrl | src/services/curlImportService.js:162-169 | one flag's effect on the URL: `--url` sets it; a bare word sets it only while it is empty |
| CurlImport.UrlRule | src/services/curlImportService.js:162-212 | the URL is the last `--url` argument, otherwise the first non-dash bare word |
| CurlImport.ApplyHeaderFlag | src/services/curlImportService.js:152-160 | a `-H` flag appends its parsed header, or nothing when the line does not parse |
| CurlImport.HeadersRule | src/services/curlImportService.js:152-160 | the collected headers are the parsable `-H` lines in command order |
| CurlImport.ApplyAuth | src/services/curlImportService.js:188-208 | `-b` sets cookie auth and `-u` sets basic auth with the split credentials |
| CurlImport.FlagAuthRule | src/services/curlImportService.js:188-208 | the auth after the loop comes from the last `-b` or `-u` flag; the two kinds overwrite each other |
| CurlImport.ApplyBody | src/services/curlImportService.js:171-186 | a data flag replaces the body with its argument |
| CurlImport.BodyRule | src/services/curlImportService.js:171-186 | the body after the loop is the last data flag's argument |
| CurlImport.SchemeArgument | src/services/curlImportService.js:219-220 | a `Bearer`/`Basic` match is case-insensitive on the scheme, needs whitespace after it, and captures a non-empty rest without line terminators that ends the value: the text after that whitespace, or the last character when only whitespace follows |
| CurlImport.AuthFromHeader | src/services/curlImportService.js:217-240 | only a header named `authorization`, ignoring case, yields auth, and only as bearer or basic |
| CurlImport.SchemeMatches | src/services/curlImportService.js:219-220 | the scheme in any letter case, whitespace and single-line text starting with a non-space character always match, capturing exactly that text |
| CurlImport.BearerRecognised | src/services/curlImportService.js:217-224 | an `authorization` header, in any letter case, holding `Bearer ` and a single-line token yields exactly that bearer token |
| CurlImport.BasicIsNotBearer | src/services/curlImportService.js:219-220 | a `Basic ...` value does not match the Bearer pattern |
| CurlImport.BasicRecognised | src/services/curlImportService.js:225-234 | `Basic ` and a token `atob` decodes yields basic auth with the decoded text split at its first colon |
| CurlImport.BasicUndecodableKept | src/services/curlImportService.js:235-238 | `Basic ` and a token `atob` rejects yields no auth, so the header is kept |
| CurlImport.LastHeaderAuthAppend | src/services/curlImportService.js:215-243 | over a concatenation of headers, the auth that wins is the second part's if it has one, else the first part's |
| CurlImport.KeptHeaders | src/services/curlImportService.js:215-243 | the kept headers are original headers in order, none of them absorbed |
| CurlImport.AbsorbRule | src/services/curlImportService.js:215-243 | the post-pass keeps exactly the non-absorbed headers in order, and the auth comes from the last absorbed header, otherwise from the flags |
| CurlImport.BodyText | src/services/curlImportService.js:245-252 | without a data flag the body text is `{\n  \n}`; text that does not parse as JSON is kept verbatim |
| CurlImport.ParseTokens | src/services/curlImportService.js:105-264 | there is no result exactly when there are no tokens or the first is not `curl`; otherwise the method is non-empty and params and headers each have at least one row |
| CurlImport.ParsedMethod | src/services/curlImportService.js:109-186 | the imported method is the last effective method flag's, otherwise POST when a data flag precedes every method flag, otherwise GET |
| CurlImport.ParsedUrl | src/services/curlImportService.js:210-212 | the imported URL and params come from splitting the last `--url` argument, otherwise the first bare word |
| CurlImport.ParsedHeaders | src/services/curlImportService.js:215-260 | the imported headers are the parsable `-H` lines minus the absorbed `Authorization` headers, or one empty row |
| CurlImport.ParsedAuth | src/services/curlImportService.js:188-243 | the imported auth comes from the last absorbable `Authorization` header, otherwise from the last `-b`/`-u`, otherwise none |
| CurlImport.ParsedBody | src/services/curlImportService.js:245-252 | the imported body text is the pretty-printed or verbatim last data argument, or the empty-object placeholder |
| CurlImport.LastMethodNamed | src/services/curlImportService.js:133 | an effective method flag never yields an empty method |
| CurlImport.ParseCurlCommand | src/services/curlImportService.js:105-107 | the parser fails exactly when the tokenized input is empty or does not start with `curl` |
| CurlExport.EscapeQuotes | src/services/curlService.js:4 | escaping leaves text without `'` unchanged and never shortens it |
| CurlExport.ShellQuote | src/services/curlService.js:3-5 | the quoted text starts and ends with `'` and is the plain wrapping when the input has no `'` |
| CurlExport.Put | src/services/curlService.js:10 | assigning a property keeps an existing key's position and appends a new key at the end |
| CurlExport.PutNew | src/services/curlService.js:10 | assigning a key the object lacks appends exactly that pair |
| CurlExport.PutBeforeLast | src/services/curlService.js:10 | assigning a key already present before a trailing pair leaves that pair last |
| CurlExport.PutLookup | src/services/curlService.js:10 | after assignment the key reads the new value and every other key is unchanged |
| CurlExport.PutFacts | src/services/curlService.js:10 | assignment keeps the keys distinct |
| CurlExport.Keyed | src/services/curlService.js:9 | a pair is kept exactly when it is in the input and its key is non-empty, and nothing is added |
| CurlExport.KeyedAppend | src/services/curlService.js:8-11 | skipping empty keys works pair by pair, so the kept pairs keep their input order |
| CurlExport.PairsToObject | src/services/curlService.js:7-13 | the collapsed header object has distinct keys |
| CurlExport.PairsToObjectKeys | src/services/curlService.js:7-13 | the object's keys are the non-empty keys in order of first occurrence |
| CurlExport.PairsToObjectLookup | src/services/curlService.js:7-13 | each key maps to the value of its last occurrence |
| CurlExport.PairsToObjectNoNewKey | src/services/curlService.js:7-13 | a key no input pair carries is not in the object |
| CurlExport.ApplyAuthHeader | src/services/curlService.js:15-24 | Bearer with a non-empty token sets `Authorization: Bearer t`; Basic always sets `Basic btoa(u:p)` and fails only when `btoa` throws; no other key changes; cookie, none and empty bearer change nothing |
| CurlExport.AuthAppended | src/services/curlService.js:15-24 | with no `Authorization` key yet, a Bearer or Basic auth appends exactly `Authorization` with its value last |
| CurlExport.BuildUrlWithParams | src/services/curlService.js:26-45 | without a keyed param the URL is unchanged; if the URL does not parse, the query is appended after `&` exactly when the URL already has `?`, and after `?` otherwise |
| CurlExport.EffectiveMethod | src/services/curlService.js:55 | the method is upper-cased, and GET when empty |
| CurlExport.WithContentType | src/services/curlService.js:63-65 | `Content-Type: application/json` is added only when a body is attached and the key is absent or empty; no other key changes |
| CurlExport.ContentTypeAfter | src/services/curlService.js:63-65 | adding the default content type keeps a trailing non-`Content-Type` pair in place, followed by at most `Content-Type: application/json` |
| CurlExport.FinalHeaders | src/services/curlService.js:52-65 | building the headers fails exactly when Basic credentials cannot be encoded |
| CurlExport.HeaderLines | src/services/curlService.js:72-74 | one `-H 'key: value'` line per header, in object order |
| CurlExport.CurlLines | src/services/curlService.js:67-82 | the line list exists exactly when the headers can be built, and starts with the `curl --location` line |
| CurlExport.GenerateCurlCommand | src/services/curlService.js:47-85 | the command fails exactly when `btoa` throws on Basic credentials, and otherwise starts with `curl --location ` |
| Reimport.ExportedLines | src/services/curlService.js:67-82 | the lines are the first line, then the header, cookie and data lines in that order |
| Reimport.JoinLines | src/services/curlService.js:84 | joining the lines with `" \\\n"` writes each continuation line after a line break |
| Reimport.FoldRest | src/services/curlImportService.js:4 | folding turns each exported line break into plain blanks and leaves the quoted arguments untouched |
| Reimport.PrepareCommand | src/services/curlImportService.js:4 | folding and trimming an exported command leaves the one-line form of the command |
| Reimport.RunFirstLine | src/services/curlImportService.js:3-69 | the first line scans as `curl`, `--location`, optionally `-X` and the method, with the URL pending |
| Reimport.RunRest | src/services/curlImportService.js:3-69 | each continuation line scans as its flag word followed by its argument |
| Reimport.TokenizeCommand | src/services/curlImportService.js:3-69 | an exported command with a bare method and readable arguments tokenizes into exactly the words the generator wrote |
| Reimport.LexRest | src/services/curlImportService.js:152-195 | the exported `-H`, `--cookie` and `--data-raw` word pairs lex as those flags with their arguments |
| Reimport.LexFront | src/services/curlImportService.js:125-138 | `--location` consumes nothing, `-X` takes the method, and the URL is a bare word |
| Reimport.LexCommand | src/services/curlImportService.js:125-213 | the exported words lex into the front flags followed by one flag per continuation line |
| RoundTrip.LastMethodAppend | src/services/curlImportService.js:130-150 | in a concatenation, the last method flag is the second part's if it has one |
| RoundTrip.FirstPositionalAppend | src/services/curlImportService.js:210-212 | in a concatenation, the first bare word is the first part's if it has one |
| RoundTrip.FlagHeadersAppend | src/services/curlImportService.js:152-160 | the headers of a concatenation are the two parts' headers in order |
| RoundTrip.ReadBackExact | src/services/curlImportService.js:75-82 | exported headers with trimmed, colon-free, non-empty keys and trimmed values read back unchanged |
| RoundTrip.RestChunk | src/services/curlService.js:72-82 | the continuation flags carry the read-back headers, the cookie when one is sent, and the data when a body is attached |
| RoundTrip.ReimportLexes | src/services/curlService.js:47-85 | a reimportable payload's command exists, starts with `curl` and lexes into the expected flags |
| RoundTrip.ReimportMethod | src/services/curlImportService.js:182 | the reimported method is the exported one, except that a GET with an attached body comes back as POST |
| RoundTrip.ReimportUrl | src/services/curlImportService.js:254 | the reimported URL and params come from splitting the exported URL, with the params already merged in |
| RoundTrip.ReimportHeaders | src/services/curlImportService.js:215-260 | the reimported headers are the exported headers, trimmed as header lines, minus the absorbed `Authorization` headers |
| RoundTrip.ReimportAuth | src/services/curlImportService.js:188-243 | the reimported auth is the one the `Authorization` header carries, otherwise the sent cookie, otherwise none |
| RoundTrip.ExportedAuthorizationLast | src/services/curlService.js:52-65 | without a user `Authorization` header, the exported `Authorization` header is the last one that yields auth when read back |
| RoundTrip.ReimportBearer | src/services/curlImportService.js:215-243 | a non-empty, trimmed, single-line bearer token is reimported as itself unless the user's headers carry their own `Authorization` key |
| RoundTrip.ReimportBasic | src/services/curlImportService.js:215-243 | basic credentials whose user name has no colon come back as themselves when `btoa` gives a trimmed single-line token that `atob` decodes back, unless the user's headers carry their own `Authorization` key |
| RoundTrip.ReimportBody | src/services/curlImportService.js:245-252 | the reimported body text is the attached JSON's text after the importer's pretty-printing, or the placeholder |
| RoundTrip.ReimportExactHeaders | src/services/curlImportService.js:215-260 | when every exported header is already trimmed, the reimported headers are the exported headers minus the absorbed ones |
| Url.NormalizeHttpUrl | src/lib/url.js:1-9 | blank input gives `""`; otherwise the result has a scheme prefix and ends with the trimmed input; a schemed input is kept; otherwise `https:` or `https://` is prepended |
| Url.NormalizeIdempotent | src/lib/url.js:1-9 | normalising a normalised URL changes nothing |
| RequestForm.NormalizePairs | src/components/RequestForm.jsx:61-67 | the normalised pairs have non-empty trimmed keys and are never more than the input |
| RequestForm.NormalizePairsOne | src/components/RequestForm.jsx:61-67 | one row becomes itself with its key trimmed and its value kept, or nothing when the key trims to the empty string; with `NormalizePairsAppend` this fixes every result |
| RequestForm.NormalizePairsKeeps | src/components/RequestForm.jsx:61-67 | every row whose key is not blank survives, with its key trimmed and its value kept |
| RequestForm.NormalizePairsAppend | src/components/RequestForm.jsx:61-67 | normalisation works row by row and keeps the order |
| RequestForm.NormalizePairsClean | src/components/RequestForm.jsx:61-67 | pairs whose keys are already non-empty and trimmed are kept unchanged |
| RequestForm.NormalizePairsIdempotent | src/components/RequestForm.jsx:61-67 | normalising twice is normalising once |
| RequestForm.SendableBody | src/components/RequestForm.jsx:49-59 | a body is sent exactly when the method can carry one, the text is not blank and it parses |
| RequestForm.PreviewPayload | src/components/RequestForm.jsx:94-102 | the preview passes `allowGetBody` exactly for v1, the normalised URL and only keyed headers |
| RequestForm.CurlPreview | src/components/RequestForm.jsx:84-103 | the preview fails only when `btoa` throws on Basic credentials, and otherwise is a `curl --location` command |
| RequestForm.PreviewBodyRule | src/components/RequestForm.jsx:84-101 | the preview attaches a body only for non-blank valid JSON that the editor may send, and never for GET outside v1 |
| RequestForm.PreviewUrlStable | src/services/curlService.js:48-49 | the generator's own normalisation of the preview URL changes nothing |
| RequestForm.ImportCurlFromText | src/components/RequestForm.jsx:69-82 | import succeeds exactly when the parser does; on failure the form is unchanged; on success the fields come from the parse, the Body tab opens and the error clears |
| RequestForm.HandleSubmit | src/components/RequestForm.jsx:137-184 | curl-looking input is never sent; when it parses, the form takes the parsed request, opens the Body tab and shows the success message, otherwise only the invalid message changes; then the empty-URL, non-http and JSON-error guards apply in that order; otherwise the normalised request is sent, and the form changes only by the normalised URL and the cleared message |
| RequestForm.SentMatchesPreview | src/components/RequestForm.jsx:94-102 | the request sent on submit has the same URL, method, params, headers, auth and body as the previewed command, and the generator's filters change none of them |
| ResponseViewer.FindHeader | src/components/ResponseViewer.jsx:11-12 | the found key is the first one equal to the target ignoring case, and none is found only when no key matches |
| ResponseViewer.GetHeaderValue | src/components/ResponseViewer.jsx:9-14 | a missing header object or no matching key gives `''` |
| ResponseViewer.FirstMatchWins | src/components/ResponseViewer.jsx:12-13 | the value returned is the value of the first key matching ignoring case |
| ResponseViewer.LookupIgnoresTargetCase | src/components/ResponseViewer.jsx:11 | the target's letter case does not matter |
| ResponseViewer.CollapseTagGaps | src/components/ResponseViewer.jsx:17 | collapsing `>\s*<` never lengthens the text; that it removes only whitespace, and none from whitespace-free text, are `CollapseDropsOnlyBlanks` and `CollapseWithoutBlanks` |
| ResponseViewer.CollapseDropsOnlyBlanks | src/components/ResponseViewer.jsx:17 | collapsing `>\s*<` removes only whitespace |
| ResponseViewer.CollapseWithoutBlanks | src/components/ResponseViewer.jsx:17 | text without whitespace is left unchanged by the collapse |
| ResponseViewer.CollapseLeavesNoGap | src/components/ResponseViewer.jsx:17 | after the collapse, every `>` followed by whitespace up to a `<` is directly followed by that `<`: no gap is left |
| ResponseViewer.BreakInsertsOnlyNewlines | src/components/ResponseViewer.jsx:20 | breaking before each `<` inserts newlines and nothing else |
| ResponseViewer.XmlParts | src/components/ResponseViewer.jsx:20 | after `filter(Boolean)` no part is empty |
| ResponseViewer.XmlPartsConcat | src/components/ResponseViewer.jsx:17-23 | the parts concatenate to the XML without its newlines, and to the XML itself when it has none |
| ResponseViewer.XmlPartsAtTags | src/components/ResponseViewer.jsx:20 | for newline-free XML, every part after the first starts with `<` and no part holds a `<` after its first character |
| ResponseViewer.IndentLines | src/components/ResponseViewer.jsx:23-31 | one output line per part |
| ResponseViewer.IndentLinesAt | src/components/ResponseViewer.jsx:24-31 | line `i` is two spaces per indent level, with the level decremented before a closing tag, followed by part `i` |
| ResponseViewer.PrettyPrintXml | src/components/ResponseViewer.jsx:16-18 | the output is empty exactly when the collapsed, trimmed XML is empty |
| ResponseViewer.FirstLineNonEmpty | src/components/ResponseViewer.jsx:20-31 | XML that starts with a non-blank character gives a non-empty first line |
| ResponseViewer.PlusJsonIsJson | src/components/ResponseViewer.jsx:73 | a content type containing `+json` contains `json`, so the second test adds nothing |
| ResponseViewer.LanguageFor | src/components/ResponseViewer.jsx:73-117 | the language is chosen by the first match among json, xml, html and javascript, and is plain text otherwise |
| ResponseViewer.FormatTextPayload | src/components/ResponseViewer.jsx:44-117 | the content type is the lower-cased header; JSON is pretty-printed when it parses and kept otherwise; XML goes through the indenter; other text is kept |
| ResponseViewer.TimeShade | src/components/ResponseViewer.jsx:120-124 | emerald exactly under 200 ms, rose exactly over 500 ms, amber otherwise |
| ResponseViewer.TimeShadeMonotone | src/components/ResponseViewer.jsx:120-124 | a slower response never gets a milder colour |
| ResponseViewer.StatusShade | src/components/ResponseViewer.jsx:126-130 | emerald exactly for 2xx, rose exactly for 400 and above, amber otherwise |
| KeyValueRows.UpdateRow | src/components/KeyValueSection.jsx:17-20 | the length is kept, only the given field of the row at the index changes, and an out-of-range index changes nothing |
| KeyValueRows.UpdateSameValue | src/components/KeyValueSection.jsx:17-20 | writing back a field's current value changes nothing |
| KeyValueRows.UpdateTwice | src/components/KeyValueSection.jsx:17-20 | the later of two edits to the same field wins |
| KeyValueRows.AddRow | src/components/KeyValueSection.jsx:22-24 | exactly one empty row is appended, and missing rows count as an empty list |
| KeyValueRows.Without | src/components/KeyValueSection.jsx:27 | filtering out index `i` gives the rows before it followed by the rows after it; an index outside the list keeps every row |
| KeyValueRows.RemoveRow | src/components/KeyValueSection.jsx:26-29 | the result is never empty; with two or more rows exactly the indexed row is removed; removing the only row, or removing from an empty list, leaves one empty row; an out-of-range index leaves a non-empty list unchanged |
| KeyValueRows.RemoveAddedRow | src/components/KeyValueSection.jsx:22-29 | removing the row just added restores a non-empty list |
| History.AddToHistory | src/pages/HomePage.jsx:30-36 | the new entry is first, the earlier entries follow in order, and the list is capped at 20 |
| History.PresentUrls | src/pages/HomePage.jsx:23 | a URL is present exactly when some entry carries it and it is non-empty |
| History.PresentUrlsAppend | src/pages/HomePage.jsx:23 | collecting present URLs works entry by entry, so they keep the order of the history |
| History.UrlSuggestions | src/pages/HomePage.jsx:21-28 | the first 20 of the distinct, non-empty history URLs in order of first appearance: a prefix of the deduplicated list, of length 20 or the whole list when it is shorter |
| History.SuggestionsComplete | src/pages/HomePage.jsx:21-28 | every present URL is suggested when there are at most 20 distinct URLs |
| History.FailureEntry | src/pages/HomePage.jsx:84-91 | the status is `ERR` when missing or zero, the time is 0 when missing, and method and URL are recorded |
| Seqs.Dedupe | src/pages/HomePage.jsx:23 | `[...new Set(s)]` has no duplicates and the same elements |
| Seqs.DedupeOrdered | src/pages/HomePage.jsx:23 | the de-duplicated elements keep the order of their first occurrence |

## Left out

- Network calls, `localStorage`, the clipboard, timers, React state and all
  rendering are not modelled. `handleSubmit` becomes a function that returns the
  new form state and the request it would send.
- The WHATWG URL parser, `URLSearchParams` serialisation, `JSON.parse`,
  `JSON.stringify` and `atob`/`btoa` are parameters in `Model.Env`, not
  re-implemented. `isHttpUrl` (src/lib/url.js:11-18) is expressed through
  `Env.parseUrl`'s protocol.
- `toUpperCase` and `toLowerCase` are modelled on ASCII letters only. Their
  results are not only compared with ASCII literals (`GET`, `curl`,
  `authorization`, content types): they are also stored and emitted. The
  imported method (src/services/curlImportService.js:72), the `-X` method of the
  exported command (src/services/curlService.js:55) and the lower-cased content
  type of a formatted response (src/components/ResponseViewer.jsx:44) keep
  non-ASCII letters unchanged in the model. JavaScript maps some of them, and can
  change the length: `poſt` becomes `POST` and `ß` becomes `SS`.
- Strings.Trim: its contract gives the shape of the result only. That the result
  is the input minus its surrounding whitespace is the lemma `Strings.TrimPadded`,
  kept out of the contract so that every caller of `Trim` does not carry the
  slice facts.
- CurlImport.NormalizeMethod: upper-cases ASCII letters only, so a non-ASCII
  method can differ from the one JavaScript would import.
- CurlExport.EffectiveMethod: upper-cases ASCII letters only, so a non-ASCII
  method can differ from the one written after `-X`.
- ResponseViewer.FormatTextPayload: lower-cases ASCII letters only, so a
  non-ASCII content type can differ from the one returned.
- Integer-like header keys are not moved first. `Object.entries` lists them in
  numeric order before the other keys; the model keeps every key in insertion
  order.
- A `__proto__` header key is treated like any other key. JavaScript would treat
  assigning it on a plain object specially.
- The auth fields of inactive variants are not kept. The source keeps them with
  `{...auth, type}`, but nothing reads them.
- The `?? ""` defaults for missing keys and values are not modelled. Every row
  carries strings.
- `jsonError` is modelled as a boolean. The message text comes from `JSON.parse`.
- Only the string-payload branch of `formatResponseBody` is modelled. The
  missing-payload, object, `ArrayBuffer` and result-less branches are left out.
- History entries omit the random id and the time stamp. A NaN response time is
  not modelled.
- `method || "GET"` (src/services/curlImportService.js:257) is not modelled
  separately. The method is never empty there (`CurlImport.ParseTokens`).
- CurlImport.Lex: its contract states only that the recorded `-X`, `-H`, `--url` and
  bare-word arguments are non-empty.
  Which tokens a flag consumes is given by its body, and by the reference lemmas
  that connect the lexed flags to the fields of the result.
- RoundTrip.ReimportMethod, RoundTrip.ReimportUrl, RoundTrip.ReimportHeaders, RoundTrip.ReimportAuth, RoundTrip.ReimportBody: the round trip is proved only under `Reimportable`. The conditions are:
  - the headers can be built;
  - the method is a bare word;
  - the URL, header lines, cookie and data contain no backslash-newline;
  - the URL does not start with `-`;
  - attached data is not empty text.

  Outside these conditions, the source itself does not round-trip:
  - an unquoted method with spaces or quotes is re-split;
  - a backslash-newline inside a quoted argument is folded away;
  - a URL starting with `-` is not taken as the URL;
  - an empty `--data-raw ''` argument vanishes in the tokenizer.
- RoundTrip.ReimportAuth: states that the auth read back is whatever the last
  recognised `Authorization` header carries, not that it equals the exported
  auth. Equality is proved by `RoundTrip.ReimportBearer` and
  `RoundTrip.ReimportBasic` when the user's headers have no `Authorization` key
  and the header value is a trimmed single-line token. Outside that the source
  does not round-trip either: a user `Authorization` header that shadows the
  generated one, a token with surrounding whitespace that the import trims, a
  multi-line token the `(.+)` pattern does not match, a user name with a colon,
  or a `btoa` result that `atob` does not decode back.
- CurlImport.BodyText: when the body parses as JSON, the text is whatever
  `Env.jsonPretty` returns. Nothing is claimed about it beyond that.
- ResponseViewer.IndentLines: the contract states only one line per part; the
  content of each line is stated separately by `ResponseViewer.IndentLinesAt`.
- ResponseViewer.GetHeaderValue: the contract covers only the cases that give
  `''`. The value found for a non-empty matching key is stated by
  `ResponseViewer.FirstMatchWins`. A matching key that is the empty string is
  falsy in the source and gives `''`; the model follows this.

=== FILE: curl_export.dfy ===
/** `generateCurlCommand` and its helpers (src/services/curlService.js): turns the
    editor's request into a single quoted `curl` command line. */
module CurlExport {
  import opened Options
  import opened Strings
  import opened Seqs
  import opened Model
  import Url

  /** `value.replace(/'/g, "'\\''")`: each single quote becomes close-quote,
      escaped quote, reopen-quote. */
  function EscapeQuotes(s: string): (r: string)
    ensures |r| >= |s|
    ensures s != [] ==> r != [] && r[0] == s[0]
    ensures '\'' !in s ==> r == s
  {
    if s == [] then ""
    else (if s[0] == '\'' then "'\\''" else [s[0]]) + EscapeQuotes(s[1..])
  }

  /** `shellQuote(value)`: the value wrapped in single quotes. */
  function ShellQuote(s: string): (r: string)
    ensures |r| >= |s| + 2 && r[0] == '\'' && r[|r| - 1] == '\''
    ensures '\'' !in s ==> r == "'" + s + "'"
  {
    "'" + EscapeQuotes(s) + "'"
  }

  // ---------------------------------------------------------------------------
  // The header object, as an insertion-ordered map

  /** A plain JavaScript object with string keys, as its entries in property order.
      The source only ever creates non-integer-like header names in practice; see
      the README for the integer-key ordering it does not model. */
  predicate DistinctKeys(m: seq<KeyValue>) {
    NoDuplicates(Keys(m))
  }

  /** `Object.keys(m)`. */
  function Keys(m: seq<KeyValue>): (r: seq<string>)
    ensures |r| == |m| && forall i :: 0 <= i < |m| ==> r[i] == m[i].key
  {
    if m == [] then [] else [m[0].key] + Keys(m[1..])
  }

  /** `m[k]`, `None` for `undefined`. */
  function Lookup(m: seq<KeyValue>, k: string): (r: Option<string>)
    ensures r.None? <==> k !in Keys(m)
  {
    if m == [] then None
    else if m[0].key == k then Some(m[0].value)
    else Lookup(m[1..], k)
  }

  /** `m[k] = v`: a new key goes last, an existing key keeps its place. */
  function Put(m: seq<KeyValue>, k: string, v: string): (r: seq<KeyValue>)
    ensures Keys(r) == if k in Keys(m) then Keys(m) else Keys(m) + [k]
  {
    if m == [] then [KeyValue(k, v)]
    else if m[0].key == k then
      var r := [KeyValue(k, v)] + m[1..];
      assert r[1..] == m[1..];
      r
    else
      var rest := Put(m[1..], k, v);
      KeysCons(m[0], m[1..]);
      KeysCons(m[0], rest);
      ConsKeyStep(m[0].key, Keys(m[1..]), Keys(rest), k);
      [m[0]] + rest
  }

  /** The keys of a list with a pair in front start with that pair's key. */
  lemma KeysCons(p: KeyValue, m: seq<KeyValue>)
    ensures Keys([p] + m) == [p.key] + Keys(m)
  {
    assert ([p] + m)[1..] == m;
  }

  /** Putting a key other than the first one into the tail puts it into the whole. */
  lemma ConsKeyStep(h: string, keys: seq<string>, next: seq<string>, k: string)
    requires h != k && next == if k in keys then keys else keys + [k]
    ensures [h] + next == if k in [h] + keys then [h] + keys else ([h] + keys) + [k]
  {
    assert k in [h] + keys <==> k in keys;
    ConcatAssoc([h], keys, [k]);
  }

  /** After `m[k] = v`, `k` reads `v` and every other key reads what it read before. */
  lemma {:induction false} PutLookup(m: seq<KeyValue>, k: string, v: string, k': string)
    ensures Lookup(Put(m, k, v), k') == if k' == k then Some(v) else Lookup(m, k')
  {
    if m != [] && m[0].key != k {
      PutLookup(m[1..], k, v, k');
      assert Put(m, k, v)[1..] == Put(m[1..], k, v);
    }
  }

  /** `m[k] = v` keeps the keys distinct, sets `k` and leaves the other keys alone. */
  lemma PutFacts(m: seq<KeyValue>, k: string, v: string)
    requires DistinctKeys(m)
    ensures DistinctKeys(Put(m, k, v))
    ensures Lookup(Put(m, k, v), k) == Some(v)
    ensures forall k' :: k' != k ==> Lookup(Put(m, k, v), k') == Lookup(m, k')
  {
    if k !in Keys(m) {
      NoDuplicatesAppend(Keys(m), k);
    }
    PutLookup(m, k, v, k);
    forall k' | k' != k
      ensures Lookup(Put(m, k, v), k') == Lookup(m, k')
    {
      PutLookup(m, k, v, k');
    }
  }

  /** The pairs with a non-empty key, in order. */
  function Keyed(pairs: seq<KeyValue>): (r: seq<KeyValue>)
    ensures forall i :: 0 <= i < |r| ==> r[i].key != ""
    ensures forall kv :: kv in r <==> kv in pairs && kv.key != ""
    ensures |r| <= |pairs|
  {
    if pairs == [] then []
    else
      var init := Keyed(pairs[..|pairs| - 1]);
      assert pairs == pairs[..|pairs| - 1] + [pairs[|pairs| - 1]];
      if pairs[|pairs| - 1].key == "" then init else init + [pairs[|pairs| - 1]]
  }

  /** The last pair is kept exactly when its key is non-empty. */
  lemma KeyedLast(pairs: seq<KeyValue>)
    requires pairs != []
    ensures var init, p := pairs[..|pairs| - 1], pairs[|pairs| - 1];
      Keyed(pairs) == if p.key == "" then Keyed(init) else Keyed(init) + [p]
  {
  }

  /** The keys of a list with one more pair end in that pair's key. */
  lemma KeysAppend(m: seq<KeyValue>, p: KeyValue)
    ensures Keys(m + [p]) == Keys(m) + [p.key]
  {
    assert forall i :: 0 <= i < |m| ==> (m + [p])[i] == m[i];
  }

  /** `KeyedLast` on the keys alone. */
  lemma KeysKeyedLast(pairs: seq<KeyValue>)
    requires pairs != []
    ensures var init, p := pairs[..|pairs| - 1], pairs[|pairs| - 1];
      Keys(Keyed(pairs)) == if p.key == "" then Keys(Keyed(init)) else Keys(Keyed(init)) + [p.key]
  {
    KeyedLast(pairs);
    var init, p := pairs[..|pairs| - 1], pairs[|pairs| - 1];
    if p.key != "" {
      KeysAppend(Keyed(init), p);
    }
  }

  /** Skipping empty keys works pair by pair, so the kept pairs keep their order. */
  lemma {:induction false} KeyedAppend(a: seq<KeyValue>, b: seq<KeyValue>)
    ensures Keyed(a + b) == Keyed(a) + Keyed(b)
    decreases |b|
  {
    if b == [] {
      assert a + b == a;
    } else {
      var init := b[..|b| - 1];
      var last := b[|b| - 1];
      KeyedAppend(a, init);
      assert (a + b)[..|a + b| - 1] == a + init;
      assert (a + b)[|a + b| - 1] == last;
      if last.key != "" {
        ConcatAssoc(Keyed(a), Keyed(init), [last]);
      }
    }
  }

  /** The value of the last pair with key `k`, if `k` is non-empty and occurs. */
  function LastValue(pairs: seq<KeyValue>, k: string): Option<string> {
    if pairs == [] || k == "" then None
    else if pairs[|pairs| - 1].key == k then Some(pairs[|pairs| - 1].value)
    else LastValue(pairs[..|pairs| - 1], k)
  }

  /** `pairsToObject(pairs)`: a plain object built by assigning the pairs in order,
      skipping empty keys; its keys stay distinct. */
  function PairsToObject(pairs: seq<KeyValue>): (r: seq<KeyValue>)
    ensures DistinctKeys(r)
  {
    if pairs == [] then []
    else
      var acc := PairsToObject(pairs[..|pairs| - 1]);
      var p := pairs[|pairs| - 1];
      if p.key == "" then acc
      else
        PutFacts(acc, p.key, p.value);
        Put(acc, p.key, p.value)
  }

  /** The object's keys are the non-empty keys of the pairs, each once, in order of
      first occurrence: a repeated key keeps its first position. */
  lemma {:induction false} PairsToObjectKeys(pairs: seq<KeyValue>)
    ensures Keys(PairsToObject(pairs)) == Dedupe(Keys(Keyed(pairs)))
  {
    if pairs != [] {
      var init := pairs[..|pairs| - 1];
      var p := pairs[|pairs| - 1];
      PairsToObjectKeys(init);
      KeysKeyedLast(pairs);
      if p.key != "" {
        DedupeSnoc(Keys(Keyed(init)), p.key);
      }
    }
  }

  /** Every key reads the value of its last pair: a repeated key takes its last
      value. Empty and absent keys read nothing. */
  lemma {:induction false} PairsToObjectLookup(pairs: seq<KeyValue>, k: string)
    ensures Lookup(PairsToObject(pairs), k) == LastValue(pairs, k)
  {
    if pairs != [] {
      var init := pairs[..|pairs| - 1];
      var p := pairs[|pairs| - 1];
      PairsToObjectLookup(init, k);
      if p.key != "" {
        PutLookup(PairsToObject(init), p.key, p.value, k);
      }
    }
  }

  /** The `Authorization` value the source writes for bearer and basic auth. */
  function Credentials(username: string, password: string): string {
    username + ":" + password
  }

  /** `applyAuthHeader(headers, auth)`: a non-empty bearer token and any basic
      credentials overwrite `Authorization`; cookie and no auth leave the headers
      alone. `None` is the exception `btoa` throws for characters above U+00FF. */
  function ApplyAuthHeader(m: seq<KeyValue>, auth: Auth, env: Env): (r: Option<seq<KeyValue>>)
    requires DistinctKeys(m)
    ensures r.None? <==> auth.Basic? && env.btoa(Credentials(auth.username, auth.password)).None?
    ensures r.Some? ==> DistinctKeys(r.value)
    ensures r.Some? ==> forall k :: k != "Authorization" ==> Lookup(r.value, k) == Lookup(m, k)
    ensures auth.Bearer? && auth.token != "" ==>
      r.Some? && Lookup(r.value, "Authorization") == Some("Bearer " + auth.token)
    ensures auth.Basic? && r.Some? ==>
      Lookup(r.value, "Authorization") == Some("Basic " + env.btoa(Credentials(auth.username, auth.password)).value)
    ensures auth.NoAuth? || auth.Cookie? || (auth.Bearer? && auth.token == "") ==> r == Some(m)
  {
    match auth
    case Bearer(token) =>
      if token != "" then
        PutFacts(m, "Authorization", "Bearer " + token);
        Some(Put(m, "Authorization", "Bearer " + token))
      else Some(m)
    case Basic(username, password) =>
      (match env.btoa(Credentials(username, password))
       case None => None
       case Some(encoded) =>
         PutFacts(m, "Authorization", "Basic " + encoded);
         Some(Put(m, "Authorization", "Basic " + encoded)))
    case _ => Some(m)
  }

  /** `buildUrlWithParams(url, params)`: without a keyed param the URL is returned
      as is; a URL the parser rejects gets the encoded params appended after `&`
      when it already contains `?`, else after `?`. */
  function BuildUrlWithParams(url: string, params: seq<KeyValue>, env: Env): (r: string)
    ensures Keyed(params) == [] ==> r == url
    ensures Keyed(params) != [] && env.parseUrl(url).None? ==>
      && StartsWith(r, url)
      && |r| > |url|
      && r[|url|] == (if '?' in url then '&' else '?')
  {
    var keyed := Keyed(params);
    if keyed == [] then url
    else match env.parseUrl(url)
      case Some(parsed) => env.appendSearch(parsed, keyed)
      case None =>
        var r := url + (if '?' in url then "&" else "?") + env.formEncode(keyed);
        assert r[..|url|] == url;
        r
  }

  /** The argument of `generateCurlCommand`. `body` is `undefined` or a value
      `JSON.parse` produced; `httpMethod` is `""` when missing. */
  datatype CurlPayload = CurlPayload(
    url: string,
    httpMethod: string,
    params: seq<KeyValue>,
    headers: seq<KeyValue>,
    auth: Auth,
    body: Option<Json>,
    allowGetBody: bool)

  /** `String(payload.method || "GET").toUpperCase()`: never empty, already upper
      case, and the upper-cased input whenever one was given. */
  function EffectiveMethod(m: string): (r: string)
    ensures r != "" && Upper(r) == r
    ensures m != "" ==> r == Upper(m)
    ensures m == "" ==> r == "GET"
  {
    var r := if m == "" then "GET" else Upper(m);
    assert Upper(r) == r;
    r
  }

  /** `hasBody`: the method allows a body (any method but GET, or GET when allowed),
      a body is present, and it is not a truthy key-less value sent with GET. */
  predicate AttachesBody(httpMethod: string, body: Option<Json>, allowGetBody: bool) {
    && (httpMethod != "GET" || allowGetBody)
    && body.Some?
    && !(httpMethod == "GET" && Truthy(body.value) && HasNoOwnKeys(body.value))
  }

  /** `!headers["Content-Type"]`: missing or the empty string. */
  predicate LacksContentType(m: seq<KeyValue>) {
    Lookup(m, "Content-Type") == None || Lookup(m, "Content-Type") == Some("")
  }

  /** The default `Content-Type` for an attached body. */
  function WithContentType(m: seq<KeyValue>, attach: bool): (r: seq<KeyValue>)
    requires DistinctKeys(m)
    ensures DistinctKeys(r)
    ensures Lookup(r, "Content-Type") ==
      if attach && LacksContentType(m) then Some("application/json") else Lookup(m, "Content-Type")
    ensures forall k :: k != "Content-Type" ==> Lookup(r, k) == Lookup(m, k)
  {
    if attach && LacksContentType(m) then
      PutFacts(m, "Content-Type", "application/json");
      Put(m, "Content-Type", "application/json")
    else m
  }

  /** The header object after params, auth and the content-type default. */
  function FinalHeaders(p: CurlPayload, env: Env): (r: Option<seq<KeyValue>>)
    ensures r.None? <==> p.auth.Basic? && env.btoa(Credentials(p.auth.username, p.auth.password)).None?
  {
    var attach := AttachesBody(EffectiveMethod(p.httpMethod), p.body, p.allowGetBody);
    match ApplyAuthHeader(PairsToObject(p.headers), p.auth, env)
    case None => None
    case Some(m) => Some(WithContentType(m, attach))
  }

  /** `m[k] = v` for a key `m` lacks appends the pair. */
  lemma {:induction false} PutNew(m: seq<KeyValue>, k: string, v: string)
    requires k !in Keys(m)
    ensures Put(m, k, v) == m + [KeyValue(k, v)]
    decreases |m|
  {
    if m != [] {
      KeysCons(m[0], m[1..]);
      assert [m[0]] + m[1..] == m;
      PutNew(m[1..], k, v);
      ConcatAssoc([m[0]], m[1..], [KeyValue(k, v)]);
    }
  }

  /** `m[k] = v` for a key held before the last pair leaves that pair last. */
  lemma {:induction false} PutBeforeLast(m: seq<KeyValue>, a: KeyValue, k: string, v: string)
    requires k in Keys(m)
    ensures Put(m + [a], k, v) == Put(m, k, v) + [a]
    decreases |m|
  {
    KeysCons(m[0], m[1..]);
    assert [m[0]] + m[1..] == m;
    assert (m + [a])[0] == m[0] && (m + [a])[1..] == m[1..] + [a];
    if m[0].key == k {
      ConcatAssoc([KeyValue(k, v)], m[1..], [a]);
    } else {
      PutBeforeLast(m[1..], a, k, v);
      ConcatAssoc([m[0]], Put(m[1..], k, v), [a]);
    }
  }

  /** The collapsed headers never hold a key no input pair has. */
  lemma PairsToObjectNoNewKey(pairs: seq<KeyValue>, k: string)
    requires forall kv :: kv in pairs ==> kv.key != k
    ensures k !in Keys(PairsToObject(pairs))
  {
    PairsToObjectKeys(pairs);
    var keyed := Keyed(pairs);
    forall i | 0 <= i < |keyed| ensures Keys(keyed)[i] != k {
      assert keyed[i] in keyed;
    }
  }

  /** The header a non-empty bearer token or encodable basic credentials write. */
  function AuthHeaderValue(auth: Auth, env: Env): Option<string> {
    match auth
    case Bearer(token) => if token != "" then Some("Bearer " + token) else None
    case Basic(username, password) =>
      (match env.btoa(Credentials(username, password))
       case None => None
       case Some(encoded) => Some("Basic " + encoded))
    case _ => None
  }

  /** Without an `Authorization` key of their own, the headers get the auth header
      appended last. */
  lemma AuthAppended(m: seq<KeyValue>, auth: Auth, env: Env)
    requires DistinctKeys(m) && "Authorization" !in Keys(m) && AuthHeaderValue(auth, env).Some?
    ensures ApplyAuthHeader(m, auth, env) == Some(m + [KeyValue("Authorization", AuthHeaderValue(auth, env).value)])
  {
    PutNew(m, "Authorization", AuthHeaderValue(auth, env).value);
  }

  /** The content-type default goes in place or after the last pair, so the last
      pair is followed by at most the default `Content-Type`. */
  lemma ContentTypeAfter(m: seq<KeyValue>, a: KeyValue, attach: bool) returns (front: seq<KeyValue>, back: seq<KeyValue>)
    requires DistinctKeys(m + [a]) && a.key != "Content-Type"
    ensures WithContentType(m + [a], attach) == front + [a] + back
    ensures back == [] || back == [KeyValue("Content-Type", "application/json")]
  {
    var ct := KeyValue("Content-Type", "application/json");
    KeysAppend(m, a);
    if attach && LacksContentType(m + [a]) {
      if "Content-Type" in Keys(m) {
        PutBeforeLast(m, a, "Content-Type", "application/json");
        front, back := Put(m, "Content-Type", "application/json"), [];
        AppendNothing(front + [a]);
      } else {
        PutNew(m + [a], "Content-Type", "application/json");
        front, back := m, [ct];
      }
    } else {
      front, back := m, [];
      AppendNothing(m + [a]);
    }
  }

  /** The first line: `curl --location`, `-X M` unless GET, the quoted URL. */
  function FirstLine(httpMethod: string, url: string): (r: string)
    ensures StartsWith(r, CurlPrefix)
  {
    var r := CurlPrefix + ((if httpMethod == "GET" then "" else "-X " + httpMethod + " ") + ShellQuote(url));
    assert r[..|CurlPrefix|] == CurlPrefix;
    r
  }

  const CurlPrefix := "curl --location "

  /** One `-H 'key: value'` line per final header (curlService.js:73). */
  function HeaderLine(h: KeyValue): string {
    "  -H " + ShellQuote(h.key + ": " + h.value)
  }

  function HeaderLines(m: seq<KeyValue>): (r: seq<string>)
    ensures |r| == |m| && forall i :: 0 <= i < |m| ==> r[i] == HeaderLine(m[i])
  {
    seq(|m|, i requires 0 <= i < |m| => HeaderLine(m[i]))
  }

  /** The `--cookie` line, only for a cookie auth with a non-empty cookie
      (curlService.js:76-78). */
  function CookieLines(auth: Auth): seq<string> {
    if auth.Cookie? && auth.cookie != "" then ["  --cookie " + ShellQuote(auth.cookie)] else []
  }

  /** The `--data-raw` line with the JSON body, only when a body is sent
      (curlService.js:80-82). */
  function DataLines(p: CurlPayload, env: Env): seq<string> {
    if AttachesBody(EffectiveMethod(p.httpMethod), p.body, p.allowGetBody)
    then ["  --data-raw " + ShellQuote(env.jsonStringify(p.body.value))]
    else []
  }

  /** The lines of the command before they are joined. */
  function CurlLines(p: CurlPayload, env: Env): (r: Option<seq<string>>)
    ensures r.None? <==> FinalHeaders(p, env).None?
    ensures r.Some? ==> |r.value| >= 1 && StartsWith(r.value[0], CurlPrefix)
  {
    match FinalHeaders(p, env)
    case None => None
    case Some(headers) =>
      var url := BuildUrlWithParams(Url.NormalizeHttpUrl(p.url), p.params, env);
      Some([FirstLine(EffectiveMethod(p.httpMethod), url)]
           + HeaderLines(headers) + CookieLines(p.auth) + DataLines(p, env))
  }

  /** The separator between lines: a shell line continuation. */
  const LineBreak := " \\\n"

  /** `generateCurlCommand(payload)`; `None` is the exception `btoa` throws. */
  function GenerateCurlCommand(p: CurlPayload, env: Env): (r: Option<string>)
    ensures r.None? <==> p.auth.Basic? && env.btoa(Credentials(p.auth.username, p.auth.password)).None?
    ensures r.Some? ==> StartsWith(r.value, CurlPrefix)
  {
    match CurlLines(p, env)
    case None => None
    case Some(lines) =>
      var r := Join(lines, LineBreak);
      StartsWithTransitive(r, lines[0], CurlPrefix);
      Some(r)
  }
}

=== FILE: curl_import.dfy ===
/** `parseCurlCommand` and its helpers (src/services/curlImportService.js): turns a
    pasted `curl` command into the editor's request.

    The source walks the tokens once with an index, consuming a flag's argument as
    it goes, and interprets each flag against mutable state. Which tokens are
    consumed as arguments never depends on that state, so the model splits the walk
    into `Lex` (index-driven, grouping each flag with its argument) and `Interpret`
    (a fold of the flags over an immutable accumulator); the composition performs
    the same steps in the same order. */
module CurlImport {
  import opened Options
  import opened Strings
  import opened Model
  import opened Tokenizer
  import opened Seqs

  /** The body text used when the command carries no data flag. */
  const EmptyBodyText := "{\n  \n}"

  /** `normalizeMethod(value)`: the trimmed argument, upper-cased character by
      character; empty exactly for a blank argument, and free of lower-case letters. */
  function NormalizeMethod(v: string): (r: string)
    ensures |r| == |Trim(v)| <= |v|
    ensures forall i :: 0 <= i < |r| ==> r[i] == UpperChar(Trim(v)[i])
    ensures r == "" <==> AllSpace(v)
    ensures Trimmed(r)
    ensures forall i :: 0 <= i < |r| ==> !IsAsciiLower(r[i])
  {
    var t := Trim(v);
    UpperKeepsTrimmed(t);
    Upper(t)
  }

  /** Normalising a normalised method changes nothing. */
  lemma NormalizeMethodIdempotent(v: string)
    ensures NormalizeMethod(NormalizeMethod(v)) == NormalizeMethod(v)
  {
  }

  /** `parseHeaderLine(line)`: split at the first colon, both sides trimmed; no
      header when there is no colon, the colon comes first, or the key is blank. */
  function ParseHeaderLine(line: string): (r: Option<KeyValue>)
    ensures r.Some? ==> r.value.key != ""
  {
    match IndexOf(line, ':')
    case None => None
    case Some(i) =>
      if i == 0 then None
      else
        var key := Trim(line[..i]);
        if key == "" then None else Some(KeyValue(key, Trim(line[i + 1..])))
  }

  /** A line is a header exactly when it has a colon and something other than
      whitespace before the first one; the parsed key is then trimmed and
      colon-free and the value trimmed. */
  lemma ParsedHeaderShape(line: string)
    ensures ParseHeaderLine(line).Some? <==> ':' in line && !AllSpace(line[..IndexOf(line, ':').value])
    ensures ParseHeaderLine(line).Some? ==>
      var h := ParseHeaderLine(line).value;
      ':' !in h.key && Trimmed(h.key) && Trimmed(h.value)
  {
    if ParseHeaderLine(line).Some? {
      var i := IndexOf(line, ':').value;
      TrimInfix(line[..i]);
    }
  }

  /** The header line the exporter writes, `key + ": " + value`, parses back to the
      same header when the key is non-empty, trimmed and colon-free and the value is
      trimmed. */
  lemma HeaderLineRoundTrip(key: string, value: string)
    requires key != "" && ':' !in key && Trimmed(key) && Trimmed(value)
    ensures ParseHeaderLine(key + ": " + value) == Some(KeyValue(key, value))
  {
    var line := key + ": " + value;
    HeaderLineParts(key, value);
    TrimLeadingBlank(value);
    ParsedAt(line, |key|);
  }

  /** Where the first colon is known, the header is its trimmed sides. */
  lemma ParsedAt(line: string, i: nat)
    requires IndexOf(line, ':') == Some(i) && 0 < i
    requires Trim(line[..i]) != ""
    ensures ParseHeaderLine(line) == Some(KeyValue(Trim(line[..i]), Trim(line[i + 1..])))
  {
  }

  /** Where `key + ": " + value` splits: at the colon after `key` when `key` has
      none. */
  lemma HeaderLineParts(key: string, value: string)
    requires ':' !in key
    ensures var line := key + ": " + value;
      && IndexOf(line, ':') == Some(|key|)
      && line[..|key|] == key
      && line[|key| + 1..] == " " + value
  {
    var line := key + ": " + value;
    assert line[|key|] == ':';
    assert line[..|key|] == key;
    assert line[|key| + 1..] == " " + value;
  }

  /** `toKeyValueRows(entries)`: the entries, or one placeholder row for none. */
  function ToKeyValueRows(entries: seq<KeyValue>): (r: seq<KeyValue>)
    ensures r != []
    ensures entries != [] ==> r == entries
    ensures entries == [] ==> r == [EmptyRow]
  {
    if entries == [] then [EmptyRow] else entries
  }

  /** `parseUrlAndParams(rawUrl)`: an absolute URL loses its query string to the
      params list; an empty or unparsable URL is kept with a placeholder row. */
  function ParseUrlAndParams(raw: string, env: Env): (r: (string, seq<KeyValue>))
    ensures r.1 != []
    ensures raw == "" ==> r == ("", [EmptyRow])
    ensures raw != "" && env.parseUrl(raw).None? ==> r == (raw, [EmptyRow])
    ensures raw != "" && env.parseUrl(raw).Some? ==>
      r.0 == env.parseUrl(raw).value.withoutSearch && r.1 == ToKeyValueRows(env.parseUrl(raw).value.search)
  {
    if raw == "" then ("", [EmptyRow])
    else match env.parseUrl(raw)
      case Some(parsed) => (parsed.withoutSearch, ToKeyValueRows(parsed.search))
      case None => (raw, [EmptyRow])
  }

  /** `-u`/`--user` and decoded Basic credentials: user and password split at the
      first colon, the whole text as user and an empty password without one. */
  function SplitCredentials(v: string): (r: (string, string))
    ensures ':' in v ==> r.0 + ":" + r.1 == v && ':' !in r.0
    ensures ':' !in v ==> r == (v, "")
  {
    match IndexOf(v, ':')
    case None => (v, "")
    case Some(i) =>
      assert v == v[..i] + ":" + v[i + 1..];
      (v[..i], v[i + 1..])
  }

  /** Credentials the exporter joins with a colon split back to the same pair
      exactly when the user name has no colon. */
  lemma CredentialsRoundTrip(username: string, password: string)
    ensures SplitCredentials(username + ":" + password) == (username, password) <==> ':' !in username
  {
    var v := username + ":" + password;
    assert v[|username|] == ':';
    if ':' !in username {
      assert v[..|username|] == username;
      assert IndexOf(v, ':') == Some(|username|);
      assert v[|username| + 1..] == password;
    } else {
      var r := SplitCredentials(v);
      assert ':' !in r.0;
    }
  }

  // ---------------------------------------------------------------------------
  // Flags

  /** A command-line flag with the argument it consumed. */
  datatype Flag =
    | SetMethod(arg: string)  // -X, --request
    | Head                    // -I, --head
    | Get                     // -G, --get
    | Header(arg: string)     // -H, --header
    | SetUrl(arg: string)     // --url
    | Data(arg: string)       // -d, --data, --data-raw, --data-binary, --data-urlencode
    | SetCookie(arg: string)  // -b, --cookie
    | User(arg: string)       // -u, --user
    | Word(arg: string)       // anything else: a positional argument or an unknown flag

  predicate IsDataFlag(t: string) {
    t == "-d" || t == "--data" || t == "--data-raw" || t == "--data-binary" || t == "--data-urlencode"
  }

  /** What `Lex` can produce: arguments tested for truthiness are non-empty, and
      so are the tokens left as words. */
  predicate WellFormed(flags: seq<Flag>) {
    forall i :: 0 <= i < |flags| ==>
      match flags[i]
      case SetMethod(a) => a != ""
      case Header(a) => a != ""
      case SetUrl(a) => a != ""
      case Word(a) => a != ""
      case _ => true
  }

  /** The flag walk from token `i`: `-X`, `-H` and `--url` consume the next token
      only when it is non-empty, the data, cookie and user flags whenever there is a
      next token, `-I` and `-G` never; empty tokens are skipped and every other
      token, unknown flags included, consumes nothing. */
  function Lex(tokens: seq<string>, i: nat): (r: seq<Flag>)
    requires i <= |tokens|
    ensures WellFormed(r)
    decreases |tokens| - i
  {
    if i == |tokens| then []
    else
      var t := tokens[i];
      var hasNext := i + 1 < |tokens|;
      var truthyNext := hasNext && tokens[i + 1] != "";
      if t == "" then Lex(tokens, i + 1)
      else if t == "-X" || t == "--request" then
        if truthyNext then [SetMethod(tokens[i + 1])] + Lex(tokens, i + 2) else Lex(tokens, i + 1)
      else if t == "-I" || t == "--head" then [Head] + Lex(tokens, i + 1)
      else if t == "-G" || t == "--get" then [Get] + Lex(tokens, i + 1)
      else if t == "-H" || t == "--header" then
        if truthyNext then [Header(tokens[i + 1])] + Lex(tokens, i + 2) else Lex(tokens, i + 1)
      else if t == "--url" then
        if truthyNext then [SetUrl(tokens[i + 1])] + Lex(tokens, i + 2) else Lex(tokens, i + 1)
      else if IsDataFlag(t) then
        if hasNext then [Data(tokens[i + 1])] + Lex(tokens, i + 2) else Lex(tokens, i + 1)
      else if t == "-b" || t == "--cookie" then
        if hasNext then [SetCookie(tokens[i + 1])] + Lex(tokens, i + 2) else Lex(tokens, i + 1)
      else if t == "-u" || t == "--user" then
        if hasNext then [User(tokens[i + 1])] + Lex(tokens, i + 2) else Lex(tokens, i + 1)
      else [Word(t)] + Lex(tokens, i + 1)
  }

  /** The working state of the flag loop. `body` is `None` until a data flag is seen
      (the source's `hasBody`). */
  datatype Accum = Accum(
    httpMethod: string,
    explicitMethod: bool,
    url: string,
    body: Option<string>,
    headers: seq<KeyValue>,
    auth: Auth)

  const Initial := Accum("GET", false, "", None, [], NoAuth)

  /** One flag's effect on the working state. */
  function Apply(a: Accum, f: Flag): Accum {
    match f
    case SetMethod(arg) =>
      var m := NormalizeMethod(arg);
      a.(httpMethod := if m != "" then m else a.httpMethod, explicitMethod := true)
    case Head => a.(httpMethod := "HEAD", explicitMethod := true)
    case Get => a.(httpMethod := "GET", explicitMethod := true)
    case Header(arg) =>
      (match ParseHeaderLine(arg)
       case None => a
       case Some(h) => a.(headers := a.headers + [h]))
    case SetUrl(arg) => a.(url := arg)
    case Data(arg) =>
      a.(body := Some(arg), httpMethod := if a.explicitMethod then a.httpMethod else "POST")
    case SetCookie(arg) => a.(auth := Cookie(arg))
    case User(arg) =>
      var (username, password) := SplitCredentials(arg);
      a.(auth := Basic(username, password))
    case Word(arg) => if !StartsWith(arg, "-") && a.url == "" then a.(url := arg) else a
  }

  /** The flag loop: the flags applied left to right. */
  function Interpret(a: Accum, flags: seq<Flag>): Accum
    decreases |flags|
  {
    if flags == [] then a else Interpret(Apply(a, flags[0]), flags[1..])
  }

  // ---------------------------------------------------------------------------
  // Reference descriptions of what the flag loop computes

  predicate IsMethodFlag(f: Flag) {
    f.SetMethod? || f.Head? || f.Get?
  }

  /** A method flag that actually changes the method (`-X` with a blank argument
      does not). */
  predicate SetsMethod(f: Flag) {
    f.Head? || f.Get? || (f.SetMethod? && NormalizeMethod(f.arg) != "")
  }

  function MethodOf(f: Flag): string
    requires SetsMethod(f)
  {
    match f
    case Head => "HEAD"
    case Get => "GET"
    case SetMethod(arg) => NormalizeMethod(arg)
  }

  /** The method named by the last method flag that sets one. */
  function LastMethod(flags: seq<Flag>): Option<string> {
    if flags == [] then None
    else match LastMethod(flags[1..])
      case Some(m) => Some(m)
      case None => if SetsMethod(flags[0]) then Some(MethodOf(flags[0])) else None
  }

  /** A data flag occurs before any method flag. */
  predicate DataBeforeMethodFlag(flags: seq<Flag>) {
    if flags == [] then false
    else if flags[0].Data? then true
    else if IsMethodFlag(flags[0]) then false
    else DataBeforeMethodFlag(flags[1..])
  }

  /** What one flag does to the method: a method flag that names a method sets it,
      a data flag turns an implicit method into POST. */
  lemma ApplyMethod(a: Accum, f: Flag)
    ensures Apply(a, f).httpMethod ==
      if SetsMethod(f) then MethodOf(f)
      else if f.Data? && !a.explicitMethod then "POST"
      else a.httpMethod
    ensures Apply(a, f).explicitMethod == (a.explicitMethod || IsMethodFlag(f))
  {
  }

  /** Method rule: the last method flag that names a method wins; without one, a
      data flag that precedes every method flag makes it POST, else it stays. */
  lemma {:induction false} MethodRule(a: Accum, flags: seq<Flag>)
    ensures Interpret(a, flags).httpMethod ==
      match LastMethod(flags)
      case Some(m) => m
      case None => if !a.explicitMethod && DataBeforeMethodFlag(flags) then "POST" else a.httpMethod
    decreases |flags|
  {
    if flags != [] {
      var a' := Apply(a, flags[0]);
      ApplyMethod(a, flags[0]);
      MethodRule(a', flags[1..]);
      assert Interpret(a, flags) == Interpret(a', flags[1..]);
    }
  }

  /** The method counts as explicit once any method flag has been seen, even a
      `-X` with a blank argument. */
  lemma {:induction false} ExplicitMethodRule(a: Accum, flags: seq<Flag>)
    ensures Interpret(a, flags).explicitMethod == (a.explicitMethod || exists i :: 0 <= i < |flags| && IsMethodFlag(flags[i]))
    decreases |flags|
  {
    if flags != [] {
      var a' := Apply(a, flags[0]);
      ApplyMethod(a, flags[0]);
      ExplicitMethodRule(a', flags[1..]);
      assert Interpret(a, flags) == Interpret(a', flags[1..]);
      assert forall i :: 1 <= i < |flags| ==> flags[i] == flags[1..][i - 1];
      if exists i :: 1 <= i < |flags| && IsMethodFlag(flags[i]) {
        var i :| 1 <= i < |flags| && IsMethodFlag(flags[i]);
        assert IsMethodFlag(flags[1..][i - 1]);
      }
    }
  }

  /** The default method is GET; a data flag makes it POST only when no method flag
      came before it. */
  lemma DefaultMethod(flags: seq<Flag>)
    ensures LastMethod(flags).None? && !DataBeforeMethodFlag(flags) ==> Interpret(Initial, flags).httpMethod == "GET"
    ensures LastMethod(flags).None? && DataBeforeMethodFlag(flags) ==> Interpret(Initial, flags).httpMethod == "POST"
  {
    MethodRule(Initial, flags);
  }

  /** The value of the last `--url` flag. */
  function LastSetUrl(flags: seq<Flag>): Option<string> {
    if flags == [] then None
    else match LastSetUrl(flags[1..])
      case Some(u) => Some(u)
      case None => if flags[0].SetUrl? then Some(flags[0].arg) else None
  }

  /** The first word that does not start with `-`. */
  function FirstPositional(flags: seq<Flag>): Option<string> {
    if flags == [] then None
    else if flags[0].Word? && !StartsWith(flags[0].arg, "-") then Some(flags[0].arg)
    else FirstPositional(flags[1..])
  }

  /** What one flag does to the URL: `--url` sets it, a positional word fills it
      while it is empty. */
  lemma ApplyUrl(a: Accum, f: Flag)
    ensures Apply(a, f).url ==
      if f.SetUrl? then f.arg
      else if f.Word? && !StartsWith(f.arg, "-") && a.url == "" then f.arg
      else a.url
  {
  }

  /** URL rule: the last `--url` wins; without one, an already captured URL stays,
      and otherwise the first positional word becomes the URL. */
  lemma {:induction false} UrlRule(a: Accum, flags: seq<Flag>)
    requires WellFormed(flags)
    ensures Interpret(a, flags).url ==
      match LastSetUrl(flags)
      case Some(u) => u
      case None => if a.url != "" then a.url else FirstPositional(flags).GetOr("")
    decreases |flags|
  {
    if flags != [] {
      assert flags[0] == flags[0];
      assert WellFormed(flags[1..]) by {
        forall i | 0 <= i < |flags[1..]| ensures flags[1..][i] == flags[i + 1] { }
      }
      var a' := Apply(a, flags[0]);
      ApplyUrl(a, flags[0]);
      UrlRule(a', flags[1..]);
      assert Interpret(a, flags) == Interpret(a', flags[1..]);
    }
  }

  /** The header one flag contributes: its parsed line, if it is a well-formed
      `-H`. */
  function HeaderOf(f: Flag): seq<KeyValue> {
    if f.Header? && ParseHeaderLine(f.arg).Some? then [ParseHeaderLine(f.arg).value] else []
  }

  /** The headers the `-H` flags contribute, in order. */
  function FlagHeaders(flags: seq<Flag>): seq<KeyValue> {
    if flags == [] then [] else HeaderOf(flags[0]) + FlagHeaders(flags[1..])
  }

  /** Only a `-H` flag touches the headers. */
  lemma ApplyOtherHeaders(a: Accum, f: Flag)
    requires !f.Header?
    ensures Apply(a, f).headers == a.headers + HeaderOf(f)
  {
    assert a.headers + [] == a.headers;
  }

  /** A `-H` flag appends its header when the line parses. */
  lemma ApplyHeaderFlag(a: Accum, f: Flag)
    requires f.Header?
    ensures Apply(a, f).headers == a.headers + HeaderOf(f)
  {
    match ParseHeaderLine(f.arg)
    case None => AppendNothing(a.headers);
    case Some(h) =>
  }

  /** Header rule: every well-formed `-H` line is appended, in command-line order. */
  lemma {:induction false} HeadersRule(a: Accum, flags: seq<Flag>)
    ensures Interpret(a, flags).headers == a.headers + FlagHeaders(flags)
    decreases |flags|
  {
    if flags == [] {
      assert a.headers + [] == a.headers;
    } else {
      var f := flags[0];
      if f.Header? {
        ApplyHeaderFlag(a, f);
      } else {
        ApplyOtherHeaders(a, f);
      }
      HeadersRule(Apply(a, f), flags[1..]);
      ConcatAssoc(a.headers, HeaderOf(f), FlagHeaders(flags[1..]));
    }
  }

  /** The auth the last `-b` or `-u` flag sets. */
  function LastFlagAuth(flags: seq<Flag>): Option<Auth> {
    if flags == [] then None
    else match LastFlagAuth(flags[1..])
      case Some(x) => Some(x)
      case None =>
        match flags[0]
        case SetCookie(arg) => Some(Cookie(arg))
        case User(arg) => Some(Basic(SplitCredentials(arg).0, SplitCredentials(arg).1))
        case _ => None
  }

  /** What one flag does to the auth: `-b` and `-u` replace it. */
  lemma ApplyAuth(a: Accum, f: Flag)
    ensures Apply(a, f).auth ==
      match f
      case SetCookie(arg) => Cookie(arg)
      case User(arg) => Basic(SplitCredentials(arg).0, SplitCredentials(arg).1)
      case _ => a.auth
  {
  }

  /** Auth rule of the flag loop: `-b` and `-u` overwrite each other, the last one
      wins. */
  lemma {:induction false} FlagAuthRule(a: Accum, flags: seq<Flag>)
    ensures Interpret(a, flags).auth == LastFlagAuth(flags).GetOr(a.auth)
    decreases |flags|
  {
    if flags != [] {
      var a' := Apply(a, flags[0]);
      ApplyAuth(a, flags[0]);
      FlagAuthRule(a', flags[1..]);
      assert Interpret(a, flags) == Interpret(a', flags[1..]);
    }
  }

  /** The argument of the last data flag. */
  function LastData(flags: seq<Flag>): Option<string> {
    if flags == [] then None
    else match LastData(flags[1..])
      case Some(d) => Some(d)
      case None => if flags[0].Data? then Some(flags[0].arg) else None
  }

  /** Only a data flag sets the body. */
  lemma ApplyBody(a: Accum, f: Flag)
    ensures Apply(a, f).body == if f.Data? then Some(f.arg) else a.body
  {
  }

  /** Body rule: the last data flag's argument is the body, possibly empty. */
  lemma {:induction false} BodyRule(a: Accum, flags: seq<Flag>)
    ensures Interpret(a, flags).body == if LastData(flags).Some? then LastData(flags) else a.body
    decreases |flags|
  {
    if flags != [] {
      var a' := Apply(a, flags[0]);
      ApplyBody(a, flags[0]);
      BodyRule(a', flags[1..]);
      assert Interpret(a, flags) == Interpret(a', flags[1..]);
    }
  }

  // ---------------------------------------------------------------------------
  // The Authorization post-pass

  /** `value.match(/^<scheme>\s+(.+)$/i)[1]`: the scheme matched ignoring ASCII
      case, at least one whitespace character, then a non-empty rest without line
      terminators. `\s+` is greedy, so the captured text starts at the first
      non-blank character, or is the last blank when nothing else follows. */
  function SchemeArgument(value: string, scheme: string): (r: Option<string>)
    ensures r.Some? ==> r.value != [] && forall i :: 0 <= i < |r.value| ==> !IsLineTerminator(r.value[i])
    ensures r.Some? ==> |scheme| < |value| && EqualsIgnoreCase(value[..|scheme|], scheme)
    ensures r.Some? ==> EndsWith(value, r.value)
    ensures r.Some? ==>
      && IsSpace(value[|scheme|])
      && (r.value == TrimStart(value[|scheme|..]) || (TrimStart(value[|scheme|..]) == [] && r.value == [value[|value| - 1]]))
  {
    var n := |scheme|;
    if |value| <= n || !EqualsIgnoreCase(value[..n], scheme) || !IsSpace(value[n]) then None
    else
      var rest := value[n..];
      var arg := TrimStart(rest);
      assert value[|value| - |arg|..] == arg;
      if arg != "" then
        if forall i :: 0 <= i < |arg| ==> !IsLineTerminator(arg[i]) then Some(arg) else None
      else if |rest| >= 2 && !IsLineTerminator(rest[|rest| - 1]) then
        assert value[|value| - 1..] == [rest[|rest| - 1]];
        Some([rest[|rest| - 1]])
      else None
  }

  /** The scheme in any letter case, a whitespace run and a single-line argument
      that starts with a non-blank character match, capturing the argument. */
  lemma SchemeMatches(prefix: string, scheme: string, ws: string, t: string)
    requires EqualsIgnoreCase(prefix, scheme)
    requires ws != [] && AllSpace(ws)
    requires t != [] && !IsSpace(t[0]) && forall i :: 0 <= i < |t| ==> !IsLineTerminator(t[i])
    ensures SchemeArgument(prefix + ws + t, scheme) == Some(t)
  {
    var value := prefix + ws + t;
    var n := |scheme|;
    assert |prefix| == |Lower(prefix)| == |Lower(scheme)| == n;
    assert value[..n] == prefix;
    assert value[n] == ws[0];
    assert value[n..] == ws + t;
    TrimStartAfterBlanks(ws, t);
  }

  /** The auth an `Authorization` header stands for: a Bearer token, or Basic
      credentials that decode; `None` keeps the header. */
  function AuthFromHeader(h: KeyValue, env: Env): (r: Option<Auth>)
    ensures r.Some? ==> Lower(h.key) == "authorization"
    ensures r.Some? ==> r.value.Bearer? || r.value.Basic?
  {
    if Lower(h.key) != "authorization" then None
    else match SchemeArgument(h.value, "Bearer")
      case Some(token) => Some(Bearer(token))
      case None =>
        match SchemeArgument(h.value, "Basic")
        case None => None
        case Some(encoded) =>
          match env.atob(encoded)
          case None => None
          case Some(decoded) =>
            var (username, password) := SplitCredentials(decoded);
            Some(Basic(username, password))
  }

  /** A single-line token without leading whitespace. */
  predicate TokenText(t: string) {
    t != [] && !IsSpace(t[0]) && forall i :: 0 <= i < |t| ==> !IsLineTerminator(t[i])
  }

  /** An `Authorization: Bearer <token>` header is absorbed as that token. */
  lemma BearerRecognised(k: string, t: string, env: Env)
    requires Lower(k) == "authorization" && TokenText(t)
    ensures AuthFromHeader(KeyValue(k, "Bearer " + t), env) == Some(Bearer(t))
  {
    assert "Bearer " + t == "Bearer" + " " + t;
    SchemeMatches("Bearer", "Bearer", " ", t);
  }

  /** `Basic` is not `Bearer`, in any letter case. */
  lemma BasicIsNotBearer(t: string)
    requires t != []
    ensures SchemeArgument("Basic " + t, "Bearer") == None
  {
    var v := "Basic " + t;
    assert v[..6] == "Basic ";
    assert Lower(v[..6])[1] == 'a' && Lower("Bearer")[1] == 'e';
  }

  /** An `Authorization: Basic <text>` header whose text decodes is absorbed as the
      credentials the decoded text splits into. */
  lemma BasicRecognised(k: string, t: string, env: Env)
    requires Lower(k) == "authorization" && TokenText(t) && env.atob(t).Some?
    ensures AuthFromHeader(KeyValue(k, "Basic " + t), env) ==
      Some(Basic(SplitCredentials(env.atob(t).value).0, SplitCredentials(env.atob(t).value).1))
  {
    BasicIsNotBearer(t);
    assert "Basic " + t == "Basic" + " " + t;
    SchemeMatches("Basic", "Basic", " ", t);
  }

  /** An `Authorization: Basic <text>` header whose text does not decode is kept. */
  lemma BasicUndecodableKept(k: string, t: string, env: Env)
    requires Lower(k) == "authorization" && TokenText(t) && env.atob(t).None?
    ensures AuthFromHeader(KeyValue(k, "Basic " + t), env) == None
  {
    BasicIsNotBearer(t);
    assert "Basic " + t == "Basic" + " " + t;
    SchemeMatches("Basic", "Basic", " ", t);
  }

  /** The post-pass over the collected headers: recognised `Authorization` headers
      are removed and set the auth, overriding what the flags set. */
  function AbsorbAuthorization(headers: seq<KeyValue>, auth: Auth, env: Env): (seq<KeyValue>, Auth) {
    if headers == [] then ([], auth)
    else match AuthFromHeader(headers[0], env)
      case Some(x) => AbsorbAuthorization(headers[1..], x, env)
      case None =>
        var (kept, final) := AbsorbAuthorization(headers[1..], auth, env);
        ([headers[0]] + kept, final)
  }

  /** The headers the post-pass keeps, in order. */
  function KeptHeaders(headers: seq<KeyValue>, env: Env): (r: seq<KeyValue>)
    ensures |r| <= |headers|
    ensures forall i :: 0 <= i < |r| ==> r[i] in headers && AuthFromHeader(r[i], env).None?
  {
    if headers == [] then []
    else (if AuthFromHeader(headers[0], env).None? then [headers[0]] else []) + KeptHeaders(headers[1..], env)
  }

  /** The auth of the last recognised `Authorization` header. */
  function LastHeaderAuth(headers: seq<KeyValue>, env: Env): Option<Auth> {
    if headers == [] then None
    else match LastHeaderAuth(headers[1..], env)
      case Some(x) => Some(x)
      case None => AuthFromHeader(headers[0], env)
  }

  /** In a concatenation, a recognised header of the second part wins. */
  lemma {:induction false} LastHeaderAuthAppend(x: seq<KeyValue>, y: seq<KeyValue>, env: Env)
    ensures LastHeaderAuth(x + y, env) ==
      if LastHeaderAuth(y, env).Some? then LastHeaderAuth(y, env) else LastHeaderAuth(x, env)
    decreases |x|
  {
    if x == [] {
      assert x + y == y;
    } else {
      assert (x + y)[0] == x[0] && (x + y)[1..] == x[1..] + y;
      LastHeaderAuthAppend(x[1..], y, env);
    }
  }

  /** Post-pass rule: the unrecognised headers are kept in their relative order, and
      the last recognised `Authorization` header, if any, decides the auth whatever
      `-u` or `-b` set before. */
  lemma {:induction false} AbsorbRule(headers: seq<KeyValue>, auth: Auth, env: Env)
    ensures AbsorbAuthorization(headers, auth, env) ==
      (KeptHeaders(headers, env), LastHeaderAuth(headers, env).GetOr(auth))
    decreases |headers|
  {
    if headers != [] {
      match AuthFromHeader(headers[0], env)
      case Some(x) =>
        AbsorbRule(headers[1..], x, env);
        assert KeptHeaders(headers, env) == KeptHeaders(headers[1..], env);
        assert LastHeaderAuth(headers, env).GetOr(auth) == LastHeaderAuth(headers[1..], env).GetOr(x);
      case None =>
        AbsorbRule(headers[1..], auth, env);
    }
  }

  // ---------------------------------------------------------------------------
  // The whole parse

  /** The body text: the pretty-printed JSON when the body parses, else the raw
      body; the placeholder without a data flag. */
  function BodyText(body: Option<string>, env: Env): (r: string)
    ensures body.None? ==> r == EmptyBodyText
    ensures body.Some? && env.jsonParse(body.value).None? ==> r == body.value
  {
    match body
    case None => EmptyBodyText
    case Some(b) =>
      match env.jsonParse(b)
      case Some(j) => env.jsonPretty(j)
      case None => b
  }

  /** Parsing a token list: not recognised unless the first token is exactly `curl`;
      otherwise the method is never empty and the params and headers lists never
      are either. */
  function ParseTokens(tokens: seq<string>, env: Env): (r: Option<Request>)
    ensures r.None? <==> tokens == [] || tokens[0] != "curl"
    ensures r.Some? ==> r.value.httpMethod != "" && r.value.params != [] && r.value.headers != []
  {
    if tokens == [] || tokens[0] != "curl" then None
    else
      var a := Interpret(Initial, Lex(tokens, 1));
      var (headers, auth) := AbsorbAuthorization(a.headers, a.auth, env);
      var (url, params) := ParseUrlAndParams(a.url, env);
      Some(Request(
        if a.httpMethod == "" then "GET" else a.httpMethod,
        url, params, ToKeyValueRows(headers), auth, BodyText(a.body, env)))
  }

  /** The parsed method: the last method flag that names one, else POST when a data
      flag precedes every method flag, else GET. */
  lemma ParsedMethod(tokens: seq<string>, env: Env)
    requires tokens != [] && tokens[0] == "curl"
    ensures var flags := Lex(tokens, 1);
      ParseTokens(tokens, env).value.httpMethod ==
        match LastMethod(flags)
        case Some(m) => m
        case None => if DataBeforeMethodFlag(flags) then "POST" else "GET"
  {
    var flags := Lex(tokens, 1);
    MethodRule(Initial, flags);
    LastMethodNamed(flags);
  }

  /** The parsed URL and params: the last `--url`, else the first positional word,
      split by the URL parser. */
  lemma ParsedUrl(tokens: seq<string>, env: Env)
    requires tokens != [] && tokens[0] == "curl"
    ensures var flags := Lex(tokens, 1);
      var r := ParseTokens(tokens, env).value;
      (r.url, r.params) == ParseUrlAndParams(
        match LastSetUrl(flags)
        case Some(u) => u
        case None => FirstPositional(flags).GetOr(""), env)
  {
    UrlRule(Initial, Lex(tokens, 1));
  }

  /** The parsed headers and auth are what the `Authorization` post-pass makes of
      the interpreted ones. */
  lemma ParsedAbsorbed(tokens: seq<string>, env: Env)
    requires tokens != [] && tokens[0] == "curl"
    ensures var a := Interpret(Initial, Lex(tokens, 1));
      var r := ParseTokens(tokens, env).value;
      (r.headers, r.auth) == (ToKeyValueRows(AbsorbAuthorization(a.headers, a.auth, env).0), AbsorbAuthorization(a.headers, a.auth, env).1)
  {
  }

  /** The parsed headers: every well-formed `-H` line except the recognised
      `Authorization` ones, in order. */
  lemma ParsedHeaders(tokens: seq<string>, env: Env)
    requires tokens != [] && tokens[0] == "curl"
    ensures ParseTokens(tokens, env).value.headers == ToKeyValueRows(KeptHeaders(FlagHeaders(Lex(tokens, 1)), env))
  {
    var flags := Lex(tokens, 1);
    var a := Interpret(Initial, flags);
    assert a.headers == FlagHeaders(flags) by {
      HeadersRule(Initial, flags);
      assert [] + FlagHeaders(flags) == FlagHeaders(flags);
    }
    assert AbsorbAuthorization(a.headers, a.auth, env).0 == KeptHeaders(a.headers, env) by {
      AbsorbRule(a.headers, a.auth, env);
    }
    ParsedAbsorbed(tokens, env);
  }

  /** The parsed auth: the last recognised `Authorization` header, else the last
      `-u` or `-b` flag, else none. */
  lemma ParsedAuth(tokens: seq<string>, env: Env)
    requires tokens != [] && tokens[0] == "curl"
    ensures var flags := Lex(tokens, 1);
      ParseTokens(tokens, env).value.auth == LastHeaderAuth(FlagHeaders(flags), env).GetOr(LastFlagAuth(flags).GetOr(NoAuth))
  {
    var flags := Lex(tokens, 1);
    var a := Interpret(Initial, flags);
    assert a.headers == FlagHeaders(flags) by {
      HeadersRule(Initial, flags);
      assert [] + FlagHeaders(flags) == FlagHeaders(flags);
    }
    assert a.auth == LastFlagAuth(flags).GetOr(NoAuth) by {
      FlagAuthRule(Initial, flags);
    }
    assert AbsorbAuthorization(a.headers, a.auth, env).1 == LastHeaderAuth(a.headers, env).GetOr(a.auth) by {
      AbsorbRule(a.headers, a.auth, env);
    }
    ParsedAbsorbed(tokens, env);
  }

  /** The parsed body text comes from the last data flag. */
  lemma ParsedBody(tokens: seq<string>, env: Env)
    requires tokens != [] && tokens[0] == "curl"
    ensures ParseTokens(tokens, env).value.bodyText == BodyText(LastData(Lex(tokens, 1)), env)
  {
    BodyRule(Initial, Lex(tokens, 1));
  }

  /** A method flag that sets the method names a non-empty one. */
  lemma {:induction false} LastMethodNamed(flags: seq<Flag>)
    ensures LastMethod(flags).Some? ==> LastMethod(flags).value != ""
  {
    if flags != [] {
      LastMethodNamed(flags[1..]);
    }
  }

  /** `parseCurlCommand(input)`: `None` (the source's `null`) exactly when the input
      has no tokens or its first token is not `curl`. */
  function ParseCurlCommand(input: string, env: Env): (r: Option<Request>)
    ensures r.None? <==> Tokenize(input) == [] || Tokenize(input)[0] != "curl"
    ensures r.Some? ==> r.value.httpMethod != "" && r.value.params != [] && r.value.headers != []
  {
    ParseTokens(Tokenize(input), env)
  }
}

=== FILE: history.dfy ===
/** The pure list updates of the home page (src/pages/HomePage.jsx): the bounded,
    most-recent-first request history, the URL suggestions derived from it, and the
    entry recorded for a failed request. */
module History {
  import opened Options
  import opened Seqs

  /** `MAX_HISTORY`. */
  const MaxHistory: nat := 20

  /** The most suggestions offered. */
  const MaxSuggestions: nat := 20

  /** A history entry's status: an HTTP status code, or `"ERR"`. */
  datatype Status = Code(code: int) | Err

  /** A history entry. The random id and the creation time stamp are left out. */
  datatype Entry = Entry(httpMethod: string, status: Status, responseTimeMs: real, url: Option<string>)

  /** `[entry, ...prev].slice(0, MAX_HISTORY)`: the new entry first, then the earlier
      entries in their order, the oldest ones dropped beyond the bound. */
  function AddToHistory<T>(entry: T, prev: seq<T>): (r: seq<T>)
    ensures |r| == if |prev| + 1 <= MaxHistory then |prev| + 1 else MaxHistory
    ensures r[0] == entry
    ensures r[1..] == prev[..|r| - 1]
  {
    var next := [entry] + prev;
    if |next| <= MaxHistory then next else next[..MaxHistory]
  }

  /** The URLs that count as present: `filter(Boolean)` keeps the non-empty ones. */
  function PresentUrls(urls: seq<Option<string>>): (r: seq<string>)
    ensures forall u :: u in r <==> u != "" && Some(u) in urls
    decreases |urls|
  {
    if urls == [] then []
    else
      var rest := PresentUrls(urls[1..]);
      assert forall u :: Some(u) in urls[1..] ==> Some(u) in urls;
      if urls[0].Some? && urls[0].value != "" then [urls[0].value] + rest else rest
  }

  /** Collecting the present URLs works entry by entry, so their order is the order
      of the history. */
  lemma {:induction false} PresentUrlsAppend(a: seq<Option<string>>, b: seq<Option<string>>)
    ensures PresentUrls(a + b) == PresentUrls(a) + PresentUrls(b)
    decreases |a|
  {
    if a == [] {
      assert a + b == b;
    } else {
      assert (a + b)[1..] == a[1..] + b;
      PresentUrlsAppend(a[1..], b);
      var head := if a[0].Some? && a[0].value != "" then [a[0].value] else [];
      ConcatAssoc(head, PresentUrls(a[1..]), PresentUrls(b));
    }
  }

  /** `urlSuggestions`: the distinct present URLs of the history in order of first
      appearance, the first twenty of them. */
  function UrlSuggestions(urls: seq<Option<string>>): (r: seq<string>)
    ensures |r| <= MaxSuggestions
    ensures |r| == MaxSuggestions || |r| == |Dedupe(PresentUrls(urls))|
    ensures |r| <= |Dedupe(PresentUrls(urls))| && r == Dedupe(PresentUrls(urls))[..|r|]
    ensures NoDuplicates(r)
    ensures forall u :: u in r ==> u in PresentUrls(urls)
    ensures forall u :: u in r ==> u != "" && Some(u) in urls
    ensures forall i, j :: 0 <= i < j < |r| ==>
      FirstIndex(PresentUrls(urls), r[i]) < FirstIndex(PresentUrls(urls), r[j])
  {
    var present := PresentUrls(urls);
    var all := Dedupe(present);
    DedupeOrdered(present);
    var n := if |all| <= MaxSuggestions then |all| else MaxSuggestions;
    OrderedPrefix(all, present, n);
    all[..n]
  }

  /** A prefix of a duplicate-free list of elements of `s`, ordered by first
      occurrence in `s`, is again one. */
  lemma OrderedPrefix<T>(all: seq<T>, s: seq<T>, n: nat)
    requires n <= |all| && NoDuplicates(all) && forall x :: x in all ==> x in s
    requires forall i, j :: 0 <= i < j < |all| ==> FirstIndex(s, all[i]) < FirstIndex(s, all[j])
    ensures NoDuplicates(all[..n]) && forall x :: x in all[..n] ==> x in s
    ensures forall i, j :: 0 <= i < j < n ==> FirstIndex(s, all[..n][i]) < FirstIndex(s, all[..n][j])
  {
    forall x | x in all[..n] ensures x in s {
      var i :| 0 <= i < n && all[..n][i] == x;
      assert all[i] == x;
    }
  }

  /** Every present URL is suggested unless twenty other URLs came first. */
  lemma SuggestionsComplete(urls: seq<Option<string>>, u: string)
    requires u != "" && Some(u) in urls
    requires |Dedupe(PresentUrls(urls))| <= MaxSuggestions
    ensures u in UrlSuggestions(urls)
  {
  }

  /** The entry recorded for a failed request: the status, or `Err` when it is
      missing or zero; the time, or zero when it is missing. */
  function FailureEntry(httpMethod: string, url: Option<string>, status: Option<int>, timeMs: Option<real>): (r: Entry)
    ensures r.status.Err? <==> (status.None? || status.value == 0)
    ensures r.status.Code? ==> r.status.code == status.value && r.status.code != 0
    ensures r.responseTimeMs == timeMs.GetOr(0.0)
    ensures r.httpMethod == httpMethod && r.url == url
  {
    var s := if status.Some? && status.value != 0 then Code(status.value) else Err;
    Entry(httpMethod, s, timeMs.GetOr(0.0), url)
  }
}

=== FILE: key_value_rows.dfy ===
/** The row-list operations of the key/value editor (src/components/KeyValueSection.jsx)
    used for params and headers. */
module KeyValueRows {
  import opened Options
  import opened Model

  /** The row field an edit targets. */
  datatype Field = KeyField | ValueField

  /** A row with one field replaced. */
  function WithField(row: KeyValue, field: Field, v: string): (r: KeyValue)
    ensures field == KeyField ==> r.key == v && r.value == row.value
    ensures field == ValueField ==> r.value == v && r.key == row.key
  {
    match field
    case KeyField => row.(key := v)
    case ValueField => row.(value := v)
  }

  /** `updateRow(index, field, value)`: the row at `index` gets the new field value;
      every other row, and the length, stay as they were. An index outside the list
      changes nothing. */
  function UpdateRow(rows: seq<KeyValue>, index: int, field: Field, v: string): (r: seq<KeyValue>)
    ensures |r| == |rows|
    ensures forall i :: 0 <= i < |rows| && i != index ==> r[i] == rows[i]
    ensures 0 <= index < |rows| ==> r[index] == WithField(rows[index], field, v)
    ensures !(0 <= index < |rows|) ==> r == rows
  {
    seq(|rows|, i requires 0 <= i < |rows| => if i == index then WithField(rows[i], field, v) else rows[i])
  }

  /** Writing back the value a row already holds changes nothing. */
  lemma UpdateSameValue(rows: seq<KeyValue>, index: int, field: Field)
    requires 0 <= index < |rows|
    ensures UpdateRow(rows, index, field, if field == KeyField then rows[index].key else rows[index].value) == rows
  {
  }

  /** Two updates of the same field of the same row: the later one wins. */
  lemma UpdateTwice(rows: seq<KeyValue>, index: int, field: Field, v: string, w: string)
    ensures UpdateRow(UpdateRow(rows, index, field, v), index, field, w) == UpdateRow(rows, index, field, w)
  {
  }

  /** `addRow()`: one empty row appended, a missing list read as empty. */
  function AddRow(rows: Option<seq<KeyValue>>): (r: seq<KeyValue>)
    ensures |r| == |rows.GetOr([])| + 1
    ensures r[..|r| - 1] == rows.GetOr([]) && r[|r| - 1] == EmptyRow
  {
    rows.GetOr([]) + [EmptyRow]
  }

  /** `removeRow(index)`: the list without the row at `index`, and a single empty
      row instead of an empty list. */
  function RemoveRow(rows: seq<KeyValue>, index: int): (r: seq<KeyValue>)
    ensures r != []
    ensures rows == [] ==> r == [EmptyRow]
    ensures |rows| >= 2 && 0 <= index < |rows| ==> r == rows[..index] + rows[index + 1..]
    ensures rows != [] && !(0 <= index < |rows|) ==> r == rows
    ensures |rows| <= 1 && 0 <= index < |rows| ==> r == [EmptyRow]
  {
    var next := Without(rows, index);
    if next != [] then next else [EmptyRow]
  }

  /** `rows.filter((_, i) => i !== index)`. */
  function Without(rows: seq<KeyValue>, index: int): (r: seq<KeyValue>)
    ensures 0 <= index < |rows| ==> r == rows[..index] + rows[index + 1..]
    ensures !(0 <= index < |rows|) ==> r == rows
    decreases |rows|
  {
    if rows == [] then []
    else
      var rest := Without(rows[1..], index - 1);
      if index == 0 then rest
      else
        assert 0 < index < |rows| ==> [rows[0]] + rows[1..][..index - 1] == rows[..index];
        assert 0 < index < |rows| ==> rows[1..][index - 1 + 1..] == rows[index + 1..];
        [rows[0]] + rest
  }

  /** Removing the row just added restores a non-empty list. */
  lemma RemoveAddedRow(rows: seq<KeyValue>)
    requires rows != []
    ensures RemoveRow(AddRow(Some(rows)), |rows|) == rows
  {
    var added := AddRow(Some(rows));
    assert added[..|rows|] == rows;
    assert added[|rows| + 1..] == [];
    assert rows + [] == rows;
  }
}

=== FILE: model.dfy ===
/** The request shape shared by the curl importer and exporter, and the foreign
    collaborators (URL parser, JSON, base64) both directions call into. */
module Model {
  import opened Options

  /** One row of a params or headers table. */
  datatype KeyValue = KeyValue(key: string, value: string)

  /** The placeholder row `{ key: "", value: "" }` shown for an empty table. */
  const EmptyRow := KeyValue("", "")

  /** Authentication; the source keeps one object with a `type` tag and a field for
      every variant, of which only the active variant's fields are ever read. */
  datatype Auth =
    | NoAuth
    | Bearer(token: string)
    | Basic(username: string, password: string)
    | Cookie(cookie: string)

  /** A value produced by `JSON.parse`. */
  datatype Json =
    | JNull
    | JBool(b: bool)
    | JNumber(n: real)
    | JString(s: string)
    | JArray(items: seq<Json>)
    | JObject(members: seq<(string, Json)>)

  /** JavaScript truthiness of a parsed JSON value. */
  predicate Truthy(j: Json) {
    match j
    case JNull => false
    case JBool(b) => b
    case JNumber(n) => n != 0.0
    case JString(s) => s != ""
    case JArray(_) => true
    case JObject(_) => true
  }

  /** `Object.keys(j).length === 0`: primitives other than non-empty strings have no
      own enumerable keys; arrays and objects have one per element or member. */
  predicate HasNoOwnKeys(j: Json) {
    match j
    case JString(s) => s == ""
    case JArray(items) => items == []
    case JObject(members) => members == []
    case _ => true
  }

  /** The part of a WHATWG `URL` object the converter looks at. */
  datatype ParsedUrl = ParsedUrl(
    /** `url.protocol`, e.g. `"https:"` */
    protocol: string,
    /** `url.toString()` after `url.search = ""` */
    withoutSearch: string,
    /** the `searchParams` entries in order, duplicates kept */
    search: seq<KeyValue>)

  /** Library behaviour the source calls but does not define. `None` stands for a
      thrown exception the caller catches (or, for `btoa`, one it does not). */
  datatype Env = Env(
    /** `new URL(s)` */
    parseUrl: string -> Option<ParsedUrl>,
    /** append entries to `url.searchParams`, then `url.toString()` */
    appendSearch: (ParsedUrl, seq<KeyValue>) -> string,
    /** `new URLSearchParams(entries).toString()` */
    formEncode: seq<KeyValue> -> string,
    /** `JSON.parse(s)` */
    jsonParse: string -> Option<Json>,
    /** `JSON.stringify(j)` */
    jsonStringify: Json -> string,
    /** `JSON.stringify(j, null, 2)` */
    jsonPretty: Json -> string,
    /** `atob(s)` */
    atob: string -> Option<string>,
    /** `btoa(s)`, which throws on characters above U+00FF */
    btoa: string -> Option<string>)

  /** What the importer produces and the editor holds. */
  datatype Request = Request(
    httpMethod: string,
    url: string,
    params: seq<KeyValue>,
    headers: seq<KeyValue>,
    auth: Auth,
    bodyText: string)
}

=== FILE: options.dfy ===
/** The optional-value wrapper used wherever the source returns `null`, `undefined`
    or throws and catches locally. */
module Options {

  /** `None` stands for JavaScript's `null`/`undefined` (or a caught exception),
      `Some(v)` for a present value. */
  datatype Option<+T> = None | Some(value: T) {

    /** The value, or `default` when absent (JavaScript's `x ?? default`). */
    function GetOr(default: T): (r: T)
      ensures Some? ==> r == value
      ensures None? ==> r == default
    {
      match this
      case Some(v) => v
      case None => default
    }
  }
}

=== FILE: quoting.dfy ===
/** The exporter's `shellQuote` and the importer's tokenizer are inverse to each
    other: a quoted value reads back as exactly one argument. */
module Quoting {
  import opened Strings
  import opened Tokenizer
  import opened CurlExport
  import opened Seqs

  /** Removing the first character keeps a string free of continuations. */
  lemma NoContinuationTail(s: string)
    requires s != [] && NoContinuation(s)
    ensures NoContinuation(s[1..])
  {
    forall i | 0 <= i < |s[1..]| ensures !ContinuationAt(s[1..], i) {
      ContinuationShift(s, i);
    }
  }

  /** The escaped body of a quoted value, with its closing quote, contains no line
      continuation the value did not already contain. */
  lemma {:induction false} FoldEscaped(s: string)
    requires NoContinuation(s)
    ensures FoldContinuations(EscapeQuotes(s) + "'") == EscapeQuotes(s) + "'"
  {
    if s == [] {
      assert EscapeQuotes(s) + "'" == "'";
    } else {
      var x := EscapeQuotes(s[1..]) + "'";
      NoContinuationTail(s);
      FoldEscaped(s[1..]);
      var piece := if s[0] == '\'' then "'\\''" else [s[0]];
      ConcatAssoc(piece, EscapeQuotes(s[1..]), "'");
      if s[0] == '\'' {
        FoldIdentity(piece);
        FoldAppend(piece, x);
      } else {
        EscapedHead(s);
        assert ([s[0]] + x)[1..] == x;
      }
    }
  }

  /** An unescaped first character does not start a continuation in the escaped
      text: a backslash there was not followed by a line break in `s`, and
      escaping never produces one. */
  lemma EscapedHead(s: string)
    requires s != [] && s[0] != '\'' && NoContinuation(s)
    ensures !ContinuationAt([s[0]] + (EscapeQuotes(s[1..]) + "'"), 0)
  {
    var x := EscapeQuotes(s[1..]) + "'";
    if s[0] == '\\' {
      assert !ContinuationAt(s, 0);
      assert x[0] == (if s[1..] == [] then '\'' else s[1]);
      if s[1..] != [] && s[1] == '\r' {
        assert EscapeQuotes(s[1..]) == [s[1]] + EscapeQuotes(s[2..]);
        ConcatAssoc([s[1]], EscapeQuotes(s[2..]), "'");
        assert x[1] == (if s[2..] == [] then '\'' else s[2]);
      }
    }
  }

  /** Inside single quotes, `'\''` closes the quote, adds an escaped `'` and reopens
      the quote. */
  lemma EscapedQuote(st: Scanner)
    requires st.quote == InSingle && !st.escaping
    ensures Run(st, "'\\''") == st.(current := st.current + "'")
  {
    var piece := "'\\''";
    var st1 := st.(quote := Unquoted);
    var st2 := st1.(escaping := true);
    var st3 := st.(quote := Unquoted, current := st.current + "'");
    assert piece[1..] == "\\''";
    assert Run(st, piece) == Run(st1, "\\''");
    assert "\\''"[1..] == "''";
    assert Run(st1, "\\''") == Run(st2, "''");
    assert "''"[1..] == "'";
    assert Run(st2, "''") == Run(st3, "'");
    assert "'"[1..] == "";
    assert Run(st3, "'") == Run(st3.(quote := InSingle), "");
  }

  /** Inside single quotes the escaped text of `s` adds exactly `s` to the current
      token and leaves the scanner inside single quotes. */
  lemma {:induction false} RunEscaped(st: Scanner, s: string)
    requires st.quote == InSingle && !st.escaping
    ensures Run(st, EscapeQuotes(s)) == st.(current := st.current + s)
    decreases |s|
  {
    if s == [] {
      assert st.current + s == st.current;
    } else {
      var piece := if s[0] == '\'' then "'\\''" else [s[0]];
      assert EscapeQuotes(s) == piece + EscapeQuotes(s[1..]);
      RunAppend(st, piece, EscapeQuotes(s[1..]));
      var mid := st.(current := st.current + [s[0]]);
      if s[0] == '\'' {
        EscapedQuote(st);
      } else {
        SingleQuotedLiteral(st, piece);
      }
      RunEscaped(mid, s[1..]);
      AppendHeadTail(st.current, s);
    }
  }

  /** A quoted value scanned from any unquoted state is appended to the current
      token. */
  lemma QuotedAppends(st: Scanner, s: string)
    requires st.quote == Unquoted && !st.escaping
    ensures Run(st, ShellQuote(s)) == st.(current := st.current + s)
  {
    var e := EscapeQuotes(s);
    assert ShellQuote(s) == "'" + e + "'";
    RunAppend(st, "'" + e, "'");
    RunAppend(st, "'", e);
    var open := st.(quote := InSingle);
    assert Run(st, "'") == Run(open, "");
    RunEscaped(open, s);
    assert Run(open.(current := st.current + s), "'") ==
      Run(st.(current := st.current + s), "");
  }

  /** Folding continuations leaves a quoted value unchanged. */
  lemma FoldQuoted(s: string)
    requires NoContinuation(s)
    ensures FoldContinuations(ShellQuote(s)) == ShellQuote(s)
  {
    var e := EscapeQuotes(s);
    assert ShellQuote(s) == "'" + (e + "'");
    FoldEscaped(s);
    FoldAppend("'", e + "'");
    assert FoldContinuations("'") == "'";
  }

  /** Preparing a quoted value for scanning leaves it unchanged. */
  lemma PrepareQuoted(s: string)
    requires NoContinuation(s)
    ensures Prepare(ShellQuote(s)) == ShellQuote(s)
  {
    FoldQuoted(s);
    assert Trimmed(ShellQuote(s));
  }

  /** Quoting round trip: a value without a backslash-newline that `shellQuote`
      wraps tokenizes back to itself, and to nothing when it is empty. */
  lemma QuoteRoundTrip(s: string)
    requires NoContinuation(s)
    ensures Tokenize(ShellQuote(s)) == if s == "" then [] else [s]
  {
    PrepareQuoted(s);
    QuotedAppends(Start, s);
    assert Start.current + s == s;
  }
}

=== FILE: reimport.dfy ===
/** Reading a generated command back. The generator quotes every value it writes,
    so when those values carry no backslash-newline (which the importer folds away)
    the importer's tokenizer recovers exactly the words the generator meant, and
    the flag walk recovers the method, URL, headers, cookie and body. The method
    comes back changed in one case: GET with an attached body is written without
    `-X` and reads back as POST. */
module Reimport {
  import opened Options
  import opened Strings
  import opened Seqs
  import opened Model
  import opened Tokenizer
  import opened Quoting
  import opened CurlExport
  import opened CurlImport
  import Url

  // ---------------------------------------------------------------------------
  // The layout of a generated command

  /** One continuation line of a generated command: two spaces, a flag, a space and
      the quoted argument. */
  datatype Opt = Opt(flag: string, arg: string)

  function OptLine(o: Opt): string {
    "  " + o.flag + " " + ShellQuote(o.arg)
  }

  function OptLines(opts: seq<Opt>): seq<string> {
    seq(|opts|, i requires 0 <= i < |opts| => OptLine(opts[i]))
  }

  /** The flags the generator writes after the first line. */
  predicate KnownFlag(f: string) {
    f == "-H" || f == "--cookie" || f == "--data-raw"
  }

  /** A word the scanner reads as it stands: non-empty, no quote, backslash or
      whitespace. */
  predicate BareWord(w: string) {
    w != "" && forall i :: 0 <= i < |w| ==> IsPlain(w[i])
  }

  /** Continuation lines a re-import can read: a known flag, and an argument that is
      non-empty and free of backslash-newlines. */
  predicate Readable(opts: seq<Opt>) {
    forall i :: 0 <= i < |opts| ==> KnownFlag(opts[i].flag) && opts[i].arg != "" && NoContinuation(opts[i].arg)
  }

  lemma KnownFlagBare(f: string)
    requires KnownFlag(f)
    ensures BareWord(f) && '\\' !in f
  {
  }

  /** The `-H` lines, one per header of the final header object, in its order. */
  function HeaderOpts(m: seq<KeyValue>): seq<Opt> {
    seq(|m|, i requires 0 <= i < |m| => Opt("-H", m[i].key + ": " + m[i].value))
  }

  /** The `--cookie` line. */
  function CookieOpts(auth: Auth): seq<Opt> {
    if auth.Cookie? && auth.cookie != "" then [Opt("--cookie", auth.cookie)] else []
  }

  /** The `--data-raw` line. */
  function DataOpts(p: CurlPayload, env: Env): seq<Opt> {
    if AttachesBody(EffectiveMethod(p.httpMethod), p.body, p.allowGetBody)
    then [Opt("--data-raw", env.jsonStringify(p.body.value))]
    else []
  }

  /** The continuation lines of the command generated for `p` with the final
      header object `headers`. */
  function ExportedOpts(p: CurlPayload, env: Env, headers: seq<KeyValue>): seq<Opt> {
    HeaderOpts(headers) + CookieOpts(p.auth) + DataOpts(p, env)
  }

  /** The URL the first line quotes. */
  function ExportedUrl(p: CurlPayload, env: Env): string {
    BuildUrlWithParams(Url.NormalizeHttpUrl(p.url), p.params, env)
  }

  /** The method part of the first line. */
  function MethodPart(m: string): string {
    if m == "GET" then "" else "-X " + m + " "
  }

  lemma OptLinesAppend(a: seq<Opt>, b: seq<Opt>)
    ensures OptLines(a + b) == OptLines(a) + OptLines(b)
  {
  }

  /** The fixed prefixes of the generator's continuation lines. */
  lemma LinePrefixes()
    ensures "  -H " == "  " + "-H" + " "
    ensures "  --cookie " == "  " + "--cookie" + " "
    ensures "  --data-raw " == "  " + "--data-raw" + " "
  {
  }

  lemma HeaderLinesAsOpts(h: seq<KeyValue>)
    ensures HeaderLines(h) == OptLines(HeaderOpts(h))
  {
    LinePrefixes();
  }

  lemma CookieLinesAsOpts(auth: Auth)
    ensures CookieLines(auth) == OptLines(CookieOpts(auth))
  {
    LinePrefixes();
  }

  lemma DataLinesAsOpts(p: CurlPayload, env: Env)
    ensures DataLines(p, env) == OptLines(DataOpts(p, env))
  {
    LinePrefixes();
  }

  /** The generator's lines are its first line followed by the continuation lines. */
  lemma ExportedLines(p: CurlPayload, env: Env)
    requires FinalHeaders(p, env).Some?
    ensures CurlLines(p, env) == Some([FirstLine(EffectiveMethod(p.httpMethod), ExportedUrl(p, env))]
      + OptLines(ExportedOpts(p, env, FinalHeaders(p, env).value)))
  {
    var h := FinalHeaders(p, env).value;
    var first := FirstLine(EffectiveMethod(p.httpMethod), ExportedUrl(p, env));
    var a, b, c := HeaderOpts(h), CookieOpts(p.auth), DataOpts(p, env);
    assert CurlLines(p, env) == Some([first] + HeaderLines(h) + CookieLines(p.auth) + DataLines(p, env));
    HeaderLinesAsOpts(h);
    CookieLinesAsOpts(p.auth);
    DataLinesAsOpts(p, env);
    assert OptLines(a + b + c) == OptLines(a) + OptLines(b) + OptLines(c) by {
      OptLinesAppend(a + b, c);
      OptLinesAppend(a, b);
    }
    assert [first] + OptLines(a) + OptLines(b) + OptLines(c) == [first] + (OptLines(a) + OptLines(b) + OptLines(c)) by {
      ConcatAssoc([first] + OptLines(a), OptLines(b), OptLines(c));
      ConcatAssoc([first], OptLines(a), OptLines(b) + OptLines(c));
      ConcatAssoc(OptLines(a), OptLines(b), OptLines(c));
    }
  }

  /** The text after the first line: each continuation line preceded by the line
      break. */
  function JoinRest(opts: seq<Opt>): string {
    if opts == [] then "" else LineBreak + (OptLine(opts[0]) + JoinRest(opts[1..]))
  }

  lemma {:induction false} JoinLines(first: string, opts: seq<Opt>)
    ensures Join([first] + OptLines(opts), LineBreak) == first + JoinRest(opts)
    decreases |opts|
  {
    if opts == [] {
      assert [first] + OptLines(opts) == [first];
    } else {
      var lines := [first] + OptLines(opts);
      assert lines[1..] == [OptLine(opts[0])] + OptLines(opts[1..]);
      JoinLines(OptLine(opts[0]), opts[1..]);
      ConcatAssoc(first, LineBreak, OptLine(opts[0]) + JoinRest(opts[1..]));
    }
  }

  // ---------------------------------------------------------------------------
  // Folding and trimming

  /** What folding leaves of the text after the first line: every line break
      becomes two spaces. */
  function FoldedRest(opts: seq<Opt>): string {
    if opts == [] then "" else "  " + (OptLine(opts[0]) + FoldedRest(opts[1..]))
  }

  lemma NoBackslash(s: string)
    requires '\\' !in s
    ensures NoContinuation(s)
  {
  }

  lemma FoldLineBreak()
    ensures FoldContinuations(LineBreak) == "  "
  {
    assert !ContinuationAt(LineBreak, 0);
    assert LineBreak[1..] == "\\\n";
    assert ContinuationAt("\\\n", 0);
    assert "\\\n"[2..] == "";
  }

  lemma FoldOptLine(o: Opt)
    requires KnownFlag(o.flag) && NoContinuation(o.arg)
    ensures FoldContinuations(OptLine(o)) == OptLine(o)
  {
    var a := "  " + o.flag + " ";
    KnownFlagBare(o.flag);
    NoBackslash(a);
    FoldIdentity(a);
    FoldQuoted(o.arg);
    FoldAppend(a, ShellQuote(o.arg));
  }

  lemma {:induction false} FoldRest(opts: seq<Opt>)
    requires Readable(opts)
    ensures FoldContinuations(JoinRest(opts)) == FoldedRest(opts)
    decreases |opts|
  {
    if opts != [] {
      assert Readable(opts[1..]) by {
        forall i | 0 <= i < |opts[1..]| ensures opts[1..][i] == opts[i + 1] { }
      }
      FoldRest(opts[1..]);
      FoldOptLine(opts[0]);
      OptLineEnds(opts[0]);
      FoldBreakLine(OptLine(opts[0]), JoinRest(opts[1..]));
    }
  }

  /** A continuation line ends with the closing quote of its argument. */
  lemma OptLineEnds(o: Opt)
    ensures var line := OptLine(o);
      line != [] && line[|line| - 1] == '\''
  {
    var q := ShellQuote(o.arg);
    assert OptLine(o) == ("  " + o.flag + " ") + q;
  }

  /** A line break followed by a line that folds to itself and ends with a quote
      folds to two spaces, the line, and the folded remainder. */
  lemma FoldBreakLine(line: string, rest: string)
    requires FoldContinuations(line) == line && line != [] && line[|line| - 1] == '\''
    ensures FoldContinuations(LineBreak + (line + rest)) == "  " + (line + FoldContinuations(rest))
  {
    FoldAppend(line, rest);
    FoldAppend(LineBreak, line + rest);
    FoldLineBreak();
  }

  lemma FoldFirstLine(m: string, u: string)
    requires BareWord(m) && NoContinuation(u)
    ensures FoldContinuations(FirstLine(m, u)) == FirstLine(m, u)
  {
    var pre := CurlPrefix + MethodPart(m);
    assert FirstLine(m, u) == pre + ShellQuote(u) by {
      FirstLineParts(m, u);
      ConcatAssoc(CurlPrefix, MethodPart(m), ShellQuote(u));
    }
    assert '\\' !in pre by {
      PlainPrefix(m);
    }
    FoldPlainThenQuoted(pre, u);
  }

  /** Neither `curl --location ` nor the method part holds a backslash. */
  lemma PlainPrefix(m: string)
    requires BareWord(m)
    ensures '\\' !in CurlPrefix && '\\' !in MethodPart(m)
  {
  }

  /** Backslash-free text followed by a quoted argument without continuations
      folds to itself. */
  lemma FoldPlainThenQuoted(a: string, u: string)
    requires '\\' !in a && NoContinuation(u)
    ensures FoldContinuations(a + ShellQuote(u)) == a + ShellQuote(u)
  {
    NoBackslash(a);
    FoldIdentity(a);
    FoldQuoted(u);
    FoldAppend(a, ShellQuote(u));
  }

  lemma FirstLineParts(m: string, u: string)
    ensures FirstLine(m, u) == CurlPrefix + (MethodPart(m) + ShellQuote(u))
  {
  }

  lemma {:induction false} FoldedRestEnds(opts: seq<Opt>)
    ensures opts == [] <==> FoldedRest(opts) == ""
    ensures opts != [] ==> FoldedRest(opts)[|FoldedRest(opts)| - 1] == '\''
    decreases |opts|
  {
    if opts != [] {
      FoldedRestEnds(opts[1..]);
    }
  }

  /** The first line starts with `c` and ends with the closing quote. */
  lemma FirstLineEnds(m: string, u: string)
    ensures var first := FirstLine(m, u);
      first != [] && first[0] == 'c' && first[|first| - 1] == '\''
  {
    var q := ShellQuote(u);
    assert FirstLine(m, u) == (CurlPrefix + MethodPart(m)) + q;
  }

  /** Text that neither starts nor ends with whitespace trims to itself. */
  lemma TrimmedEnds(s: string)
    requires s != [] && !IsSpace(s[0]) && !IsSpace(s[|s| - 1])
    ensures Trim(s) == s
  {
  }

  /** The text the scanner sees: the command with its line breaks folded. */
  lemma PrepareCommand(m: string, u: string, opts: seq<Opt>)
    requires BareWord(m) && NoContinuation(u) && Readable(opts)
    ensures Prepare(FirstLine(m, u) + JoinRest(opts)) == FirstLine(m, u) + FoldedRest(opts)
  {
    FirstLineEnds(m, u);
    FoldedRestEnds(opts);
    FoldFirstLine(m, u);
    FoldRest(opts);
    PrepareJoined(FirstLine(m, u), JoinRest(opts), FoldedRest(opts));
  }

  /** A first line that starts with `c`, ends with a quote and folds to itself,
      followed by text that folds to an empty or quote-ended rest, prepares to the
      two folded parts. */
  lemma PrepareJoined(first: string, joined: string, rest: string)
    requires first != [] && first[0] == 'c' && first[|first| - 1] == '\''
    requires rest != [] ==> rest[|rest| - 1] == '\''
    requires FoldContinuations(first) == first && FoldContinuations(joined) == rest
    ensures Prepare(first + joined) == first + rest
  {
    FoldAppend(first, joined);
    var s := first + rest;
    assert s[0] == 'c' && s[|s| - 1] == '\'';
    assert !IsSpace('c') && !IsSpace('\'');
    TrimmedEnds(s);
  }

  // ---------------------------------------------------------------------------
  // Scanning

  /** The tokens after the scanner flushes its buffer. */
  function Emit(tokens: seq<string>, current: string): seq<string> {
    if current != "" then tokens + [current] else tokens
  }

  lemma WordThenBlank(st: Scanner, w: string, b: string)
    requires st.quote == Unquoted && !st.escaping
    requires forall i :: 0 <= i < |w| ==> IsPlain(w[i])
    requires b != [] && AllSpace(b)
    ensures Run(st, w + b) == Scanner(Unquoted, false, "", Emit(st.tokens, st.current + w))
  {
    RunAppend(st, w, b);
    PlainWord(st, w);
    Blanks(st.(current := st.current + w), b);
  }

  /** The words of the first line. */
  function FrontTokens(m: string): seq<string> {
    ["curl", "--location"] + (if m == "GET" then [] else ["-X", m])
  }

  /** Scanning `w + b` from an unquoted state emits the pending word extended by
      the bare word `w`. */
  lemma BareWordThenBlank(st: Scanner, w: string, b: string)
    requires st.quote == Unquoted && !st.escaping && st.current == ""
    requires BareWord(w) && b != [] && AllSpace(b)
    ensures Run(st, w + b) == Scanner(Unquoted, false, "", st.tokens + [w])
  {
    WordThenBlank(st, w, b);
    assert st.current + w == w;
  }

  /** The method part of the first line emits `-X` and the method, or nothing for
      GET. */
  lemma RunMethodPart(st: Scanner, m: string)
    requires st.quote == Unquoted && !st.escaping && st.current == "" && BareWord(m)
    ensures Run(st, MethodPart(m)) == Scanner(Unquoted, false, "", st.tokens + (if m == "GET" then [] else ["-X", m]))
  {
    if m != "GET" {
      MethodPartSplit(m);
      TwoBareWords(st, "-X", m, " ");
    } else {
      assert st.tokens + [] == st.tokens;
    }
  }

  /** Two bare words, each followed by blanks, emit both. */
  lemma TwoBareWords(st: Scanner, w1: string, w2: string, b: string)
    requires st.quote == Unquoted && !st.escaping && st.current == ""
    requires BareWord(w1) && BareWord(w2) && b != [] && AllSpace(b)
    ensures Run(st, (w1 + b) + (w2 + b)) == Scanner(Unquoted, false, "", st.tokens + [w1, w2])
  {
    var s1 := Scanner(Unquoted, false, "", st.tokens + [w1]);
    BareWordThenBlank(st, w1, b);
    BareWordThenBlank(s1, w2, b);
    RunAppend(st, w1 + b, w2 + b);
    assert s1.tokens + [w2] == st.tokens + [w1, w2];
  }

  lemma MethodPartSplit(m: string)
    requires m != "GET"
    ensures MethodPart(m) == ("-X" + " ") + (m + " ")
    ensures BareWord("-X") && AllSpace(" ")
  {
  }

  /** `curl --location ` emits its two words. */
  lemma RunCurlPrefix()
    ensures Run(Start, CurlPrefix) == Scanner(Unquoted, false, "", ["curl", "--location"])
  {
    CurlPrefixSplit();
    TwoBareWords(Start, "curl", "--location", " ");
  }

  lemma CurlPrefixSplit()
    ensures CurlPrefix == ("curl" + " ") + ("--location" + " ")
    ensures BareWord("curl") && BareWord("--location") && AllSpace(" ")
    ensures Start.tokens + ["curl", "--location"] == ["curl", "--location"]
  {
  }

  lemma RunFirstLine(m: string, u: string)
    requires BareWord(m)
    ensures Run(Start, FirstLine(m, u)) == Scanner(Unquoted, false, u, FrontTokens(m))
  {
    var x := MethodPart(m);
    var s2 := Scanner(Unquoted, false, "", ["curl", "--location"]);
    var s3 := Scanner(Unquoted, false, "", FrontTokens(m));
    var q := ShellQuote(u);
    assert Run(s2, x + q) == Scanner(Unquoted, false, u, FrontTokens(m)) by {
      RunMethodPart(s2, m);
      QuotedAppends(s3, u);
      assert s3.current + u == u;
      RunAppend(s2, x, q);
    }
    assert Run(Start, CurlPrefix + (x + q)) == Run(s2, x + q) by {
      RunCurlPrefix();
      RunAppend(Start, CurlPrefix, x + q);
    }
    assert FirstLine(m, u) == CurlPrefix + (x + q);
  }

  /** The words of the continuation lines: each flag and its argument. */
  function OptTokens(opts: seq<Opt>): seq<string> {
    if opts == [] then [] else [opts[0].flag, opts[0].arg] + OptTokens(opts[1..])
  }

  /** One continuation line emits the pending word and the flag, and leaves the
      argument buffered. */
  lemma RunOptLine(st: Scanner, o: Opt, rest: string)
    requires st.quote == Unquoted && !st.escaping && KnownFlag(o.flag)
    ensures Run(st, "  " + (OptLine(o) + rest)) ==
      Run(Scanner(Unquoted, false, o.arg, Emit(st.tokens, st.current) + [o.flag]), rest)
  {
    var line := OptLine(o);
    var indent, sp := "  ", " ";
    assert AllSpace(indent) && AllSpace(sp);
    KnownFlagBare(o.flag);
    var s1 := Scanner(Unquoted, false, "", Emit(st.tokens, st.current));
    var s2 := Scanner(Unquoted, false, "", s1.tokens + [o.flag]);
    var s3 := Scanner(Unquoted, false, o.arg, s1.tokens + [o.flag]);
    assert Run(st, indent) == s1 by {
      Blanks(st, indent);
    }
    assert Run(s1, indent + o.flag + sp) == s2 by {
      RunAppend(s1, indent + o.flag, sp);
      RunAppend(s1, indent, o.flag);
      Blanks(s1, indent);
      BareWordThenBlank(s1, o.flag, sp);
      RunAppend(s1, o.flag, sp);
    }
    assert Run(s2, ShellQuote(o.arg)) == s3 by {
      QuotedAppends(s2, o.arg);
      assert s2.current + o.arg == o.arg;
    }
    assert Run(s1, line) == s3 by {
      assert line == (indent + o.flag + sp) + ShellQuote(o.arg);
      RunAppend(s1, indent + o.flag + sp, ShellQuote(o.arg));
    }
    RunAppend(st, indent, line + rest);
    RunAppend(s1, line, rest);
  }

  lemma {:induction false} RunRest(st: Scanner, opts: seq<Opt>)
    requires st.quote == Unquoted && !st.escaping && Readable(opts)
    ensures Finish(Run(st, FoldedRest(opts))) == Emit(st.tokens, st.current) + OptTokens(opts)
    decreases |opts|
  {
    if opts == [] {
      AppendNothing(Emit(st.tokens, st.current));
    } else {
      var o := opts[0];
      var e, t := Emit(st.tokens, st.current), OptTokens(opts[1..]);
      var s := Scanner(Unquoted, false, o.arg, e + [o.flag]);
      assert FoldedRest(opts) == "  " + (OptLine(o) + FoldedRest(opts[1..]));
      RunOptLine(st, o, FoldedRest(opts[1..]));
      assert Readable(opts[1..]) by {
        forall i | 0 <= i < |opts[1..]| ensures opts[1..][i] == opts[i + 1] { }
      }
      RunRest(s, opts[1..]);
      assert Emit(s.tokens, s.current) == (e + [o.flag]) + [o.arg];
      assert OptTokens(opts) == [o.flag, o.arg] + t;
      AppendPair(e, o.flag, o.arg, t);
    }
  }

  /** Appending two elements one at a time and then a tail appends the pair and
      the tail. */
  lemma AppendPair<T>(x: seq<T>, a: T, b: T, t: seq<T>)
    ensures ((x + [a]) + [b]) + t == x + ([a, b] + t)
  {
  }

  /** A command with a bare-word method, a URL and readable continuation lines
      tokenizes to exactly the words the generator wrote: an empty URL leaves no
      word. */
  lemma TokenizeCommand(m: string, u: string, opts: seq<Opt>)
    requires BareWord(m) && NoContinuation(u) && Readable(opts)
    ensures Tokenize(FirstLine(m, u) + JoinRest(opts)) == Emit(FrontTokens(m), u) + OptTokens(opts)
  {
    PrepareCommand(m, u, opts);
    RunAppend(Start, FirstLine(m, u), FoldedRest(opts));
    RunFirstLine(m, u);
    RunRest(Scanner(Unquoted, false, u, FrontTokens(m)), opts);
  }

  // ---------------------------------------------------------------------------
  // Lexing

  /** The flag a continuation line stands for. */
  function OptFlag(o: Opt): Flag {
    if o.flag == "-X" then SetMethod(o.arg)
    else if o.flag == "-H" then Header(o.arg)
    else if o.flag == "--cookie" then SetCookie(o.arg)
    else Data(o.arg)
  }

  function OptFlags(opts: seq<Opt>): seq<Flag> {
    seq(|opts|, i requires 0 <= i < |opts| => OptFlag(opts[i]))
  }

  lemma OptFlagsAppend(a: seq<Opt>, b: seq<Opt>)
    ensures OptFlags(a + b) == OptFlags(a) + OptFlags(b)
  {
  }

  /** A known flag followed by a non-empty argument lexes to its flag. */
  lemma LexOpt(tokens: seq<string>, i: nat, o: Opt)
    requires i + 1 < |tokens| && tokens[i] == o.flag && tokens[i + 1] == o.arg
    requires (KnownFlag(o.flag) || o.flag == "-X") && o.arg != ""
    ensures Lex(tokens, i) == [OptFlag(o)] + Lex(tokens, i + 2)
  {
  }

  lemma {:induction false} LexRest(tokens: seq<string>, i: nat, opts: seq<Opt>)
    requires i <= |tokens| && tokens[i..] == OptTokens(opts) && Readable(opts)
    ensures Lex(tokens, i) == OptFlags(opts)
    decreases |opts|
  {
    if opts == [] {
      assert |tokens[i..]| == 0;
    } else {
      var o := opts[0];
      var rest := OptTokens(opts[1..]);
      assert tokens[i..] == [o.flag, o.arg] + rest;
      assert tokens[i] == o.flag && tokens[i + 1] == o.arg by {
        assert tokens[i..][0] == o.flag && tokens[i..][1] == o.arg;
      }
      assert tokens[i + 2..] == rest by {
        assert tokens[i + 2..] == tokens[i..][2..];
        assert ([o.flag, o.arg] + rest)[2..] == rest;
      }
      assert Readable(opts[1..]) by {
        forall j | 0 <= j < |opts[1..]| ensures opts[1..][j] == opts[j + 1] { }
      }
      LexOpt(tokens, i, o);
      LexRest(tokens, i + 2, opts[1..]);
      assert OptFlags(opts) == [OptFlag(o)] + OptFlags(opts[1..]);
    }
  }

  /** A non-empty token that does not start with `-` is a word. */
  lemma LexWord(tokens: seq<string>, i: nat)
    requires i < |tokens| && tokens[i] != "" && !StartsWith(tokens[i], "-")
    ensures Lex(tokens, i) == [Word(tokens[i])] + Lex(tokens, i + 1)
  {
    var t := tokens[i];
    assert t[0] != '-' by {
      assert t[..1] != "-";
    }
  }

  /** `--location` is not a flag the importer knows, so it is a word. */
  lemma LexLocation(tokens: seq<string>, i: nat)
    requires i < |tokens| && tokens[i] == "--location"
    ensures Lex(tokens, i) == [Word("--location")] + Lex(tokens, i + 1)
  {
  }

  /** The flags of the first line: the `--location` word, `-X` with the method
      unless it is GET, and the URL word unless the URL is empty. */
  function FrontFlags(m: string, u: string): seq<Flag> {
    [Word("--location")] + (if m == "GET" then [] else [SetMethod(m)]) + (if u == "" then [] else [Word(u)])
  }

  /** Where the words of the first line sit. */
  function FrontLength(m: string, u: string): nat {
    (if m == "GET" then 2 else 4) + (if u == "" then 0 else 1)
  }

  lemma FrontShape(m: string, u: string)
    ensures var f := Emit(FrontTokens(m), u);
      && |f| == FrontLength(m, u)
      && f[0] == "curl" && f[1] == "--location"
      && (m != "GET" ==> f[2] == "-X" && f[3] == m)
      && (u != "" ==> f[|f| - 1] == u)
  {
  }

  /** The first line's flags, one lemma per shape of the line. */
  lemma LexFrontGet(tokens: seq<string>)
    requires 2 <= |tokens| && tokens[1] == "--location"
    ensures Lex(tokens, 1) == FrontFlags("GET", "") + Lex(tokens, 2)
  {
    LexLocation(tokens, 1);
    FrontFlagsGet();
  }

  lemma FrontFlagsGet()
    ensures FrontFlags("GET", "") == [Word("--location")]
  {
  }

  lemma LexFrontGetUrl(tokens: seq<string>, u: string)
    requires !StartsWith(u, "-") && u != "" && 3 <= |tokens|
    requires tokens[1] == "--location" && tokens[2] == u
    ensures Lex(tokens, 1) == FrontFlags("GET", u) + Lex(tokens, 3)
  {
    LexLocation(tokens, 1);
    LexWord(tokens, 2);
    ConcatAssoc([Word("--location")], [Word(u)], Lex(tokens, 3));
  }

  lemma LexFrontMethod(tokens: seq<string>, m: string)
    requires BareWord(m) && m != "GET" && 4 <= |tokens|
    requires tokens[1] == "--location" && tokens[2] == "-X" && tokens[3] == m
    ensures Lex(tokens, 1) == FrontFlags(m, "") + Lex(tokens, 4)
  {
    LexLocation(tokens, 1);
    LexOpt(tokens, 2, Opt("-X", m));
    ConcatAssoc([Word("--location")], [SetMethod(m)], Lex(tokens, 4));
  }

  lemma LexFrontMethodUrl(tokens: seq<string>, m: string, u: string)
    requires BareWord(m) && m != "GET" && !StartsWith(u, "-") && u != "" && 5 <= |tokens|
    requires tokens[1] == "--location" && tokens[2] == "-X" && tokens[3] == m && tokens[4] == u
    ensures Lex(tokens, 1) == FrontFlags(m, u) + Lex(tokens, 5)
  {
    var x, y, z := [Word("--location")], [SetMethod(m)], [Word(u)];
    var rest := Lex(tokens, 5);
    LexLocation(tokens, 1);
    LexOpt(tokens, 2, Opt("-X", m));
    LexWord(tokens, 4);
    ConcatAssoc(y, z, rest);
    ConcatAssoc(x, y + z, rest);
    ConcatAssoc(x, y, z);
  }

  lemma LexFront(tokens: seq<string>, m: string, u: string)
    requires BareWord(m) && !StartsWith(u, "-") && FrontLength(m, u) <= |tokens|
    requires tokens[1] == "--location"
    requires m != "GET" ==> tokens[2] == "-X" && tokens[3] == m
    requires u != "" ==> tokens[FrontLength(m, u) - 1] == u
    ensures Lex(tokens, 1) == FrontFlags(m, u) + Lex(tokens, FrontLength(m, u))
  {
    if m == "GET" {
      if u == "" {
        LexFrontGet(tokens);
      } else {
        LexFrontGetUrl(tokens, u);
      }
    } else {
      if u == "" {
        LexFrontMethod(tokens, m);
      } else {
        LexFrontMethodUrl(tokens, m, u);
      }
    }
  }

  /** The tokens of a generated command lex to the flags of its first line followed
      by one flag per continuation line. */
  lemma LexCommand(m: string, u: string, opts: seq<Opt>)
    requires BareWord(m) && !StartsWith(u, "-") && Readable(opts)
    ensures var tokens := Emit(FrontTokens(m), u) + OptTokens(opts);
      tokens[0] == "curl" && Lex(tokens, 1) == FrontFlags(m, u) + OptFlags(opts)
  {
    var front := Emit(FrontTokens(m), u);
    var tokens := front + OptTokens(opts);
    FrontShape(m, u);
    assert tokens[|front|..] == OptTokens(opts);
    LexFront(tokens, m, u);
    LexRest(tokens, |front|, opts);
  }
}

=== FILE: request_form.dfy ===
/** The pure decisions of the request editor (src/components/RequestForm.jsx): pair
    normalisation, when a body may be sent, the live curl preview, importing a
    pasted curl command, and the guard sequence of a submit. */
module RequestForm {
  import opened Options
  import opened Strings
  import opened Model
  import opened Seqs
  import opened Url
  import opened CurlExport
  import opened CurlImport

  /** The editor's state: the selected backend version, the editable request, the
      active tab and the message line. */
  datatype Form = Form(version: string, request: Request, activeTab: string, formError: string)

  /** What `onSubmit` receives. */
  datatype Submission = Submission(
    version: string,
    url: string,
    httpMethod: string,
    params: seq<KeyValue>,
    headers: seq<KeyValue>,
    auth: Auth,
    body: Option<Json>)

  /** The outcome of a submit: the editor's new state, and the request handed on,
      if any. */
  datatype Decision = Decision(form: Form, sent: Option<Submission>)

  const ImportedMessage := "cURL imported. Review fields and click Send."
  const InvalidCurlMessage := "Invalid cURL command. Please check and try again."
  const UrlRequiredMessage := "URL is required."
  const NotHttpMessage := "URL must be a valid http:// or https:// URL."
  const InvalidJsonMessage := "Body JSON is invalid. Please fix before sending."

  // ---------------------------------------------------------------------------
  // Pairs

  /** `normalizePairs(pairs)`: keys trimmed, rows whose key trims to nothing
      dropped, order kept. Every row carries a string value here, so the `?? ""`
      default never applies. */
  function NormalizePairs(pairs: seq<KeyValue>): (r: seq<KeyValue>)
    ensures |r| <= |pairs|
    ensures forall row :: row in r ==> row.key != "" && Trimmed(row.key)
    decreases |pairs|
  {
    if pairs == [] then []
    else
      var key := Trim(pairs[0].key);
      (if key != "" then [KeyValue(key, pairs[0].value)] else []) + NormalizePairs(pairs[1..])
  }

  /** One row normalises to itself with its key trimmed, or to nothing when the key
      trims to nothing; with `NormalizePairsAppend` this fixes every result. */
  lemma NormalizePairsOne(kv: KeyValue)
    ensures NormalizePairs([kv]) == if Trim(kv.key) == "" then [] else [KeyValue(Trim(kv.key), kv.value)]
  {
  }

  /** Every row whose key is not blank survives, with its key trimmed and its value
      kept. */
  lemma NormalizePairsKeeps(pairs: seq<KeyValue>, i: nat)
    requires i < |pairs| && Trim(pairs[i].key) != ""
    ensures KeyValue(Trim(pairs[i].key), pairs[i].value) in NormalizePairs(pairs)
  {
    var a, kv, b := pairs[..i], pairs[i], pairs[i + 1..];
    var q := KeyValue(Trim(kv.key), kv.value);
    SplitAround(pairs, i);
    NormalizePairsAppend(a, [kv] + b);
    NormalizePairsAppend([kv], b);
    NormalizePairsOne(kv);
    InMiddle(NormalizePairs(a), q, NormalizePairs(b));
  }

  /** Normalisation works row by row: normalising a concatenation concatenates the
      normalised parts, so the surviving rows keep their relative order. */
  lemma {:induction false} NormalizePairsAppend(a: seq<KeyValue>, b: seq<KeyValue>)
    ensures NormalizePairs(a + b) == NormalizePairs(a) + NormalizePairs(b)
    decreases |a|
  {
    if a == [] {
      assert a + b == b;
    } else {
      assert (a + b)[1..] == a[1..] + b;
      NormalizePairsAppend(a[1..], b);
      var key := Trim(a[0].key);
      ConcatAssoc(if key != "" then [KeyValue(key, a[0].value)] else [], NormalizePairs(a[1..]), NormalizePairs(b));
    }
  }

  /** Rows that already have trimmed, non-empty keys pass through unchanged, so
      normalising twice is normalising once. */
  lemma {:induction false} NormalizePairsClean(pairs: seq<KeyValue>)
    requires forall i :: 0 <= i < |pairs| ==> pairs[i].key != "" && Trimmed(pairs[i].key)
    ensures NormalizePairs(pairs) == pairs
    decreases |pairs|
  {
    if pairs != [] {
      NormalizePairsClean(pairs[1..]);
      assert [pairs[0]] + pairs[1..] == pairs;
    }
  }

  lemma {:induction false} NormalizePairsIdempotent(pairs: seq<KeyValue>)
    ensures NormalizePairs(NormalizePairs(pairs)) == NormalizePairs(pairs)
  {
    var q := NormalizePairs(pairs);
    forall i | 0 <= i < |q| ensures q[i].key != "" && Trimmed(q[i].key) {
      assert q[i] in q;
    }
    NormalizePairsClean(q);
  }

  /** The exporter's own empty-key filter finds nothing left to drop in normalised
      pairs. */
  lemma {:induction false} NormalizedPairsKeyed(pairs: seq<KeyValue>)
    requires forall i :: 0 <= i < |pairs| ==> pairs[i].key != ""
    ensures Keyed(pairs) == pairs
    decreases |pairs|
  {
    if pairs != [] {
      var init := pairs[..|pairs| - 1];
      NormalizedPairsKeyed(init);
      assert init + [pairs[|pairs| - 1]] == pairs;
    }
  }

  // ---------------------------------------------------------------------------
  // Body

  /** `canSendBody`: any method but GET, or GET on version 1 (the proxy backend). */
  predicate CanSendBody(httpMethod: string, version: string) {
    httpMethod != "GET" || version == "v1"
  }

  /** `jsonError !== ""`: a body is sendable, not blank, and does not parse. The
      error text itself comes from the JSON parser. */
  predicate HasJsonError(f: Form, env: Env) {
    && CanSendBody(f.request.httpMethod, f.version)
    && !AllSpace(f.request.bodyText)
    && env.jsonParse(f.request.bodyText).None?
  }

  /** The parsed body the preview and a submit use: present only when a body is
      sendable and its text is non-blank valid JSON. */
  function SendableBody(f: Form, env: Env): (r: Option<Json>)
    ensures r.Some? <==>
      CanSendBody(f.request.httpMethod, f.version) && !AllSpace(f.request.bodyText) && env.jsonParse(f.request.bodyText).Some?
    ensures r.Some? ==> r == env.jsonParse(f.request.bodyText)
  {
    if CanSendBody(f.request.httpMethod, f.version) && !AllSpace(f.request.bodyText)
    then env.jsonParse(f.request.bodyText)
    else None
  }

  // ---------------------------------------------------------------------------
  // Curl preview

  /** The argument of the preview's `generateCurlCommand` call. */
  function PreviewPayload(f: Form, env: Env): (p: CurlPayload)
    ensures p.allowGetBody <==> f.version == "v1"
    ensures p.url == NormalizeHttpUrl(f.request.url)
    ensures forall i :: 0 <= i < |p.headers| ==> p.headers[i].key != ""
  {
    CurlPayload(
      NormalizeHttpUrl(f.request.url),
      f.request.httpMethod,
      NormalizePairs(f.request.params),
      NormalizePairs(f.request.headers),
      f.request.auth,
      SendableBody(f, env),
      f.version == "v1")
  }

  /** `curlCommand`: the preview text, `None` when `btoa` throws on Basic
      credentials, and a `curl --location` command otherwise. */
  function CurlPreview(f: Form, env: Env): (r: Option<string>)
    ensures r.None? <==> f.request.auth.Basic? && env.btoa(Credentials(f.request.auth.username, f.request.auth.password)).None?
    ensures r.Some? ==> StartsWith(r.value, CurlPrefix)
  {
    GenerateCurlCommand(PreviewPayload(f, env), env)
  }

  /** The preview carries a body only when the editor could send one and its text is
      valid JSON: version 2 never previews a body for GET, whatever the letter case
      of the method. */
  lemma PreviewBodyRule(f: Form, env: Env)
    ensures var p := PreviewPayload(f, env);
      AttachesBody(EffectiveMethod(p.httpMethod), p.body, p.allowGetBody) ==>
        && CanSendBody(f.request.httpMethod, f.version)
        && !AllSpace(f.request.bodyText)
        && env.jsonParse(f.request.bodyText).Some?
        && (f.version == "v1" || Upper(f.request.httpMethod) != "GET")
  {
  }

  /** The generator normalises the URL again; for the preview that changes
      nothing. */
  lemma PreviewUrlStable(f: Form, env: Env)
    ensures NormalizeHttpUrl(PreviewPayload(f, env).url) == NormalizeHttpUrl(f.request.url)
  {
    NormalizeIdempotent(f.request.url);
  }

  // ---------------------------------------------------------------------------
  // Import

  /** `importCurlFromText(text)`: on success the request fields are replaced by the
      parsed ones, the Body tab opens and the message is cleared; on failure
      nothing changes. */
  function ImportCurlFromText(f: Form, text: string, env: Env): (r: (bool, Form))
    ensures r.0 <==> ParseCurlCommand(text, env).Some?
    ensures !r.0 ==> r.1 == f
    ensures r.0 ==> r.1 == f.(request := ParseCurlCommand(text, env).value, activeTab := "Body", formError := "")
  {
    match ParseCurlCommand(text, env)
    case None => (false, f)
    case Some(parsed) => (true, f.(request := parsed, activeTab := "Body", formError := ""))
  }

  /** The text counts as a curl command: trimmed and lower-cased, it starts with
      `curl`. */
  predicate LooksLikeCurl(text: string) {
    StartsWith(Lower(Trim(text)), "curl")
  }

  /** `isHttpUrl(value)`: the URL parses and its scheme is http or https. */
  predicate IsHttpUrl(value: string, env: Env) {
    match env.parseUrl(value)
    case None => false
    case Some(u) => u.protocol == "http:" || u.protocol == "https:"
  }

  // ---------------------------------------------------------------------------
  // Submit

  /** The request a successful submit hands on: the normalised URL and pairs, and
      the body only when it is sendable valid JSON. */
  function SentRequest(f: Form, env: Env): Submission {
    Submission(
      f.version, NormalizeHttpUrl(f.request.url), f.request.httpMethod,
      NormalizePairs(f.request.params), NormalizePairs(f.request.headers), f.request.auth, SendableBody(f, env))
  }

  /** `handleSubmit`: curl-looking input is imported and never sent; otherwise the
      first failing guard (URL missing, not http(s), invalid JSON body) sets its
      message; otherwise the normalised request is sent. */
  function HandleSubmit(f: Form, env: Env): (d: Decision)
    ensures LooksLikeCurl(f.request.url) ==> d.sent.None?
    ensures LooksLikeCurl(f.request.url) ==>
      (d.form.formError == ImportedMessage <==> ParseCurlCommand(Trim(f.request.url), env).Some?)
    ensures LooksLikeCurl(f.request.url) && ParseCurlCommand(Trim(f.request.url), env).None? ==>
      d.form == f.(formError := InvalidCurlMessage)
    ensures LooksLikeCurl(f.request.url) && ParseCurlCommand(Trim(f.request.url), env).Some? ==>
      d.form == f.(request := ParseCurlCommand(Trim(f.request.url), env).value, activeTab := "Body", formError := ImportedMessage)
    ensures !LooksLikeCurl(f.request.url) && NormalizeHttpUrl(f.request.url) == "" ==>
      d == Decision(f.(formError := UrlRequiredMessage), None)
    ensures !LooksLikeCurl(f.request.url) && NormalizeHttpUrl(f.request.url) != "" && !IsHttpUrl(NormalizeHttpUrl(f.request.url), env) ==>
      d == Decision(f.(formError := NotHttpMessage), None)
    ensures !LooksLikeCurl(f.request.url) && NormalizeHttpUrl(f.request.url) != "" && IsHttpUrl(NormalizeHttpUrl(f.request.url), env) && HasJsonError(f, env) ==>
      d == Decision(f.(formError := InvalidJsonMessage), None)
    ensures d.sent.Some? <==>
      !LooksLikeCurl(f.request.url) && NormalizeHttpUrl(f.request.url) != "" && IsHttpUrl(NormalizeHttpUrl(f.request.url), env) && !HasJsonError(f, env)
    ensures d.sent.Some? ==> d.form == f.(formError := "", request := f.request.(url := d.sent.value.url))
    ensures d.sent.Some? ==> d.sent.value == SentRequest(f, env)
  {
    var f0 := f.(formError := "");
    var raw := Trim(f.request.url);
    if StartsWith(Lower(raw), "curl") then
      var (imported, f1) := ImportCurlFromText(f0, raw, env);
      if imported then Decision(f1.(formError := ImportedMessage), None)
      else Decision(f1.(formError := InvalidCurlMessage), None)
    else
      var url := NormalizeHttpUrl(f.request.url);
      if url == "" then Decision(f0.(formError := UrlRequiredMessage), None)
      else if !IsHttpUrl(url, env) then Decision(f0.(formError := NotHttpMessage), None)
      else if HasJsonError(f, env) then Decision(f0.(formError := InvalidJsonMessage), None)
      else
        var r := f.request;
        Decision(
          f0.(request := r.(url := url)),
          Some(Submission(f.version, url, r.httpMethod, NormalizePairs(r.params), NormalizePairs(r.headers), r.auth, SendableBody(f, env))))
  }

  /** What is sent is what the preview showed: the same URL, pairs, auth and body
      (the generator's own URL normalisation changes nothing, and its empty-key
      filter drops no param). */
  lemma SentMatchesPreview(f: Form, env: Env)
    ensures var s, p := SentRequest(f, env), PreviewPayload(f, env);
      && s.url == p.url
      && NormalizeHttpUrl(s.url) == s.url
      && s.httpMethod == p.httpMethod
      && s.params == p.params == Keyed(p.params)
      && s.headers == p.headers
      && s.auth == p.auth
      && s.body == p.body
  {
    var q := NormalizePairs(f.request.params);
    assert forall i :: 0 <= i < |q| ==> q[i].key != "" by {
      forall i | 0 <= i < |q| ensures q[i].key != "" {
        assert q[i] in q;
      }
    }
    NormalizedPairsKeyed(q);
    NormalizeIdempotent(f.request.url);
  }
}

=== FILE: response_viewer.dfy ===
/** The pure helpers of the response panel (src/components/ResponseViewer.jsx):
    case-insensitive header lookup, the XML indenter, the language chosen for a
    text payload, and the colour buckets of the status and time badges. */
module ResponseViewer {
  import opened Options
  import opened Strings
  import opened Model
  import opened Seqs

  // ---------------------------------------------------------------------------
  // Header lookup

  /** The position of the first header whose key equals `target` ignoring case. */
  function FindHeader(headers: seq<KeyValue>, target: string): (r: Option<nat>)
    ensures r.Some? ==> r.value < |headers| && EqualsIgnoreCase(headers[r.value].key, target)
    ensures r.Some? ==> forall j :: 0 <= j < r.value ==> !EqualsIgnoreCase(headers[j].key, target)
    ensures r.None? ==> forall j :: 0 <= j < |headers| ==> !EqualsIgnoreCase(headers[j].key, target)
    decreases |headers|
  {
    if headers == [] then None
    else if EqualsIgnoreCase(headers[0].key, target) then Some(0)
    else match FindHeader(headers[1..], target)
      case None => None
      case Some(i) => Some(i + 1)
  }

  /** `getHeaderValue(headers, targetName)`: `""` without a header object; else the
      value of the first key equal to the target ignoring case, and `""` when no
      key matches or the matching key is the (falsy) empty string. */
  function GetHeaderValue(headers: Option<seq<KeyValue>>, target: string): (r: string)
    ensures headers.None? ==> r == ""
    ensures headers.Some? && (forall j :: 0 <= j < |headers.value| ==> !EqualsIgnoreCase(headers.value[j].key, target)) ==> r == ""
  {
    match headers
    case None => ""
    case Some(h) =>
      match FindHeader(h, target)
      case None => ""
      case Some(i) => if h[i].key == "" then "" else h[i].value
  }

  /** The first case-insensitive match decides: an earlier header with the same key
      up to case hides every later one. */
  lemma FirstMatchWins(headers: seq<KeyValue>, target: string, i: nat)
    requires i < |headers| && headers[i].key != "" && EqualsIgnoreCase(headers[i].key, target)
    requires forall j :: 0 <= j < i ==> !EqualsIgnoreCase(headers[j].key, target)
    ensures GetHeaderValue(Some(headers), target) == headers[i].value
  {
    var k := FindHeader(headers, target);
  }

  /** The target's letter case does not matter. */
  lemma {:induction false} LookupIgnoresTargetCase(headers: seq<KeyValue>, a: string, b: string)
    requires Lower(a) == Lower(b)
    ensures FindHeader(headers, a) == FindHeader(headers, b)
    decreases |headers|
  {
    if headers != [] {
      LookupIgnoresTargetCase(headers[1..], a, b);
    }
  }

  // ---------------------------------------------------------------------------
  // XML pretty printing

  /** The text with every whitespace character removed. */
  function Visible(s: string): (r: string)
    ensures |r| <= |s|
    decreases |s|
  {
    if s == [] then [] else (if IsSpace(s[0]) then [] else [s[0]]) + Visible(s[1..])
  }

  /** `Visible` of a text with a known first character. */
  lemma VisibleCons(c: char, t: string)
    ensures Visible([c] + t) == (if IsSpace(c) then [] else [c]) + Visible(t)
  {
    assert ([c] + t)[1..] == t;
  }

  /** `Visible` of a non-empty text: its first character, if visible, then the
      rest. */
  lemma VisibleHead(t: string)
    requires t != []
    ensures Visible(t) == (if IsSpace(t[0]) then [] else [t[0]]) + Visible(t[1..])
  {
  }

  predicate NotNewline(c: char) {
    c != '\n'
  }

  predicate NonEmptyText(s: string) {
    s != ""
  }

  /** `s.replace(/>\s*</g, "><")`: a run of whitespace between `>` and `<` is
      removed, scanning left to right; a `>` not followed by such a run is kept. */
  function CollapseTagGaps(s: string): (r: string)
    ensures |r| <= |s|
    decreases |s|
  {
    if s == [] then []
    else if s[0] == '>' then
      var after := TrimStart(s[1..]);
      if after != [] && after[0] == '<' then "><" + CollapseTagGaps(after[1..])
      else ">" + CollapseTagGaps(s[1..])
    else [s[0]] + CollapseTagGaps(s[1..])
  }

  /** A `>` whose following whitespace run ends at a `<`: the place the
      replacement applies. */
  predicate GapAt(s: string) {
    s != [] && s[0] == '>' && TrimStart(s[1..]) != [] && TrimStart(s[1..])[0] == '<'
  }

  /** One step of the collapse where it applies. */
  lemma CollapseGapStep(s: string)
    requires GapAt(s)
    ensures CollapseTagGaps(s) == "><" + CollapseTagGaps(TrimStart(s[1..])[1..])
  {
  }

  /** One step of the collapse where it does not apply. */
  lemma CollapsePlainStep(s: string)
    requires s != [] && !GapAt(s)
    ensures CollapseTagGaps(s) == [s[0]] + CollapseTagGaps(s[1..])
  {
  }

  /** Collapsing removes whitespace and nothing else. */
  lemma {:induction false} CollapseDropsOnlyBlanks(s: string)
    ensures Visible(CollapseTagGaps(s)) == Visible(s)
    decreases |s|
  {
    if s != [] {
      if GapAt(s) {
        var after := TrimStart(s[1..]);
        var rest := CollapseTagGaps(after[1..]);
        CollapseGapStep(s);
        CollapseDropsOnlyBlanks(after[1..]);
        GapDropped(s);
        VisibleTagPair(rest);
      } else {
        CollapsePlainStep(s);
        CollapseDropsOnlyBlanks(s[1..]);
        VisibleCons(s[0], CollapseTagGaps(s[1..]));
        VisibleCons(s[0], s[1..]);
        assert [s[0]] + s[1..] == s;
      }
    }
  }

  /** `"><"` is visible in front of any text. */
  lemma VisibleTagPair(rest: string)
    ensures Visible("><" + rest) == "><" + Visible(rest)
  {
    TagPair(rest);
    TagPair(Visible(rest));
    VisibleCons('>', ['<'] + rest);
    VisibleCons('<', rest);
  }

  /** `"><"` in front of a text, one character at a time. */
  lemma TagPair(x: string)
    ensures "><" + x == ['>'] + (['<'] + x)
  {
    assert ("><" + x)[2..] == x;
  }

  /** The whitespace between a `>` and the next `<` is not visible. */
  lemma GapDropped(s: string)
    requires GapAt(s)
    ensures Visible(s) == "><" + Visible(TrimStart(s[1..])[1..])
  {
    var tail := s[1..];
    var after := TrimStart(tail);
    var v := Visible(after[1..]);
    VisibleTrimStart(tail);
    VisibleHead(after);
    VisibleHead(s);
    TagPair(v);
  }

  /** Leading whitespace is not visible. */
  lemma {:induction false} VisibleTrimStart(t: string)
    ensures Visible(TrimStart(t)) == Visible(t)
    decreases |t|
  {
    if t != [] && IsSpace(t[0]) {
      VisibleTrimStart(t[1..]);
    }
  }

  /** Text without whitespace is left as it is. */
  lemma {:induction false} CollapseWithoutBlanks(s: string)
    requires forall i :: 0 <= i < |s| ==> !IsSpace(s[i])
    ensures CollapseTagGaps(s) == s
    decreases |s|
  {
    if s != [] {
      var tail := s[1..];
      NoBlankTail(s);
      if GapAt(s) {
        CollapseWithoutBlanks(tail[1..]);
        CollapseAdjacentGap(s);
      } else {
        CollapseWithoutBlanks(tail);
        CollapsePlainKept(s);
      }
    }
  }

  /** An adjacent `><` whose remainder collapses to itself is kept as it is. */
  lemma CollapseAdjacentGap(s: string)
    requires |s| >= 2 && GapAt(s) && TrimStart(s[1..]) == s[1..]
    requires CollapseTagGaps(s[1..][1..]) == s[1..][1..]
    ensures CollapseTagGaps(s) == s
  {
    CollapseGapStep(s);
    assert "><" + s[1..][1..] == s;
  }

  /** A character outside a gap, followed by text that collapses to itself, is kept. */
  lemma CollapsePlainKept(s: string)
    requires s != [] && !GapAt(s) && CollapseTagGaps(s[1..]) == s[1..]
    ensures CollapseTagGaps(s) == s
  {
    CollapsePlainStep(s);
    assert [s[0]] + s[1..] == s;
  }

  /** Collapsing keeps the first character. */
  lemma CollapseHead(t: string)
    requires t != []
    ensures CollapseTagGaps(t) != [] && CollapseTagGaps(t)[0] == t[0]
  {
  }

  /** Collapsing leaves the first non-whitespace character where `trimStart` finds
      it. */
  lemma {:induction false} CollapseFirstVisible(t: string)
    ensures TrimStart(CollapseTagGaps(t)) == [] <==> TrimStart(t) == []
    ensures TrimStart(t) != [] ==> TrimStart(CollapseTagGaps(t))[0] == TrimStart(t)[0]
    decreases |t|
  {
    if t != [] {
      CollapseHead(t);
      if IsSpace(t[0]) {
        CollapseFirstVisible(t[1..]);
        CollapsePlainStep(t);
        var r := CollapseTagGaps(t);
        assert r[1..] == CollapseTagGaps(t[1..]);
      }
    }
  }

  /** No `>` is separated from a following `<` by whitespace alone: every place
      the replacement would apply is already an adjacent `><`. */
  predicate NoGapLeft(r: string) {
    forall i :: 0 <= i < |r| ==> (GapAt(r[i..]) ==> i + 1 < |r| && r[i + 1] == '<')
  }

  /** A character in front of gap-free text leaves it gap-free unless it starts a
      gap that is not adjacent. */
  lemma NoGapCons(c: char, rest: string)
    requires NoGapLeft(rest)
    requires GapAt([c] + rest) ==> rest != [] && rest[0] == '<'
    ensures NoGapLeft([c] + rest)
  {
    var r := [c] + rest;
    forall i | 0 < i < |r|
      ensures r[i..] == rest[i - 1..]
    {
    }
  }

  /** A `>` whose following text starts with neither whitespace up to a `<` nor
      anything collapsing to it starts no gap after the collapse. */
  lemma PlainCloseNoGap(s: string)
    requires s != [] && s[0] == '>' && !GapAt(s)
    ensures !GapAt(">" + CollapseTagGaps(s[1..]))
  {
    var rest := CollapseTagGaps(s[1..]);
    CollapseFirstVisible(s[1..]);
    assert (">" + rest)[1..] == rest;
  }

  /** An adjacent `><` in front of gap-free text leaves it gap-free. */
  lemma NoGapAdjacent(rest: string)
    requires NoGapLeft(rest)
    ensures NoGapLeft("><" + rest)
  {
    NoGapCons('<', rest);
    NoGapCons('>', "<" + rest);
    assert "><" + rest == ['>'] + ("<" + rest);
  }

  /** The collapse step where the replacement applies keeps the result gap-free. */
  lemma CollapseGapNoGap(s: string)
    requires GapAt(s) && NoGapLeft(CollapseTagGaps(TrimStart(s[1..])[1..]))
    ensures NoGapLeft(CollapseTagGaps(s))
  {
    CollapseGapStep(s);
    NoGapAdjacent(CollapseTagGaps(TrimStart(s[1..])[1..]));
  }

  /** The collapse step where the replacement does not apply keeps the result
      gap-free. */
  lemma CollapsePlainNoGap(s: string)
    requires s != [] && !GapAt(s) && NoGapLeft(CollapseTagGaps(s[1..]))
    ensures NoGapLeft(CollapseTagGaps(s))
  {
    CollapsePlainStep(s);
    if s[0] == '>' {
      PlainCloseNoGap(s);
    }
    NoGapCons(s[0], CollapseTagGaps(s[1..]));
  }

  /** After the collapse, every `>` that whitespace separates from a following
      `<` is directly followed by it: the replacement leaves nothing for a second
      pass to collapse. */
  lemma {:induction false} CollapseLeavesNoGap(s: string)
    ensures NoGapLeft(CollapseTagGaps(s))
    decreases |s|
  {
    if s != [] {
      if GapAt(s) {
        CollapseLeavesNoGap(TrimStart(s[1..])[1..]);
        CollapseGapNoGap(s);
      } else {
        CollapseLeavesNoGap(s[1..]);
        CollapsePlainNoGap(s);
      }
    }
  }

  /** The tails of whitespace-free text are whitespace-free, so `trimStart` keeps
      the first one and a gap can only be an adjacent `><`. */
  lemma NoBlankTail(s: string)
    requires s != [] && forall i :: 0 <= i < |s| ==> !IsSpace(s[i])
    ensures forall i :: 0 <= i < |s[1..]| ==> !IsSpace(s[1..][i])
    ensures TrimStart(s[1..]) == s[1..]
    ensures GapAt(s) <==> s[0] == '>' && |s| >= 2 && s[1] == '<'
    ensures |s| >= 2 ==> forall i :: 0 <= i < |s[1..][1..]| ==> !IsSpace(s[1..][1..][i])
  {
    var tail := s[1..];
    assert tail != [] ==> tail[0] == s[1];
  }

  /** `s.replace(/</g, "\n<")`. */
  function BreakBeforeTags(s: string): string
    decreases |s|
  {
    if s == [] then [] else (if s[0] == '<' then "\n<" else [s[0]]) + BreakBeforeTags(s[1..])
  }

  /** Breaking before tags only inserts newlines. */
  lemma {:induction false} BreakInsertsOnlyNewlines(s: string)
    ensures Keep(BreakBeforeTags(s), NotNewline) == Keep(s, NotNewline)
    decreases |s|
  {
    if s != [] {
      var c, rest := s[0], BreakBeforeTags(s[1..]);
      BreakInsertsOnlyNewlines(s[1..]);
      assert s == [c] + s[1..];
      KeepCons(c, s[1..], NotNewline);
      KeepCons(c, rest, NotNewline);
      if c == '<' {
        assert BreakBeforeTags(s) == ['\n'] + ([c] + rest);
        KeepCons('\n', [c] + rest, NotNewline);
      } else {
        assert BreakBeforeTags(s) == [c] + rest;
      }
    }
  }

  /** The parts the indenter prints: the text broken before every `<` and at every
      newline, empty pieces dropped. */
  function XmlParts(xml: string): (r: seq<string>)
    ensures forall i :: 0 <= i < |r| ==> r[i] != ""
  {
    Keep(Split(BreakBeforeTags(xml), '\n'), NonEmptyText)
  }

  /** Text without newlines passes the newline filter whole. */
  lemma NewlineFree(s: string)
    requires '\n' !in s
    ensures Keep(s, NotNewline) == s
  {
    KeepAll(s, NotNewline);
  }

  /** Filtering out newlines across one separator. */
  lemma KeepAcrossNewline(a: string, b: string)
    ensures Keep(a + "\n" + b, NotNewline) == Keep(a, NotNewline) + Keep(b, NotNewline)
  {
    KeepAppend(a + "\n", b, NotNewline);
    KeepAppend(a, "\n", NotNewline);
    assert Keep("\n", NotNewline) == [];
    assert Keep(a, NotNewline) + [] == Keep(a, NotNewline);
  }

  /** Concatenating pieces that contain no separator gives the joined text with the
      separators removed. */
  lemma {:induction false} ConcatPieces(ps: seq<string>)
    requires forall i :: 0 <= i < |ps| ==> '\n' !in ps[i]
    ensures Concat(ps) == Keep(Join(ps, "\n"), NotNewline)
    decreases |ps|
  {
    if ps != [] {
      NewlineFree(ps[0]);
      if |ps| == 1 {
        assert Concat(ps) == ps[0] + "";
      } else {
        ConcatPieces(ps[1..]);
        KeepAcrossNewline(ps[0], Join(ps[1..], "\n"));
      }
    }
  }

  /** Dropping empty pieces does not change their concatenation. */
  lemma {:induction false} ConcatNonEmpty(ps: seq<string>)
    ensures Concat(Keep(ps, NonEmptyText)) == Concat(ps)
    decreases |ps|
  {
    if ps != [] {
      ConcatNonEmpty(ps[1..]);
      if ps[0] == "" {
        var rest := Keep(ps[1..], NonEmptyText);
        assert Keep(ps, NonEmptyText) == rest by {
          assert [] + rest == rest;
        }
        assert Concat(ps) == Concat(ps[1..]) by {
          assert ps[0] + Concat(ps[1..]) == Concat(ps[1..]);
        }
      } else {
        assert Keep(ps, NonEmptyText) == [ps[0]] + Keep(ps[1..], NonEmptyText);
        assert ([ps[0]] + Keep(ps[1..], NonEmptyText))[1..] == Keep(ps[1..], NonEmptyText);
      }
    }
  }

  /** The printed parts concatenate to the collapsed XML with its newlines removed;
      so for XML without newlines, taking the indentation off every line and
      concatenating the lines gives the collapsed XML back. */
  lemma XmlPartsConcat(xml: string)
    ensures Concat(XmlParts(xml)) == Keep(xml, NotNewline)
    ensures '\n' !in xml ==> Concat(XmlParts(xml)) == xml
  {
    var pieces := Split(BreakBeforeTags(xml), '\n');
    ConcatNonEmpty(pieces);
    ConcatPieces(pieces);
    BreakInsertsOnlyNewlines(xml);
    if '\n' !in xml {
      KeepAll(xml, NotNewline);
    }
  }

  /** Text in which every `<` after the first character follows a newline and
      every newline is followed by a `<`. */
  predicate TagBroken(t: string) {
    forall j :: 0 <= j < |t| ==> TagBrokenPos(t, j)
  }

  /** Position `j` of `t` keeps the shape `TagBroken` asks for. */
  predicate TagBrokenPos(t: string, j: int)
    requires 0 <= j < |t|
  {
    && (t[j] == '<' && j > 0 ==> t[j - 1] == '\n')
    && (t[j] == '\n' ==> j + 1 < |t| && t[j + 1] == '<')
  }

  /** One position of tag-broken text. */
  lemma TagBrokenAt(t: string, j: int)
    requires TagBroken(t) && 0 <= j < |t|
    ensures t[j] == '<' && j > 0 ==> t[j - 1] == '\n'
    ensures t[j] == '\n' ==> j + 1 < |t| && t[j + 1] == '<'
  {
    assert TagBrokenPos(t, j);
  }

  /** Breaking newline-free text before its tags puts a newline before every `<`
      and a `<` after every newline. */
  lemma {:induction false} BreakBeforeTagsBroken(xml: string)
    requires '\n' !in xml
    ensures TagBroken(BreakBeforeTags(xml))
    ensures BreakBeforeTags(xml) == [] || BreakBeforeTags(xml)[0] != '<'
    decreases |xml|
  {
    if xml != [] {
      assert xml == [xml[0]] + xml[1..];
      assert xml[0] in xml;
      var rest := BreakBeforeTags(xml[1..]);
      BreakBeforeTagsBroken(xml[1..]);
      var h := if xml[0] == '<' then "\n<" else [xml[0]];
      var t := BreakBeforeTags(xml);
      assert t == h + rest;
      forall j | 0 <= j < |t|
        ensures TagBrokenPos(t, j)
      {
        if j >= |h| {
          TagBrokenAt(rest, j - |h|);
          assert t[j] == rest[j - |h|];
          if j > |h| {
            assert t[j - 1] == rest[j - |h| - 1];
          }
          if j + 1 < |t| {
            assert t[j + 1] == rest[j + 1 - |h|];
          }
        } else {
          assert t[j] == h[j];
          if j + 1 < |h| {
            assert t[j + 1] == h[j + 1];
          }
        }
      }
      assert t[0] == h[0];
    }
  }

  /** What follows a position of tag-broken text is tag-broken. */
  lemma TagBrokenSuffix(t: string, i: int)
    requires TagBroken(t) && 0 <= i < |t|
    ensures TagBroken(t[i + 1..])
  {
    var u := t[i + 1..];
    forall j | 0 <= j < |u|
      ensures u[j] == '<' && j > 0 ==> u[j - 1] == '\n'
      ensures u[j] == '\n' ==> j + 1 < |u| && u[j + 1] == '<'
    {
      TagBrokenAt(t, i + 1 + j);
      assert u[j] == t[i + 1 + j];
      if j > 0 {
        assert u[j - 1] == t[i + j];
      }
      if j + 1 < |u| {
        assert u[j + 1] == t[i + 2 + j];
      }
    }
  }

  /** A newline-free prefix of tag-broken text holds no `<` after its first
      character. */
  lemma PrefixNoInnerTag(t: string, i: int)
    requires TagBroken(t) && 0 <= i <= |t| && '\n' !in t[..i]
    ensures forall j :: 0 < j < i ==> t[..i][j] != '<'
  {
    forall j | 0 < j < i
      ensures t[..i][j] != '<'
    {
      TagBrokenAt(t, j);
      assert t[..i][j - 1] in t[..i];
    }
  }

  /** Pieces that start with a tag, except perhaps the first. */
  predicate TagLed(ps: seq<string>) {
    forall k :: 0 < k < |ps| ==> ps[k] != [] && ps[k][0] == '<'
  }

  /** Pieces with no `<` after their first character. */
  predicate NoInnerTag(ps: seq<string>) {
    forall k, j :: 0 <= k < |ps| && 0 < j < |ps[k]| ==> ps[k][j] != '<'
  }

  /** A piece without an inner tag in front of pieces led by a tag. */
  lemma TagPiecesCons(p: string, rs: seq<string>)
    requires rs != [] && rs[0] != [] && rs[0][0] == '<'
    requires TagLed(rs) && NoInnerTag(rs)
    requires forall j :: 0 < j < |p| ==> p[j] != '<'
    ensures TagLed([p] + rs) && NoInnerTag([p] + rs)
  {
    var ps := [p] + rs;
    forall k | 0 < k < |ps|
      ensures ps[k] == rs[k - 1]
    {
    }
  }

  /** A split piece of text that does not start with the separator starts with
      the text's first character. */
  lemma SplitHead(s: string, c: char)
    requires s != [] && s[0] != c
    ensures Split(s, c)[0] != [] && Split(s, c)[0][0] == s[0]
  {
  }

  /** Splitting tag-broken text at its newlines gives pieces that start with a tag,
      except perhaps the first, and that hold no `<` after their first character. */
  lemma {:induction false} SplitAtTags(t: string)
    requires TagBroken(t)
    ensures TagLed(Split(t, '\n')) && NoInnerTag(Split(t, '\n'))
    decreases |t|
  {
    var r := Split(t, '\n');
    match IndexOf(t, '\n')
    case None =>
      assert r == [t];
      assert t[..|t|] == t;
      PrefixNoInnerTag(t, |t|);
    case Some(i) =>
      var u := t[i + 1..];
      TagBrokenAt(t, i);
      TagBrokenSuffix(t, i);
      SplitAtTags(u);
      SplitHead(u, '\n');
      PrefixNoInnerTag(t, i);
      assert r == [t[..i]] + Split(u, '\n');
      TagPiecesCons(t[..i], Split(u, '\n'));
  }

  /** Dropping an empty first piece keeps the pieces tag-led and free of inner
      tags; no later piece is empty. */
  lemma KeepTagPieces(ps: seq<string>)
    requires ps != [] && TagLed(ps) && NoInnerTag(ps)
    ensures TagLed(Keep(ps, NonEmptyText)) && NoInnerTag(Keep(ps, NonEmptyText))
  {
    var tail := ps[1..];
    forall k | 0 <= k < |tail|
      ensures NonEmptyText(tail[k]) && tail[k][0] == '<'
    {
      assert tail[k] == ps[k + 1];
    }
    KeepAll(tail, NonEmptyText);
    KeepCons(ps[0], tail, NonEmptyText);
    assert ps == [ps[0]] + tail;
  }

  /** For XML without newlines, every printed part after the first starts with a
      tag, and no part holds a `<` after its first character: the text is broken
      before every tag and nowhere else. */
  lemma XmlPartsAtTags(xml: string)
    requires '\n' !in xml
    ensures TagLed(XmlParts(xml)) && NoInnerTag(XmlParts(xml))
  {
    var t := BreakBeforeTags(xml);
    BreakBeforeTagsBroken(xml);
    SplitAtTags(t);
    KeepTagPieces(Split(t, '\n'));
  }

  /** A closing tag. */
  predicate IsClosingTag(part: string) {
    StartsWith(part, "</")
  }

  /** A part after which the indentation grows: an opening tag that is not
      self-closing and does not close itself on the same part. */
  predicate OpensElement(part: string) {
    StartsWith(part, "<") && !StartsWith(part, "</") && !EndsWith(part, "/>") && !Contains(part, "</")
  }

  /** The level a part is printed at: one less for a closing tag, never below
      zero. */
  function PrintLevel(level: nat, part: string): nat {
    if IsClosingTag(part) then (if level > 0 then level - 1 else 0) else level
  }

  /** The level after printing a part. */
  function NextLevel(level: nat, part: string): nat {
    if OpensElement(part) then PrintLevel(level, part) + 1 else PrintLevel(level, part)
  }

  /** The indentation fold of `prettyPrintXml`, from a start level. */
  function IndentLines(parts: seq<string>, level: nat): (r: seq<string>)
    ensures |r| == |parts|
    decreases |parts|
  {
    if parts == [] then []
    else [Repeat("  ", PrintLevel(level, parts[0])) + parts[0]] + IndentLines(parts[1..], NextLevel(level, parts[0]))
  }

  /** The level reached after the given parts, as a reference fold from the
      last part backwards. */
  function LevelAfter(level: nat, parts: seq<string>): nat
    decreases |parts|
  {
    if parts == [] then level else NextLevel(LevelAfter(level, parts[..|parts| - 1]), parts[|parts| - 1])
  }

  lemma {:induction false} LevelAfterCons(level: nat, p: string, q: seq<string>)
    ensures LevelAfter(level, [p] + q) == LevelAfter(NextLevel(level, p), q)
    decreases |q|
  {
    if q == [] {
      assert [p] + q == [p];
      assert [p][..0] == [];
    } else {
      var init := q[..|q| - 1];
      LevelAfterCons(level, p, init);
      assert ([p] + q)[..|[p] + q| - 1] == [p] + init;
    }
  }

  /** Line `i` is the part `i` indented by two spaces per level, at the level the
      earlier parts lead to, lowered by one for a closing tag. */
  lemma {:induction false} IndentLinesAt(parts: seq<string>, level: nat, i: nat)
    requires i < |parts|
    ensures IndentLines(parts, level)[i] ==
      Repeat("  ", PrintLevel(LevelAfter(level, parts[..i]), parts[i])) + parts[i]
    decreases i
  {
    if i == 0 {
      assert parts[..0] == [];
    } else {
      var next := NextLevel(level, parts[0]);
      IndentLinesAt(parts[1..], next, i - 1);
      LevelAfterCons(level, parts[0], parts[1..][..i - 1]);
      assert [parts[0]] + parts[1..][..i - 1] == parts[..i];
    }
  }

  /** `prettyPrintXml(xmlText)`: `""` exactly when the collapsed, trimmed text is
      empty; otherwise the indented parts joined by newlines. */
  function PrettyPrintXml(text: string): (r: string)
    ensures r == "" <==> Trim(CollapseTagGaps(text)) == ""
  {
    var xml := Trim(CollapseTagGaps(text));
    if xml == "" then ""
    else
      var lines := IndentLines(XmlParts(xml), 0);
      FirstLineNonEmpty(xml);
      Join(lines, "\n")
  }

  /** Non-blank XML yields at least one part, and its first line is not empty. */
  lemma FirstLineNonEmpty(xml: string)
    requires xml != "" && !IsSpace(xml[0])
    ensures |XmlParts(xml)| > 0 && IndentLines(XmlParts(xml), 0)[0] != ""
  {
    var parts := XmlParts(xml);
    XmlPartsConcat(xml);
    assert xml == [xml[0]] + xml[1..];
    KeepAppend([xml[0]], xml[1..], NotNewline);
    assert Concat(parts) != "";
    IndentLinesAt(parts, 0, 0);
  }

  // ---------------------------------------------------------------------------
  // Text payloads

  /** The editor language for a response body. */
  datatype Language = JsonText | XmlText | HtmlText | JavaScriptText | PlainText

  /** A formatted body: its language, the lower-cased content type, and the text. */
  datatype Formatted = Formatted(language: Language, contentType: string, text: string)

  /** Any content type containing `+json` already contains `json`. */
  lemma {:induction false} PlusJsonIsJson(ct: string)
    ensures Contains(ct, "+json") ==> Contains(ct, "json")
    decreases |ct|
  {
    if StartsWith(ct, "+json") {
      assert ct[1..][..4] == "json";
      assert Contains(ct[1..], "json");
    } else if ct != [] {
      PlusJsonIsJson(ct[1..]);
    }
  }

  /** The first content-type test that matches picks the language: json, then xml,
      then html, then javascript, else plain text. */
  function LanguageFor(ct: string): (r: Language)
    ensures r == JsonText <==> Contains(ct, "json")
    ensures r == XmlText <==> !Contains(ct, "json") && Contains(ct, "xml")
    ensures r == HtmlText <==> !Contains(ct, "json") && !Contains(ct, "xml") && Contains(ct, "html")
    ensures r == JavaScriptText <==>
      !Contains(ct, "json") && !Contains(ct, "xml") && !Contains(ct, "html") && Contains(ct, "javascript")
  {
    PlusJsonIsJson(ct);
    if Contains(ct, "json") || Contains(ct, "+json") then JsonText
    else if Contains(ct, "xml") then XmlText
    else if Contains(ct, "html") then HtmlText
    else if Contains(ct, "javascript") then JavaScriptText
    else PlainText
  }

  /** `formatResponseBody` for a string payload: JSON is re-indented when it
      parses, XML goes through the indenter, anything else is shown verbatim. */
  function FormatTextPayload(headers: Option<seq<KeyValue>>, text: string, env: Env): (r: Formatted)
    ensures r.contentType == Lower(GetHeaderValue(headers, "content-type"))
    ensures r.language == LanguageFor(r.contentType)
    ensures r.language == JsonText && env.jsonParse(text).Some? ==> r.text == env.jsonPretty(env.jsonParse(text).value)
    ensures r.language == XmlText ==> r.text == PrettyPrintXml(text)
    ensures r.language !in {XmlText, JsonText} || (r.language == JsonText && env.jsonParse(text).None?) ==> r.text == text
  {
    var ct := Lower(GetHeaderValue(headers, "content-type"));
    var language := LanguageFor(ct);
    var shown :=
      match language
      case JsonText => (match env.jsonParse(text) case Some(j) => env.jsonPretty(j) case None => text)
      case XmlText => PrettyPrintXml(text)
      case _ => text;
    Formatted(language, ct, shown)
  }

  // ---------------------------------------------------------------------------
  // Badge colours

  /** The badge colours, from good to bad. */
  datatype Shade = Emerald | Amber | Rose

  function Severity(s: Shade): nat {
    match s
    case Emerald => 0
    case Amber => 1
    case Rose => 2
  }

  /** `getTimeColorClass(timeMs)`: under 200 ms emerald, up to 500 ms amber, above
      that rose. */
  function TimeShade(ms: real): (r: Shade)
    ensures r == Emerald <==> ms < 200.0
    ensures r == Rose <==> ms > 500.0
  {
    if ms < 200.0 then Emerald else if ms <= 500.0 then Amber else Rose
  }

  /** A slower response never gets a better colour. */
  lemma TimeShadeMonotone(a: real, b: real)
    requires a <= b
    ensures Severity(TimeShade(a)) <= Severity(TimeShade(b))
  {
  }

  /** `getStatusColorClass(status)`: 2xx emerald, 400 and above rose, anything else
      amber, including a missing status (every comparison with `null` or
      `undefined` fails). */
  function StatusShade(status: Option<int>): (r: Shade)
    ensures r == Emerald <==> status.Some? && 200 <= status.value < 300
    ensures r == Rose <==> status.Some? && status.value >= 400
  {
    match status
    case None => Amber
    case Some(s) => if 200 <= s < 300 then Emerald else if s >= 400 then Rose else Amber
  }
}

=== FILE: round_trip.dfy ===
/** What the importer makes of a generated command, field by field: the method
    (with GET-plus-body read back as POST), the URL, the headers as the header
    parser reads the written lines, the auth, and the body. */
module RoundTrip {
  import opened Options
  import opened Strings
  import opened Model
  import opened Seqs
  import opened Tokenizer
  import opened CurlExport
  import opened CurlImport
  import opened Reimport

  // ---------------------------------------------------------------------------
  // The flag descriptions over concatenated flag lists

  lemma {:induction false} LastMethodAppend(a: seq<Flag>, b: seq<Flag>)
    ensures LastMethod(a + b) == if LastMethod(b).Some? then LastMethod(b) else LastMethod(a)
    decreases |a|
  {
    if a == [] {
      assert a + b == b;
    } else {
      assert (a + b)[1..] == a[1..] + b;
      LastMethodAppend(a[1..], b);
    }
  }

  lemma {:induction false} LastSetUrlAppend(a: seq<Flag>, b: seq<Flag>)
    ensures LastSetUrl(a + b) == if LastSetUrl(b).Some? then LastSetUrl(b) else LastSetUrl(a)
    decreases |a|
  {
    if a == [] {
      assert a + b == b;
    } else {
      assert (a + b)[1..] == a[1..] + b;
      LastSetUrlAppend(a[1..], b);
    }
  }

  lemma {:induction false} LastFlagAuthAppend(a: seq<Flag>, b: seq<Flag>)
    ensures LastFlagAuth(a + b) == if LastFlagAuth(b).Some? then LastFlagAuth(b) else LastFlagAuth(a)
    decreases |a|
  {
    if a == [] {
      assert a + b == b;
    } else {
      assert (a + b)[1..] == a[1..] + b;
      LastFlagAuthAppend(a[1..], b);
    }
  }

  lemma {:induction false} LastDataAppend(a: seq<Flag>, b: seq<Flag>)
    ensures LastData(a + b) == if LastData(b).Some? then LastData(b) else LastData(a)
    decreases |a|
  {
    if a == [] {
      assert a + b == b;
    } else {
      assert (a + b)[1..] == a[1..] + b;
      LastDataAppend(a[1..], b);
    }
  }

  lemma {:induction false} FirstPositionalAppend(a: seq<Flag>, b: seq<Flag>)
    ensures FirstPositional(a + b) == if FirstPositional(a).Some? then FirstPositional(a) else FirstPositional(b)
    decreases |a|
  {
    if a == [] {
      assert a + b == b;
    } else {
      assert (a + b)[1..] == a[1..] + b;
      FirstPositionalAppend(a[1..], b);
    }
  }

  lemma {:induction false} FlagHeadersAppend(a: seq<Flag>, b: seq<Flag>)
    ensures FlagHeaders(a + b) == FlagHeaders(a) + FlagHeaders(b)
    decreases |a|
  {
    if a == [] {
      assert a + b == b;
    } else {
      assert (a + b)[1..] == a[1..] + b;
      FlagHeadersAppend(a[1..], b);
      ConcatAssoc(HeaderOf(a[0]), FlagHeaders(a[1..]), FlagHeaders(b));
    }
  }

  /** Words in front change nothing about whether a data flag comes before every
      method flag. */
  lemma {:induction false} DataBeforeAfterWords(a: seq<Flag>, b: seq<Flag>)
    requires forall i :: 0 <= i < |a| ==> a[i].Word?
    ensures DataBeforeMethodFlag(a + b) == DataBeforeMethodFlag(b)
    decreases |a|
  {
    if a == [] {
      assert a + b == b;
    } else {
      assert (a + b)[1..] == a[1..] + b;
      assert (a + b)[0].Word?;
      DataBeforeAfterWords(a[1..], b);
    }
  }

  // ---------------------------------------------------------------------------
  // The flags of the continuation lines

  /** The kinds of flag a continuation line lexes to. */
  predicate ArgFlag(f: Flag) {
    f.Header? || f.SetCookie? || f.Data?
  }

  /** Flags of these kinds set no method and no URL, and a data flag among them
      comes before every method flag exactly when there is one. */
  lemma {:induction false} ArgFlagsQuiet(flags: seq<Flag>)
    requires forall i :: 0 <= i < |flags| ==> ArgFlag(flags[i])
    ensures LastMethod(flags).None? && LastSetUrl(flags).None? && FirstPositional(flags).None?
    ensures DataBeforeMethodFlag(flags) <==> LastData(flags).Some?
    decreases |flags|
  {
    if flags != [] {
      assert ArgFlag(flags[0]);
      assert forall i :: 0 <= i < |flags[1..]| ==> flags[1..][i] == flags[i + 1];
      ArgFlagsQuiet(flags[1..]);
    }
  }

  /** What the header parser makes of the line written for one header. */
  function ReadOne(kv: KeyValue): seq<KeyValue> {
    match ParseHeaderLine(kv.key + ": " + kv.value)
    case Some(x) => [x]
    case None => []
  }

  /** The headers the importer reads back from the `-H` lines written for `h`: each
      line `key: value` parsed again, the ones that do not parse dropped. */
  function ReadBack(h: seq<KeyValue>): seq<KeyValue> {
    FlatMap(h, ReadOne)
  }

  predicate ExactHeader(kv: KeyValue) {
    kv.key != "" && ':' !in kv.key && Trimmed(kv.key) && Trimmed(kv.value)
  }

  lemma ReadOneExact(kv: KeyValue)
    requires ExactHeader(kv)
    ensures ReadOne(kv) == [kv]
  {
    HeaderLineRoundTrip(kv.key, kv.value);
  }

  /** Headers with non-empty, trimmed, colon-free keys and trimmed values read back
      exactly. */
  lemma ReadBackExact(h: seq<KeyValue>)
    requires forall i :: 0 <= i < |h| ==> ExactHeader(h[i])
    ensures ReadBack(h) == h
  {
    forall i | 0 <= i < |h|
      ensures ReadOne(h[i]) == [h[i]]
    {
      ReadOneExact(h[i]);
    }
    FlatMapFixed(h, ReadOne);
  }

  /** The `-H` lines: only headers, which read back as `ReadBack` says. */
  lemma {:induction false} HeaderChunk(h: seq<KeyValue>)
    ensures var f := OptFlags(HeaderOpts(h));
      && (forall i :: 0 <= i < |f| ==> ArgFlag(f[i]))
      && FlagHeaders(f) == ReadBack(h)
      && LastFlagAuth(f).None?
      && LastData(f).None?
    decreases |h|
  {
    var f := OptFlags(HeaderOpts(h));
    if h != [] {
      assert f[1..] == OptFlags(HeaderOpts(h[1..]));
      assert f[0] == Header(h[0].key + ": " + h[0].value);
      HeaderChunk(h[1..]);
    }
  }

  /** The `--cookie` line, present for a non-empty cookie. */
  lemma CookieChunk(auth: Auth)
    ensures var f := OptFlags(CookieOpts(auth));
      && (forall i :: 0 <= i < |f| ==> ArgFlag(f[i]))
      && FlagHeaders(f) == []
      && LastFlagAuth(f) == (if auth.Cookie? && auth.cookie != "" then Some(Cookie(auth.cookie)) else None)
      && LastData(f).None?
  {
    var f := OptFlags(CookieOpts(auth));
    if auth.Cookie? && auth.cookie != "" {
      assert f == [SetCookie(auth.cookie)];
      assert f[1..] == [];
    }
  }

  /** The `--data-raw` line, present when the body is attached. */
  lemma DataChunk(p: CurlPayload, env: Env)
    ensures var f := OptFlags(DataOpts(p, env));
      && (forall i :: 0 <= i < |f| ==> ArgFlag(f[i]))
      && FlagHeaders(f) == []
      && LastFlagAuth(f).None?
      && LastData(f) == (if AttachesBody(EffectiveMethod(p.httpMethod), p.body, p.allowGetBody) then Some(env.jsonStringify(p.body.value)) else None)
  {
    var f := OptFlags(DataOpts(p, env));
    if AttachesBody(EffectiveMethod(p.httpMethod), p.body, p.allowGetBody) {
      assert f == [Data(env.jsonStringify(p.body.value))];
      assert f[1..] == [];
    }
  }

  // ---------------------------------------------------------------------------
  // The flags of the first line

  /** A bare upper-case method normalises to itself. */
  lemma NormalizeBare(m: string)
    requires BareWord(m) && Upper(m) == m
    ensures NormalizeMethod(m) == m
  {
    assert IsPlain(m[0]) && IsPlain(m[|m| - 1]);
  }

  /** What the flag descriptions make of one word in front of a list. */
  lemma WordInFront(w: string, rest: seq<Flag>)
    ensures var f := [Word(w)] + rest;
      && LastMethod(f) == LastMethod(rest)
      && LastSetUrl(f) == LastSetUrl(rest)
      && FirstPositional(f) == (if !StartsWith(w, "-") then Some(w) else FirstPositional(rest))
      && FlagHeaders(f) == FlagHeaders(rest)
      && LastFlagAuth(f) == LastFlagAuth(rest)
      && LastData(f) == LastData(rest)
  {
    var f := [Word(w)] + rest;
    assert f[0] == Word(w) && f[1..] == rest;
    assert LastMethod(f) == LastMethod(rest);
    assert LastSetUrl(f) == LastSetUrl(rest);
    assert FirstPositional(f) == (if !StartsWith(w, "-") then Some(w) else FirstPositional(rest));
    assert FlagHeaders(f) == FlagHeaders(rest);
    assert LastFlagAuth(f) == LastFlagAuth(rest);
  }

  /** ... and of `-X` with a method that normalises to itself. */
  lemma MethodInFront(m: string, rest: seq<Flag>)
    requires NormalizeMethod(m) == m && m != ""
    ensures LastMethod([SetMethod(m)] + rest) == if LastMethod(rest).Some? then LastMethod(rest) else Some(m)
  {
    assert ([SetMethod(m)] + rest)[1..] == rest;
  }

  lemma SetMethodInFront(m: string, rest: seq<Flag>)
    ensures var f := [SetMethod(m)] + rest;
      && LastSetUrl(f) == LastSetUrl(rest)
      && FirstPositional(f) == FirstPositional(rest)
      && FlagHeaders(f) == FlagHeaders(rest)
      && LastFlagAuth(f) == LastFlagAuth(rest)
      && LastData(f) == LastData(rest)
  {
    var f := [SetMethod(m)] + rest;
    assert f[1..] == rest;
  }

  /** The URL word, if any: the only positional word of the first line. */
  lemma UrlChunk(u: string)
    requires !StartsWith(u, "-")
    ensures var f: seq<Flag> := if u == "" then [] else [Word(u)];
      && LastMethod(f).None? && LastSetUrl(f).None?
      && FirstPositional(f).GetOr("") == u
      && FlagHeaders(f) == [] && LastFlagAuth(f).None? && LastData(f).None?
  {
    if u != "" {
      WordInFront(u, []);
      assert [Word(u)] + [] == [Word(u)];
    }
  }

  /** The first line sets the method unless it is GET, and its only positional
      word is the URL. */
  lemma FrontChunk(m: string, u: string)
    requires BareWord(m) && Upper(m) == m && !StartsWith(u, "-")
    ensures var f := FrontFlags(m, u);
      && LastMethod(f) == (if m == "GET" then None else Some(m))
      && (m == "GET" ==> forall i :: 0 <= i < |f| ==> f[i].Word?)
      && LastSetUrl(f).None?
      && FirstPositional(f).GetOr("") == u
      && FlagHeaders(f) == []
      && LastFlagAuth(f).None?
      && LastData(f).None?
  {
    if m == "GET" {
      FrontChunkGet(u);
    } else {
      FrontChunkMethod(m, u);
    }
  }

  lemma FrontChunkGet(u: string)
    requires !StartsWith(u, "-")
    ensures var f := FrontFlags("GET", u);
      && LastMethod(f).None?
      && (forall i :: 0 <= i < |f| ==> f[i].Word?)
      && LastSetUrl(f).None?
      && FirstPositional(f).GetOr("") == u
      && FlagHeaders(f) == []
      && LastFlagAuth(f).None?
      && LastData(f).None?
  {
    var uf: seq<Flag> := if u == "" then [] else [Word(u)];
    assert FrontFlags("GET", u) == [Word("--location")] + uf;
    UrlChunk(u);
    assert StartsWith("--location", "-");
    WordInFront("--location", uf);
  }

  lemma FrontChunkMethod(m: string, u: string)
    requires BareWord(m) && Upper(m) == m && m != "GET" && !StartsWith(u, "-")
    ensures var f := FrontFlags(m, u);
      && LastMethod(f) == Some(m)
      && LastSetUrl(f).None?
      && FirstPositional(f).GetOr("") == u
      && FlagHeaders(f) == []
      && LastFlagAuth(f).None?
      && LastData(f).None?
  {
    var uf: seq<Flag> := if u == "" then [] else [Word(u)];
    var rest := [SetMethod(m)] + uf;
    assert FrontFlags(m, u) == [Word("--location")] + rest;
    UrlChunk(u);
    assert StartsWith("--location", "-");
    WordInFront("--location", rest);
    assert LastMethod(rest) == Some(m) by {
      NormalizeBare(m);
      MethodInFront(m, uf);
    }
    SetMethodInFront(m, uf);
  }

  // ---------------------------------------------------------------------------
  // The flags of the whole command

  /** The cookie line the generator writes, as the auth it stands for. */
  function SentCookie(auth: Auth): Option<Auth> {
    if auth.Cookie? && auth.cookie != "" then Some(Cookie(auth.cookie)) else None
  }

  /** The body text the generator writes, if it attaches one. */
  function SentData(p: CurlPayload, env: Env): Option<string> {
    if AttachesBody(EffectiveMethod(p.httpMethod), p.body, p.allowGetBody)
    then Some(env.jsonStringify(p.body.value))
    else None
  }

  /** The continuation lines: headers that read back as `ReadBack` says, the
      cookie and the body, and nothing that sets a method or a URL. */
  lemma RestChunk(p: CurlPayload, env: Env, h: seq<KeyValue>)
    ensures var f := OptFlags(ExportedOpts(p, env, h));
      && (forall i :: 0 <= i < |f| ==> ArgFlag(f[i]))
      && FlagHeaders(f) == ReadBack(h)
      && LastFlagAuth(f) == SentCookie(p.auth)
      && LastData(f) == SentData(p, env)
  {
    var a, b, c := OptFlags(HeaderOpts(h)), OptFlags(CookieOpts(p.auth)), OptFlags(DataOpts(p, env));
    assert OptFlags(ExportedOpts(p, env, h)) == a + b + c by {
      OptFlagsAppend(HeaderOpts(h) + CookieOpts(p.auth), DataOpts(p, env));
      OptFlagsAppend(HeaderOpts(h), CookieOpts(p.auth));
    }
    HeaderChunk(h);
    CookieChunk(p.auth);
    DataChunk(p, env);
    assert FlagHeaders(a + b + c) == ReadBack(h) by {
      FlagHeadersAppend(a + b, c);
      FlagHeadersAppend(a, b);
      AppendNothing(ReadBack(h));
      AppendNothing(ReadBack(h) + []);
    }
    assert LastFlagAuth(a + b + c) == SentCookie(p.auth) by {
      LastFlagAuthAppend(a + b, c);
      LastFlagAuthAppend(a, b);
    }
    assert LastData(a + b + c) == SentData(p, env) by {
      LastDataAppend(a + b, c);
      LastDataAppend(a, b);
    }
  }

  /** The flags a generated command lexes to: those of its first line, then one per
      continuation line. */
  function CommandFlags(p: CurlPayload, env: Env, h: seq<KeyValue>): seq<Flag> {
    FrontFlags(EffectiveMethod(p.httpMethod), ExportedUrl(p, env)) + OptFlags(ExportedOpts(p, env, h))
  }

  /** The method the flag loop settles on: the written one, or POST for GET with
      a body. */
  lemma CommandMethod(p: CurlPayload, env: Env, h: seq<KeyValue>)
    requires BareWord(EffectiveMethod(p.httpMethod)) && !StartsWith(ExportedUrl(p, env), "-")
    ensures var f := CommandFlags(p, env, h);
      var m := EffectiveMethod(p.httpMethod);
      (match LastMethod(f) case Some(x) => x case None => if DataBeforeMethodFlag(f) then "POST" else "GET")
        == if m == "GET" && SentData(p, env).Some? then "POST" else m
  {
    var m, u := EffectiveMethod(p.httpMethod), ExportedUrl(p, env);
    var front, rest := FrontFlags(m, u), OptFlags(ExportedOpts(p, env, h));
    RestChunk(p, env, h);
    ArgFlagsQuiet(rest);
    FrontChunk(m, u);
    LastMethodAppend(front, rest);
    if m == "GET" {
      DataBeforeAfterWords(front, rest);
    }
  }

  /** The URL the flag loop settles on is the written one. */
  lemma CommandUrl(p: CurlPayload, env: Env, h: seq<KeyValue>)
    requires BareWord(EffectiveMethod(p.httpMethod)) && !StartsWith(ExportedUrl(p, env), "-")
    ensures var f := CommandFlags(p, env, h);
      (match LastSetUrl(f) case Some(x) => x case None => FirstPositional(f).GetOr("")) == ExportedUrl(p, env)
  {
    var m, u := EffectiveMethod(p.httpMethod), ExportedUrl(p, env);
    var front, rest := FrontFlags(m, u), OptFlags(ExportedOpts(p, env, h));
    RestChunk(p, env, h);
    ArgFlagsQuiet(rest);
    FrontChunk(m, u);
    LastSetUrlAppend(front, rest);
    FirstPositionalAppend(front, rest);
  }

  /** The headers, cookie and body the flag loop collects. */
  lemma CommandArgs(p: CurlPayload, env: Env, h: seq<KeyValue>)
    requires BareWord(EffectiveMethod(p.httpMethod)) && !StartsWith(ExportedUrl(p, env), "-")
    ensures var f := CommandFlags(p, env, h);
      && FlagHeaders(f) == ReadBack(h)
      && LastFlagAuth(f) == SentCookie(p.auth)
      && LastData(f) == SentData(p, env)
  {
    var m, u := EffectiveMethod(p.httpMethod), ExportedUrl(p, env);
    var front, rest := FrontFlags(m, u), OptFlags(ExportedOpts(p, env, h));
    RestChunk(p, env, h);
    FrontChunk(m, u);
    FlagHeadersAppend(front, rest);
    LastFlagAuthAppend(front, rest);
    LastDataAppend(front, rest);
  }

  // ---------------------------------------------------------------------------
  // Reading a generated command back

  /** The text of the `-H` line written for one header. */
  function HeaderText(kv: KeyValue): string {
    kv.key + ": " + kv.value
  }

  /** When a generated command reads back: the generator produced one (Basic
      credentials encode), the method is a bare word, the URL neither starts with
      `-` nor holds a backslash-newline, no header, cookie or body text holds one,
      and an attached body is not the empty text. */
  predicate Reimportable(p: CurlPayload, env: Env) {
    && FinalHeaders(p, env).Some?
    && BareWord(EffectiveMethod(p.httpMethod))
    && NoContinuation(ExportedUrl(p, env))
    && !StartsWith(ExportedUrl(p, env), "-")
    && (forall kv :: kv in FinalHeaders(p, env).value ==> NoContinuation(HeaderText(kv)))
    && (p.auth.Cookie? ==> NoContinuation(p.auth.cookie))
    && (SentData(p, env).Some? ==> SentData(p, env).value != "" && NoContinuation(SentData(p, env).value))
  }

  lemma ReimportableReadable(p: CurlPayload, env: Env)
    requires Reimportable(p, env)
    ensures Readable(ExportedOpts(p, env, FinalHeaders(p, env).value))
  {
    var h := FinalHeaders(p, env).value;
    var a, b, c := HeaderOpts(h), CookieOpts(p.auth), DataOpts(p, env);
    HeaderOptsReadable(h);
    CookieOptsReadable(p.auth);
    DataOptsReadable(p, env);
    ReadableAppend(a, b);
    ReadableAppend(a + b, c);
  }

  lemma CookieOptsReadable(auth: Auth)
    requires auth.Cookie? ==> NoContinuation(auth.cookie)
    ensures Readable(CookieOpts(auth))
  {
  }

  lemma DataOptsReadable(p: CurlPayload, env: Env)
    requires SentData(p, env).Some? ==> SentData(p, env).value != "" && NoContinuation(SentData(p, env).value)
    ensures Readable(DataOpts(p, env))
  {
  }

  lemma HeaderOptsReadable(h: seq<KeyValue>)
    requires forall kv :: kv in h ==> NoContinuation(HeaderText(kv))
    ensures Readable(HeaderOpts(h))
  {
    var a := HeaderOpts(h);
    forall i | 0 <= i < |a|
      ensures KnownFlag(a[i].flag) && a[i].arg != "" && NoContinuation(a[i].arg)
    {
      assert a[i].arg == HeaderText(h[i]);
      assert h[i] in h;
    }
  }

  lemma ReadableAppend(a: seq<Opt>, b: seq<Opt>)
    requires Readable(a) && Readable(b)
    ensures Readable(a + b)
  {
    forall i | 0 <= i < |a + b|
      ensures KnownFlag((a + b)[i].flag) && (a + b)[i].arg != "" && NoContinuation((a + b)[i].arg)
    {
      if i >= |a| {
        assert (a + b)[i] == b[i - |a|];
      }
    }
  }

  /** A generated command that reads back tokenizes to `curl` followed by what lexes
      to the flags of its lines. */
  lemma ReimportLexes(p: CurlPayload, env: Env)
    requires Reimportable(p, env)
    ensures GenerateCurlCommand(p, env).Some?
    ensures var t := Tokenize(GenerateCurlCommand(p, env).value);
      t != [] && t[0] == "curl" && Lex(t, 1) == CommandFlags(p, env, FinalHeaders(p, env).value)
  {
    var h := FinalHeaders(p, env).value;
    var m, u := EffectiveMethod(p.httpMethod), ExportedUrl(p, env);
    var opts := ExportedOpts(p, env, h);
    assert GenerateCurlCommand(p, env).value == FirstLine(m, u) + JoinRest(opts) by {
      ExportedLines(p, env);
      JoinLines(FirstLine(m, u), opts);
    }
    ReimportableReadable(p, env);
    TokenizeCommand(m, u, opts);
    LexCommand(m, u, opts);
  }

  /** Re-importing a generated command gives back its method, except that GET with
      a body comes back as POST. */
  lemma ReimportMethod(p: CurlPayload, env: Env)
    requires Reimportable(p, env)
    ensures var r := ParseCurlCommand(GenerateCurlCommand(p, env).value, env);
      var m := EffectiveMethod(p.httpMethod);
      r.Some? && r.value.httpMethod == if m == "GET" && SentData(p, env).Some? then "POST" else m
  {
    var t := Tokenize(GenerateCurlCommand(p, env).value);
    ReimportLexes(p, env);
    ParsedMethod(t, env);
    CommandMethod(p, env, FinalHeaders(p, env).value);
  }

  /** ... gives back the URL the command quotes, split by the URL parser. */
  lemma ReimportUrl(p: CurlPayload, env: Env)
    requires Reimportable(p, env)
    ensures var r := ParseCurlCommand(GenerateCurlCommand(p, env).value, env);
      r.Some? && (r.value.url, r.value.params) == ParseUrlAndParams(ExportedUrl(p, env), env)
  {
    var t := Tokenize(GenerateCurlCommand(p, env).value);
    ReimportLexes(p, env);
    CurlImport.ParsedUrl(t, env);
    CommandUrl(p, env, FinalHeaders(p, env).value);
  }

  /** ... gives back the written headers as the header parser reads them, minus
      the recognised `Authorization` ones. */
  lemma ReimportHeaders(p: CurlPayload, env: Env)
    requires Reimportable(p, env)
    ensures var r := ParseCurlCommand(GenerateCurlCommand(p, env).value, env);
      r.Some? && r.value.headers == ToKeyValueRows(KeptHeaders(ReadBack(FinalHeaders(p, env).value), env))
  {
    var t := Tokenize(GenerateCurlCommand(p, env).value);
    ReimportLexes(p, env);
    ParsedHeaders(t, env);
    CommandArgs(p, env, FinalHeaders(p, env).value);
  }

  /** ... gives back the auth of the last recognised `Authorization` header, else
      the cookie, else none. */
  lemma ReimportAuth(p: CurlPayload, env: Env)
    requires Reimportable(p, env)
    ensures var r := ParseCurlCommand(GenerateCurlCommand(p, env).value, env);
      r.Some? && r.value.auth == LastHeaderAuth(ReadBack(FinalHeaders(p, env).value), env).GetOr(SentCookie(p.auth).GetOr(NoAuth))
  {
    var t := Tokenize(GenerateCurlCommand(p, env).value);
    ReimportLexes(p, env);
    ParsedAuth(t, env);
    CommandArgs(p, env, FinalHeaders(p, env).value);
  }

  /** ... gives back the body text the command carries, or the placeholder. */
  lemma ReimportBody(p: CurlPayload, env: Env)
    requires Reimportable(p, env)
    ensures var r := ParseCurlCommand(GenerateCurlCommand(p, env).value, env);
      r.Some? && r.value.bodyText == BodyText(SentData(p, env), env)
  {
    var t := Tokenize(GenerateCurlCommand(p, env).value);
    ReimportLexes(p, env);
    ParsedBody(t, env);
    CommandArgs(p, env, FinalHeaders(p, env).value);
  }

  /** Headers with clean keys and values come back as written, minus the
      recognised `Authorization` ones. */
  lemma ReimportExactHeaders(p: CurlPayload, env: Env)
    requires Reimportable(p, env)
    requires forall i :: 0 <= i < |FinalHeaders(p, env).value| ==> ExactHeader(FinalHeaders(p, env).value[i])
    ensures var r := ParseCurlCommand(GenerateCurlCommand(p, env).value, env);
      r.Some? && r.value.headers == ToKeyValueRows(KeptHeaders(FinalHeaders(p, env).value, env))
  {
    ReimportHeaders(p, env);
    ReadBackExact(FinalHeaders(p, env).value);
  }

  // ---------------------------------------------------------------------------
  // Bearer and Basic auth read back as themselves

  /** `Authorization` is a clean header key and lower-cases to `authorization`. */
  lemma AuthorizationKey()
    ensures ExactHeader(KeyValue("Authorization", "")) && Lower("Authorization") == "authorization"
  {
  }

  /** The default `Content-Type` pair reads back as itself. */
  lemma ContentTypeKey()
    ensures ReadBack([KeyValue("Content-Type", "application/json")]) == [KeyValue("Content-Type", "application/json")]
  {
    var k, v := "Content-Type", "application/json";
    var ct := KeyValue(k, v);
    assert Trimmed(k) by {
      assert k[0] == 'C' && k[|k| - 1] == 'e';
    }
    assert Trimmed(v) by {
      assert v[0] == 'a' && v[|v| - 1] == 'n';
    }
    assert ExactHeader(ct);
    ReadOneExact(ct);
    FlatMapFixed([ct], ReadOne);
  }

  /** The default `Content-Type` pair carries no authorization. */
  lemma ContentTypeNoAuth(env: Env)
    ensures AuthFromHeader(KeyValue("Content-Type", "application/json"), env).None?
  {
    assert |Lower("Content-Type")| == 12;
  }

  /** When the user's headers have no `Authorization` key, the header written for a
      Bearer or Basic auth follows them, at most the default `Content-Type` after it. */
  lemma ExportedHeadersShape(p: CurlPayload, env: Env, v: string) returns (front: seq<KeyValue>, back: seq<KeyValue>)
    requires AuthHeaderValue(p.auth, env) == Some(v)
    requires forall kv :: kv in p.headers ==> kv.key != "Authorization"
    ensures FinalHeaders(p, env) == Some(front + [KeyValue("Authorization", v)] + back)
    ensures back == [] || back == [KeyValue("Content-Type", "application/json")]
  {
    var m := PairsToObject(p.headers);
    var a := KeyValue("Authorization", v);
    PairsToObjectNoNewKey(p.headers, "Authorization");
    AuthAppended(m, p.auth, env);
    PutFacts(m, "Authorization", v);
    PutNew(m, "Authorization", v);
    var attach := AttachesBody(EffectiveMethod(p.httpMethod), p.body, p.allowGetBody);
    front, back := ContentTypeAfter(m, a, attach);
  }

  /** ... and that header is the last recognised one the importer reads back. */
  lemma ExportedAuthorizationLast(p: CurlPayload, env: Env, v: string)
    requires AuthHeaderValue(p.auth, env) == Some(v) && Trimmed(v)
    requires forall kv :: kv in p.headers ==> kv.key != "Authorization"
    requires AuthFromHeader(KeyValue("Authorization", v), env).Some?
    ensures FinalHeaders(p, env).Some?
    ensures LastHeaderAuth(ReadBack(FinalHeaders(p, env).value), env) == AuthFromHeader(KeyValue("Authorization", v), env)
  {
    var a := KeyValue("Authorization", v);
    var front, back := ExportedHeadersShape(p, env, v);
    AuthorizationKey();
    ReadBackExact([a]);
    ContentTypeKey();
    ContentTypeNoAuth(env);
    ReadBackLast(front, a, back, env);
  }

  /** Reading back `front`, one clean recognised pair and at most the default
      `Content-Type` leaves that pair as the last recognised header. */
  lemma ReadBackLast(front: seq<KeyValue>, a: KeyValue, back: seq<KeyValue>, env: Env)
    requires ReadBack([a]) == [a] && AuthFromHeader(a, env).Some?
    requires back == [] || back == [KeyValue("Content-Type", "application/json")]
    requires ReadBack([KeyValue("Content-Type", "application/json")]) == [KeyValue("Content-Type", "application/json")]
    requires AuthFromHeader(KeyValue("Content-Type", "application/json"), env).None?
    ensures LastHeaderAuth(ReadBack(front + [a] + back), env) == AuthFromHeader(a, env)
  {
    FlatMapAppend(front + [a], back, ReadOne);
    FlatMapAppend(front, [a], ReadOne);
    assert ReadBack(back) == back;
    assert LastHeaderAuth(back, env).None?;
    LastHeaderAuthAppend(ReadBack(front) + [a], back, env);
    LastHeaderAuthAppend(ReadBack(front), [a], env);
  }

  /** A scheme word and a space in front of trimmed text give trimmed text. */
  lemma SchemeValueTrimmed(scheme: string, t: string)
    requires scheme != [] && !IsSpace(scheme[0]) && t != [] && Trimmed(t)
    ensures Trimmed(scheme + t)
  {
    var v := scheme + t;
    assert v[0] == scheme[0] && v[|v| - 1] == t[|t| - 1];
  }

  /** A non-empty, trimmed, single-line Bearer token comes back as itself, unless
      the user's headers carry their own `Authorization` key. */
  lemma ReimportBearer(p: CurlPayload, env: Env)
    requires Reimportable(p, env)
    requires p.auth.Bearer? && TokenText(p.auth.token) && Trimmed(p.auth.token)
    requires forall kv :: kv in p.headers ==> kv.key != "Authorization"
    ensures var r := ParseCurlCommand(GenerateCurlCommand(p, env).value, env);
      r.Some? && r.value.auth == p.auth
  {
    var t := p.auth.token;
    var v := "Bearer " + t;
    assert AuthHeaderValue(p.auth, env) == Some(v);
    SchemeValueTrimmed("Bearer ", t);
    AuthorizationKey();
    BearerRecognised("Authorization", t, env);
    ExportedAuthorizationLast(p, env, v);
    ReimportAuth(p, env);
  }

  /** Basic credentials come back as themselves when the user name has no colon and
      the encoded text is a trimmed single-line token that decodes back to
      `user:password`, unless the user's headers carry their own `Authorization`
      key. */
  lemma ReimportBasic(p: CurlPayload, env: Env)
    requires Reimportable(p, env)
    requires p.auth.Basic? && ':' !in p.auth.username
    requires var e := env.btoa(Credentials(p.auth.username, p.auth.password));
      e.Some? && TokenText(e.value) && Trimmed(e.value) && env.atob(e.value) == Some(Credentials(p.auth.username, p.auth.password))
    requires forall kv :: kv in p.headers ==> kv.key != "Authorization"
    ensures var r := ParseCurlCommand(GenerateCurlCommand(p, env).value, env);
      r.Some? && r.value.auth == p.auth
  {
    var e := env.btoa(Credentials(p.auth.username, p.auth.password)).value;
    var v := "Basic " + e;
    assert AuthHeaderValue(p.auth, env) == Some(v);
    SchemeValueTrimmed("Basic ", e);
    AuthorizationKey();
    BasicRecognised("Authorization", e, env);
    CredentialsRoundTrip(p.auth.username, p.auth.password);
    ExportedAuthorizationLast(p, env, v);
    ReimportAuth(p, env);
  }
}

=== FILE: seqs.dfy ===
/** Order-preserving de-duplication, the `[...new Set(xs)]` idiom, and the
    first-occurrence index it is specified against. */
module Seqs {

  predicate NoDuplicates<T(==)>(s: seq<T>) {
    forall i, j :: 0 <= i < j < |s| ==> s[i] != s[j]
  }

  /** Appending a new element keeps a sequence free of duplicates. */
  lemma NoDuplicatesAppend<T>(s: seq<T>, x: T)
    requires NoDuplicates(s) && x !in s
    ensures NoDuplicates(s + [x])
  {
  }

  /** The index of the first occurrence of `x` in `s`. */
  function FirstIndex<T(==)>(s: seq<T>, x: T): (k: nat)
    requires x in s
    ensures k < |s| && s[k] == x && x !in s[..k]
  {
    if s[0] == x then 0 else 1 + FirstIndex(s[1..], x)
  }

  /** A first occurrence inside a prefix is the first occurrence in the whole. */
  lemma {:induction false} FirstIndexPrefix<T>(s: seq<T>, n: nat, x: T)
    requires n <= |s| && x in s[..n]
    ensures FirstIndex(s[..n], x) == FirstIndex(s, x)
  {
  }

  /** `[...new Set(s)]`: each element of `s` exactly once, in order of first
      occurrence (see `DedupeOrdered`). */
  function Dedupe<T(==,!new)>(s: seq<T>): (r: seq<T>)
    ensures NoDuplicates(r)
    ensures forall x :: x in r <==> x in s
    ensures |r| <= |s|
    decreases |s|
  {
    if s == [] then []
    else
      var init := s[..|s| - 1];
      var d := Dedupe(init);
      var last := s[|s| - 1];
      assert forall x :: x in s <==> x in init || x == last by {
        assert s == init + [last];
      }
      if last in d then d
      else
        NoDuplicatesAppend(d, last);
        d + [last]
  }

  /** The de-duplicated elements appear in the order of their first occurrence. */
  lemma {:induction false} DedupeOrdered<T(!new)>(s: seq<T>)
    ensures forall i, j :: 0 <= i < j < |Dedupe(s)| ==> FirstIndex(s, Dedupe(s)[i]) < FirstIndex(s, Dedupe(s)[j])
    decreases |s|
  {
    if s != [] {
      var init := s[..|s| - 1];
      var d := Dedupe(init);
      var last := s[|s| - 1];
      var r := Dedupe(s);
      DedupeOrdered(init);
      assert s == init + [last];
      forall i, j | 0 <= i < j < |r|
        ensures FirstIndex(s, r[i]) < FirstIndex(s, r[j])
      {
        FirstIndexPrefix(s, |s| - 1, r[i]);
        if j < |d| {
          FirstIndexPrefix(s, |s| - 1, r[j]);
        } else {
          assert FirstIndex(s, last) == |s| - 1 by {
            assert last !in s[..|s| - 1];
          }
        }
      }
    }
  }

  /** De-duplicating one more element: it is appended exactly when it is new. */
  lemma DedupeSnoc<T(!new)>(s: seq<T>, x: T)
    ensures Dedupe(s + [x]) == if x in s then Dedupe(s) else Dedupe(s) + [x]
  {
    assert (s + [x])[..|s|] == s;
  }

  /** Appending nothing changes nothing. */
  lemma AppendNothing<T>(x: seq<T>)
    ensures x + [] == x
  {
  }

  /** A sequence is the part before index `i`, the element at `i`, and the rest. */
  lemma SplitAround<T>(s: seq<T>, i: nat)
    requires i < |s|
    ensures s == s[..i] + ([s[i]] + s[i + 1..])
  {
  }

  /** An element between two sequences is in their concatenation. */
  lemma InMiddle<T>(a: seq<T>, x: T, b: seq<T>)
    ensures x in a + ([x] + b)
  {
    assert (a + ([x] + b))[|a|] == x;
  }

  /** Concatenation is associative (stated once so that proofs need not rebuild
      the sequences element by element). */
  lemma ConcatAssoc<T>(x: seq<T>, y: seq<T>, z: seq<T>)
    ensures (x + y) + z == x + (y + z)
  {
  }

  /** Appending the head and then the tail of `s` appends `s`. */
  lemma AppendHeadTail<T>(x: seq<T>, s: seq<T>)
    requires s != []
    ensures x + [s[0]] + s[1..] == x + s
  {
    assert [s[0]] + s[1..] == s;
    ConcatAssoc(x, [s[0]], s[1..]);
  }

  /** `s.filter(p)`: the elements satisfying `p`, in order. */
  function Keep<T>(s: seq<T>, p: T -> bool): (r: seq<T>)
    ensures |r| <= |s|
    ensures forall i :: 0 <= i < |r| ==> p(r[i])
    decreases |s|
  {
    if s == [] then [] else (if p(s[0]) then [s[0]] else []) + Keep(s[1..], p)
  }

  /** Filtering a sequence with a known first element. */
  lemma KeepCons<T>(x: T, s: seq<T>, p: T -> bool)
    ensures Keep([x] + s, p) == (if p(x) then [x] else []) + Keep(s, p)
  {
    assert ([x] + s)[1..] == s;
  }

  /** Filtering a concatenation filters the parts. */
  lemma {:induction false} KeepAppend<T>(a: seq<T>, b: seq<T>, p: T -> bool)
    ensures Keep(a + b, p) == Keep(a, p) + Keep(b, p)
    decreases |a|
  {
    if a == [] {
      assert a + b == b;
    } else {
      assert (a + b)[1..] == a[1..] + b;
      KeepAppend(a[1..], b, p);
      ConcatAssoc(if p(a[0]) then [a[0]] else [], Keep(a[1..], p), Keep(b, p));
    }
  }

  /** A filter every element passes keeps everything. */
  lemma {:induction false} KeepAll<T>(s: seq<T>, p: T -> bool)
    requires forall i :: 0 <= i < |s| ==> p(s[i])
    ensures Keep(s, p) == s
    decreases |s|
  {
    if s != [] {
      KeepAll(s[1..], p);
      assert [s[0]] + s[1..] == s;
    }
  }

  /** A filter no element passes keeps nothing. */
  lemma {:induction false} KeepNone<T>(s: seq<T>, p: T -> bool)
    requires forall i :: 0 <= i < |s| ==> !p(s[i])
    ensures Keep(s, p) == []
    decreases |s|
  {
    if s != [] {
      KeepNone(s[1..], p);
    }
  }

  /** `s.flatMap(f)`: the results of `f` on each element, concatenated in order. */
  function FlatMap<T, U>(s: seq<T>, f: T -> seq<U>): seq<U>
    decreases |s|
  {
    if s == [] then [] else f(s[0]) + FlatMap(s[1..], f)
  }

  /** A flat map of a concatenation concatenates the flat maps. */
  lemma {:induction false} FlatMapAppend<T, U>(a: seq<T>, b: seq<T>, f: T -> seq<U>)
    ensures FlatMap(a + b, f) == FlatMap(a, f) + FlatMap(b, f)
    decreases |a|
  {
    if a == [] {
      assert a + b == b;
    } else {
      assert (a + b)[0] == a[0] && (a + b)[1..] == a[1..] + b;
      FlatMapAppend(a[1..], b, f);
      ConcatAssoc(f(a[0]), FlatMap(a[1..], f), FlatMap(b, f));
    }
  }

  /** A flat map that sends every element to itself alone changes nothing. */
  lemma {:induction false} FlatMapFixed<T>(s: seq<T>, f: T -> seq<T>)
    requires forall i :: 0 <= i < |s| ==> f(s[i]) == [s[i]]
    ensures FlatMap(s, f) == s
    decreases |s|
  {
    if s != [] {
      FlatMapFixed(s[1..], f);
      assert [s[0]] + s[1..] == s;
    }
  }
}

=== FILE: strings.dfy ===
/** JavaScript string primitives the source relies on: the `\s` whitespace class,
    `trim`, ASCII case mapping, `startsWith`/`endsWith`/`includes`, `indexOf`,
    `split` and `join`. */
module Strings {
  import opened Options

  /** ECMAScript WhiteSpace and LineTerminator code points: the set matched by the
      regular-expression class `\s` and removed by `String.prototype.trim`. */
  predicate IsSpace(c: char) {
    || c == '\t' || c == '\n' || c == '\U{000B}' || c == '\U{000C}' || c == '\r' || c == ' '
    || c == '\U{00A0}' || c == '\U{1680}' || ('\U{2000}' <= c <= '\U{200A}')
    || c == '\U{2028}' || c == '\U{2029}' || c == '\U{202F}' || c == '\U{205F}'
    || c == '\U{3000}' || c == '\U{FEFF}'
  }

  /** The characters the regular-expression `.` does not match (no `s` flag). */
  predicate IsLineTerminator(c: char) {
    c == '\n' || c == '\r' || c == '\U{2028}' || c == '\U{2029}'
  }

  predicate AllSpace(s: string) {
    forall i :: 0 <= i < |s| ==> IsSpace(s[i])
  }

  /** `s.trimStart()`: the suffix left after dropping leading whitespace. */
  function TrimStart(s: string): (r: string)
    ensures |r| <= |s| && r == s[|s| - |r|..]
    ensures AllSpace(s[..|s| - |r|])
    ensures r != [] ==> !IsSpace(r[0])
  {
    if s != [] && IsSpace(s[0]) then
      var r := TrimStart(s[1..]);
      var k := |s| - |r|;
      assert s[1..][|s| - 1 - |r|..] == s[k..];
      assert forall i :: 1 <= i < k ==> s[i] == s[1..][..|s| - 1 - |r|][i - 1];
      r
    else
      assert s[..0] == [];
      s
  }

  /** `s.trimEnd()`: the prefix left after dropping trailing whitespace. */
  function TrimEnd(s: string): (r: string)
    ensures |r| <= |s| && r == s[..|r|]
    ensures AllSpace(s[|r|..])
    ensures r != [] ==> !IsSpace(r[|r| - 1])
  {
    if s != [] && IsSpace(s[|s| - 1]) then TrimEnd(s[..|s| - 1]) else s
  }

  /** Neither the first nor the last character is whitespace. */
  predicate Trimmed(s: string) {
    s == [] || (!IsSpace(s[0]) && !IsSpace(s[|s| - 1]))
  }

  /** `s` is `r` with the `k` characters before it and all those after it whitespace. */
  predicate Padded(s: string, k: nat, r: string) {
    k + |r| <= |s| && r == s[k..k + |r|] && AllSpace(s[..k]) && AllSpace(s[k + |r|..])
  }

  /** `s.trim()`: the input with its leading and trailing whitespace removed. The
      result is empty exactly for blank input, never starts or ends with whitespace,
      and leaves a string without surrounding whitespace alone. */
  function Trim(s: string): (r: string)
    ensures |r| <= |s|
    ensures r == [] <==> AllSpace(s)
    ensures Trimmed(r)
    ensures Trimmed(s) ==> r == s
  {
    var t := TrimStart(s);
    var r := TrimEnd(t);
    TrimSlices(s, t, r, |s| - |t|);
    r
  }

  /** What `trim` removes: the result is a slice of the input with only whitespace
      before and after it. */
  lemma TrimPadded(s: string)
    ensures exists k :: Padded(s, k, Trim(s))
  {
    var t := TrimStart(s);
    var k := |s| - |t|;
    assert Trim(s) == TrimEnd(t);
    TrimSlices(s, t, TrimEnd(t), k);
    assert Padded(s, k, Trim(s));
  }

  /** What `trimStart` followed by `trimEnd` leaves: the text between the leading
      whitespace `s[..k]` and the trailing whitespace. */
  lemma TrimSlices(s: string, t: string, r: string, k: nat)
    requires k <= |s| && t == s[k..] && AllSpace(s[..k]) && (t != [] ==> !IsSpace(t[0]))
    requires |r| <= |t| && r == t[..|r|] && AllSpace(t[|r|..]) && (r != [] ==> !IsSpace(r[|r| - 1]))
    ensures Padded(s, k, r)
    ensures r == [] <==> AllSpace(s)
    ensures Trimmed(r)
    ensures Trimmed(s) ==> r == s
  {
    assert s[k + |r|..] == t[|r|..];
    if r == [] {
      assert s[..k] == s;
    } else {
      assert r[0] == t[0];
    }
  }

  /** `trimStart` drops exactly a leading whitespace run. */
  lemma {:induction false} TrimStartAfterBlanks(ws: string, t: string)
    requires AllSpace(ws) && (t == [] || !IsSpace(t[0]))
    ensures TrimStart(ws + t) == t
    decreases |ws|
  {
    if ws == [] {
      assert ws + t == t;
    } else {
      assert (ws + t)[0] == ws[0];
      assert (ws + t)[1..] == ws[1..] + t;
      TrimStartAfterBlanks(ws[1..], t);
    }
  }

  /** Trimming twice is trimming once. */
  lemma TrimIdempotent(s: string)
    ensures Trim(Trim(s)) == Trim(s)
  {
  }

  /** Every character of the trimmed text comes from the original. */
  lemma TrimInfix(s: string)
    ensures forall c :: c in Trim(s) ==> c in s
  {
    var t := TrimStart(s);
    var r := TrimEnd(t);
    var k := |s| - |t|;
    assert r == Trim(s);
    assert r == s[k..][..|r|];
    SliceInfix(s, k, r);
  }

  /** Every character of a slice occurs in the whole. */
  lemma SliceInfix(s: string, k: nat, r: string)
    requires k + |r| <= |s| && r == s[k..][..|r|]
    ensures forall c :: c in r ==> c in s
  {
    forall c | c in r ensures c in s {
      var i :| 0 <= i < |r| && r[i] == c;
      assert s[k + i] == c;
    }
  }

  /** A leading space in front of already trimmed text is trimmed away. */
  lemma TrimLeadingBlank(v: string)
    requires Trimmed(v)
    ensures Trim(" " + v) == v
  {
    var s := " " + v;
    assert s[1..] == v;
    if v != [] {
      assert TrimStart(s) == TrimStart(v) == v;
      assert TrimEnd(v) == v;
    } else {
      assert AllSpace(s);
    }
  }

  predicate IsAsciiUpper(c: char) { 'A' <= c <= 'Z' }

  predicate IsAsciiLower(c: char) { 'a' <= c <= 'z' }

  predicate IsAsciiAlpha(c: char) { IsAsciiUpper(c) || IsAsciiLower(c) }

  predicate IsAsciiDigit(c: char) { '0' <= c <= '9' }

  function LowerChar(c: char): char {
    if IsAsciiUpper(c) then (c as int - 'A' as int + 'a' as int) as char else c
  }

  function UpperChar(c: char): char {
    if IsAsciiLower(c) then (c as int - 'a' as int + 'A' as int) as char else c
  }

  /** Upper-casing leaves no lower-case letter and neither creates nor removes
      whitespace. */
  lemma UpperCharFacts(c: char)
    ensures !IsAsciiLower(UpperChar(c))
    ensures IsSpace(UpperChar(c)) <==> IsSpace(c)
  {
  }

  /** Upper-cased text has no lower-case letter, and upper-casing keeps text free
      of surrounding whitespace. */
  lemma UpperKeepsTrimmed(t: string)
    ensures Trimmed(t) ==> Trimmed(Upper(t))
    ensures forall i :: 0 <= i < |t| ==> !IsAsciiLower(Upper(t)[i])
  {
    var r := Upper(t);
    if r != [] {
      UpperCharFacts(t[0]);
      UpperCharFacts(t[|t| - 1]);
    }
    forall i | 0 <= i < |t|
      ensures !IsAsciiLower(r[i])
    {
      UpperCharFacts(t[i]);
    }
  }

  /** `s.toLowerCase()` on the ASCII letters. */
  function Lower(s: string): (r: string)
    ensures |r| == |s|
    ensures forall i :: 0 <= i < |s| ==> r[i] == LowerChar(s[i])
  {
    seq(|s|, i requires 0 <= i < |s| => LowerChar(s[i]))
  }

  /** `s.toUpperCase()` on the ASCII letters. */
  function Upper(s: string): (r: string)
    ensures |r| == |s|
    ensures forall i :: 0 <= i < |s| ==> r[i] == UpperChar(s[i])
  {
    seq(|s|, i requires 0 <= i < |s| => UpperChar(s[i]))
  }

  /** Equality after lower-casing both sides. */
  predicate EqualsIgnoreCase(a: string, b: string) {
    Lower(a) == Lower(b)
  }

  predicate StartsWith(s: string, prefix: string) {
    |prefix| <= |s| && s[..|prefix|] == prefix
  }

  lemma StartsWithTransitive(a: string, b: string, c: string)
    requires StartsWith(a, b) && StartsWith(b, c)
    ensures StartsWith(a, c)
  {
    assert a[..|c|] == a[..|b|][..|c|];
  }

  predicate EndsWith(s: string, suffix: string) {
    |suffix| <= |s| && s[|s| - |suffix|..] == suffix
  }

  /** `s.includes(sub)`. */
  predicate Contains(s: string, sub: string)
    decreases |s|
  {
    StartsWith(s, sub) || (s != [] && Contains(s[1..], sub))
  }

  /** `s.indexOf(c)` for a one-character needle, `None` for `-1`. */
  function IndexOf(s: string, c: char): (r: Option<nat>)
    ensures r.Some? ==> r.value < |s| && s[r.value] == c && c !in s[..r.value]
    ensures r.None? <==> c !in s
  {
    if s == [] then None
    else if s[0] == c then Some(0)
    else match IndexOf(s[1..], c)
      case None => None
      case Some(i) => Some(i + 1)
  }

  /** `parts.join(sep)`. */
  function Join(parts: seq<string>, sep: string): (r: string)
    ensures |parts| > 0 ==> StartsWith(r, parts[0])
  {
    if |parts| == 0 then ""
    else if |parts| == 1 then parts[0]
    else parts[0] + sep + Join(parts[1..], sep)
  }

  /** `s.split(c)` for a one-character separator: the pieces between separators,
      which never contain the separator and join back to `s`. */
  function Split(s: string, c: char): (r: seq<string>)
    ensures |r| >= 1
    ensures forall i :: 0 <= i < |r| ==> c !in r[i]
    ensures Join(r, [c]) == s
    decreases |s|
  {
    match IndexOf(s, c)
    case None => [s]
    case Some(i) =>
      var rest := Split(s[i + 1..], c);
      assert s == s[..i] + [c] + s[i + 1..];
      [s[..i]] + rest
  }

  /** The concatenation of all pieces. */
  function Concat(parts: seq<string>): string {
    if parts == [] then "" else parts[0] + Concat(parts[1..])
  }

  /** `s.repeat(n)`. */
  function Repeat(s: string, n: nat): (r: string)
    ensures |r| == n * |s|
  {
    if n == 0 then "" else s + Repeat(s, n - 1)
  }
}

=== FILE: tokenizer.dfy ===
/** `tokenizeShellCommand` (src/services/curlImportService.js): line-continuation
    folding, trimming, and a character-level quoting state machine that splits a
    command line into unquoted arguments. */
module Tokenizer {
  import opened Strings
  import Seqs

  /** A backslash followed by LF, or by CR LF, starts at index `i`. */
  predicate ContinuationAt(s: string, i: int) {
    && 0 <= i < |s|
    && s[i] == '\\'
    && ((i + 1 < |s| && s[i + 1] == '\n') || (i + 2 < |s| && s[i + 1] == '\r' && s[i + 2] == '\n'))
  }

  /** No line continuation anywhere in `s`. */
  predicate NoContinuation(s: string) {
    forall i :: 0 <= i < |s| ==> !ContinuationAt(s, i)
  }

  /** `s` ends in a backslash, or a backslash and CR: text appended after it could
      complete a line continuation that straddles the boundary. */
  predicate EndsInPartialContinuation(s: string) {
    || (|s| >= 1 && s[|s| - 1] == '\\')
    || (|s| >= 2 && s[|s| - 2] == '\\' && s[|s| - 1] == '\r')
  }

  /** `s.replace(/\\\r?\n/g, " ")`: each line continuation, found scanning left to
      right, becomes one space; the first character of the result is that space or
      the first character of `s`. */
  function FoldContinuations(s: string): (r: string)
    ensures |r| <= |s|
    ensures s != [] ==> r != [] && r[0] == (if ContinuationAt(s, 0) then ' ' else s[0])
  {
    if s == [] then []
    else if ContinuationAt(s, 0) then " " + FoldContinuations(s[if s[1] == '\n' then 2 else 3..])
    else [s[0]] + FoldContinuations(s[1..])
  }

  /** Dropping the first character shifts every continuation position by one. */
  lemma ContinuationShift(s: string, i: int)
    requires s != [] && 0 <= i
    ensures ContinuationAt(s[1..], i) <==> ContinuationAt(s, i + 1)
  {
  }

  /** Text without continuations passes through the folding unchanged. */
  lemma {:induction false} FoldIdentity(s: string)
    requires NoContinuation(s)
    ensures FoldContinuations(s) == s
  {
    if s != [] {
      assert !ContinuationAt(s, 0);
      forall i | 0 <= i < |s[1..]| ensures !ContinuationAt(s[1..], i) {
        ContinuationShift(s, i);
      }
      FoldIdentity(s[1..]);
    }
  }

  /** The folded text holds no continuation, so folding is idempotent. */
  lemma {:induction false} FoldLeavesNoContinuation(s: string)
    ensures NoContinuation(FoldContinuations(s))
  {
    if s == [] {
    } else {
      var r := FoldContinuations(s);
      if ContinuationAt(s, 0) {
        var k := if s[1] == '\n' then 2 else 3;
        var rest := FoldContinuations(s[k..]);
        FoldLeavesNoContinuation(s[k..]);
        assert r == " " + rest;
        forall i | 0 <= i < |r| ensures !ContinuationAt(r, i) {
          if i > 0 {
            assert r[1..] == rest;
            ContinuationShift(r, i - 1);
          }
        }
      } else {
        var rest := FoldContinuations(s[1..]);
        FoldLeavesNoContinuation(s[1..]);
        assert r == [s[0]] + rest;
        forall i | 0 <= i < |r| ensures !ContinuationAt(r, i) {
          if i > 0 {
            assert r[1..] == rest;
            ContinuationShift(r, i - 1);
          } else if s[0] == '\\' && rest != [] {
            var t := s[1..];
            assert rest[0] == (if ContinuationAt(t, 0) then ' ' else t[0]);
            if !ContinuationAt(t, 0) && t[0] == '\r' && |t| >= 2 {
              assert rest == [t[0]] + FoldContinuations(t[1..]);
              assert rest[1] == (if ContinuationAt(t[1..], 0) then ' ' else t[1]);
            }
          }
        }
      }
    }
  }

  /** Folding distributes over a concatenation whose left part does not end in the
      beginning of a continuation. */
  lemma {:induction false} FoldAppend(a: string, b: string)
    requires !EndsInPartialContinuation(a)
    ensures FoldContinuations(a + b) == FoldContinuations(a) + FoldContinuations(b)
  {
    if a == [] {
      assert a + b == b;
    } else if ContinuationAt(a, 0) {
      var k := if a[1] == '\n' then 2 else 3;
      FoldHeadContinuation(a, b, k);
      FoldAppend(a[k..], b);
      Seqs.ConcatAssoc(" ", FoldContinuations(a[k..]), FoldContinuations(b));
    } else {
      FoldHeadPlain(a, b);
      FoldAppend(a[1..], b);
      Seqs.ConcatAssoc([a[0]], FoldContinuations(a[1..]), FoldContinuations(b));
    }
  }

  /** A continuation at the front of `a` is folded the same way in `a + b`. */
  lemma FoldHeadContinuation(a: string, b: string, k: nat)
    requires ContinuationAt(a, 0) && !EndsInPartialContinuation(a)
    requires k == if a[1] == '\n' then 2 else 3
    ensures k <= |a| && !EndsInPartialContinuation(a[k..])
    ensures FoldContinuations(a) == " " + FoldContinuations(a[k..])
    ensures FoldContinuations(a + b) == " " + FoldContinuations(a[k..] + b)
  {
    assert ContinuationAt(a + b, 0);
    assert (a + b)[k..] == a[k..] + b;
  }

  /** A plain first character of `a` is kept the same way in `a + b`. */
  lemma FoldHeadPlain(a: string, b: string)
    requires a != [] && !ContinuationAt(a, 0) && !EndsInPartialContinuation(a)
    ensures !EndsInPartialContinuation(a[1..])
    ensures FoldContinuations(a) == [a[0]] + FoldContinuations(a[1..])
    ensures FoldContinuations(a + b) == [a[0]] + FoldContinuations(a[1..] + b)
  {
    assert !ContinuationAt(a + b, 0);
    assert (a + b)[1..] == a[1..] + b;
  }

  /** Which quote, if any, is open. */
  datatype Quote = Unquoted | InSingle | InDouble

  /** The scanner state: the open quote, whether the previous character was an
      escaping backslash, the token being built, and the tokens emitted so far. */
  datatype Scanner = Scanner(quote: Quote, escaping: bool, current: string, tokens: seq<string>)

  const Start := Scanner(Unquoted, false, "", [])

  predicate NonEmpty(tokens: seq<string>) {
    forall i :: 0 <= i < |tokens| ==> tokens[i] != ""
  }

  /** One iteration of the scanning loop. */
  function Step(st: Scanner, c: char): Scanner {
    if st.escaping then st.(current := st.current + [c], escaping := false)
    else if c == '\\' then
      if st.quote == InSingle then st.(current := st.current + [c]) else st.(escaping := true)
    else if st.quote == InSingle then
      if c == '\'' then st.(quote := Unquoted) else st.(current := st.current + [c])
    else if st.quote == InDouble then
      if c == '"' then st.(quote := Unquoted) else st.(current := st.current + [c])
    else if c == '\'' then st.(quote := InSingle)
    else if c == '"' then st.(quote := InDouble)
    else if IsSpace(c) then
      if st.current != "" then st.(tokens := st.tokens + [st.current], current := "") else st
    else st.(current := st.current + [c])
  }

  /** The scanning loop over all of `s`: emitted tokens are only ever appended, and
      an empty token is never emitted. */
  function Run(st: Scanner, s: string): (r: Scanner)
    ensures |st.tokens| <= |r.tokens| && r.tokens[..|st.tokens|] == st.tokens
    ensures NonEmpty(st.tokens) ==> NonEmpty(r.tokens)
    decreases |s|
  {
    if s == [] then st else Run(Step(st, s[0]), s[1..])
  }

  /** The characters the scanner treats specially outside quotes. */
  predicate IsPlain(c: char) {
    c != '\'' && c != '"' && c != '\\' && !IsSpace(c)
  }

  /** `tokenizeShellCommand(input)`: no token is empty, and text still buffered at
      the end (even inside an unterminated quote) is emitted. */
  function Tokenize(input: string): (r: seq<string>)
    ensures NonEmpty(r)
  {
    Finish(Run(Start, Prepare(input)))
  }

  /** The text the scanning loop sees: continuations folded, then trimmed. */
  function Prepare(input: string): string {
    Trim(FoldContinuations(input))
  }

  /** The tokens after the loop: a non-empty buffer is emitted as the last token. */
  function Finish(st: Scanner): (r: seq<string>)
    ensures NonEmpty(st.tokens) ==> NonEmpty(r)
  {
    if st.current != "" then st.tokens + [st.current] else st.tokens
  }

  /** Scanning a concatenation is scanning the parts in turn. */
  lemma {:induction false} RunAppend(st: Scanner, a: string, b: string)
    ensures Run(st, a + b) == Run(Run(st, a), b)
    decreases |a|
  {
    if a == [] {
      assert a + b == b;
    } else {
      assert (a + b)[1..] == a[1..] + b;
      RunAppend(Step(st, a[0]), a[1..], b);
    }
  }

  /** Outside single quotes a backslash is dropped and the next character, whatever
      it is, joins the current token. */
  lemma EscapeOutsideSingle(st: Scanner, c: char)
    requires !st.escaping && st.quote != InSingle
    ensures Run(st, ['\\', c]) == st.(current := st.current + [c])
  {
    assert ['\\', c][1..] == [c];
    assert Run(st, ['\\', c]) == Run(st.(escaping := true), [c]);
  }

  /** Inside single quotes every character up to the next `'` is literal, backslash
      included. */
  lemma {:induction false} SingleQuotedLiteral(st: Scanner, s: string)
    requires st.quote == InSingle && !st.escaping && '\'' !in s
    ensures Run(st, s) == st.(current := st.current + s)
    decreases |s|
  {
    if s != [] {
      SingleQuotedLiteral(Step(st, s[0]), s[1..]);
      assert st.current + [s[0]] + s[1..] == st.current + s;
    }
  }

  /** Inside double quotes every character up to the next `"` is literal, as long
      as no backslash escapes it. */
  lemma {:induction false} DoubleQuotedLiteral(st: Scanner, s: string)
    requires st.quote == InDouble && !st.escaping && '"' !in s && '\\' !in s
    ensures Run(st, s) == st.(current := st.current + s)
    decreases |s|
  {
    if s != [] {
      DoubleQuotedLiteral(Step(st, s[0]), s[1..]);
      assert st.current + [s[0]] + s[1..] == st.current + s;
    }
  }

  /** Unquoted plain characters extend the current token. */
  lemma {:induction false} PlainWord(st: Scanner, w: string)
    requires st.quote == Unquoted && !st.escaping
    requires forall i :: 0 <= i < |w| ==> IsPlain(w[i])
    ensures Run(st, w) == st.(current := st.current + w)
    decreases |w|
  {
    if w != [] {
      PlainWord(Step(st, w[0]), w[1..]);
      assert st.current + [w[0]] + w[1..] == st.current + w;
    }
  }

  /** Unquoted whitespace ends the current token, emitting it when non-empty. */
  lemma {:induction false} Blanks(st: Scanner, w: string)
    requires st.quote == Unquoted && !st.escaping && w != [] && AllSpace(w)
    ensures Run(st, w) == Scanner(Unquoted, false, "",
      if st.current != "" then st.tokens + [st.current] else st.tokens)
    decreases |w|
  {
    var st' := Step(st, w[0]);
    if |w| > 1 {
      Blanks(st', w[1..]);
    }
  }
}

=== FILE: url.dfy ===
/** `normalizeHttpUrl` (src/lib/url.js): scheme defaulting for user-typed URLs. */
module Url {
  import opened Strings

  /** A character of the `scheme` production of RFC 3986 section 3.1 after its
      first letter. */
  predicate IsSchemeChar(c: char) {
    IsAsciiAlpha(c) || IsAsciiDigit(c) || c == '+' || c == '-' || c == '.'
  }

  /** `^[a-zA-Z][a-zA-Z\d+\-.]*:\/\/` matches with `j` characters taken by the
      starred class. */
  predicate SchemeMatchAt(s: string, j: nat) {
    && 1 + j + 3 <= |s|
    && IsAsciiAlpha(s[0])
    && (forall i :: 1 <= i < 1 + j ==> IsSchemeChar(s[i]))
    && s[1 + j..1 + j + 3] == "://"
  }

  /** `SCHEME_PREFIX_REGEX.test(s)`. */
  predicate HasSchemePrefix(s: string) {
    exists j :: 0 <= j < |s| && SchemeMatchAt(s, j)
  }

  /** `normalizeHttpUrl(input)`: blank input gives `""`; any other result carries a
      scheme prefix and ends with the trimmed input, which is kept as is when it
      already has a scheme and otherwise gets exactly the missing part of
      `https://`. */
  function NormalizeHttpUrl(input: string): (r: string)
    ensures r == "" <==> AllSpace(input)
    ensures r != "" ==> HasSchemePrefix(r) && EndsWith(r, Trim(input))
    ensures HasSchemePrefix(Trim(input)) ==> r == Trim(input)
    ensures Trim(input) != "" && !HasSchemePrefix(Trim(input)) ==>
      && StartsWith(r, "https://")
      && |r| == |Trim(input)| + (if StartsWith(Trim(input), "//") then 6 else 8)
  {
    var trimmed := Trim(input);
    if trimmed == "" then ""
    else if HasSchemePrefix(trimmed) then trimmed
    else
      if StartsWith(trimmed, "//") then
        HttpsPrefixed("https:", trimmed);
        "https:" + trimmed
      else
        HttpsPrefixed("https://", trimmed);
        "https://" + trimmed
  }

  /** `https:` in front of `//...`, or `https://` in front of anything, gives a URL
      with the `https` scheme that ends with the original text. */
  lemma HttpsPrefixed(prefix: string, t: string)
    requires prefix == "https://" || (prefix == "https:" && StartsWith(t, "//"))
    ensures SchemeMatchAt(prefix + t, 4)
    ensures StartsWith(prefix + t, "https://")
    ensures EndsWith(prefix + t, t)
  {
    var r := prefix + t;
    assert r[|r| - |t|..] == t;
    if prefix == "https:" {
      assert r[..8] == "https:" + t[..2];
    } else {
      assert r[..8] == prefix;
    }
  }

  /** Normalising a normalised URL changes nothing. */
  lemma NormalizeIdempotent(input: string)
    ensures NormalizeHttpUrl(NormalizeHttpUrl(input)) == NormalizeHttpUrl(input)
  {
    var r := NormalizeHttpUrl(input);
    if r != "" {
      var t := Trim(input);
      assert r[|r| - 1] == t[|t| - 1] by {
        assert r[|r| - |t|..] == t;
      }
      var j :| 0 <= j < |r| && SchemeMatchAt(r, j);
      assert !IsSpace(r[0]);
      assert Trim(r) == r;
    }
  }
}
